=== FILE: README.md ===
# Back2Front in Dafny

Back2Front is an Express application whose pages are XTemplate templates that
render on the server and again in the browser. This project models the parts
of it that are plain data manipulation and proves properties about them:

- the development asset middlewares (`lib/assets-handler.js` and
  `lib/assert-handler.js`). They find the multi-part extension of a request,
  wrap a template or a script as an AMD module, write it under a shadow path
  (a `~` before the first segment) and rewrite `req.url`;
- the server template directives (`lib/xtpl-commands.js`). These cover asset
  path resolution with the `module@version` rewrite, the per-render asset lists
  and the `resolvePath` command;
- the template adapter (`lib/xtpl.js`). This covers path normalisation, the
  default extension, the loader path, `shortenURL`, the hook markup that
  `render` inserts, the caches and the configuration step;
- the browser twins of the directives. These are `public/assets/xtpl/commands.js`
  and `public/assets/common/xtpl/1.0/commands.js`, together with the browser
  template loader in `public/assets/common/xtpl/1.0/xtpl.js`;
- the loader URL rewrites of the three `bowl-config` files;
- the route bookkeeping:
  - the route helpers (`routes/route-helpers.js`);
  - route mounting, the request stages and the error handler (`routes/init.js`);
  - the page types (`routes/page-type.js`);
  - the environment settings (`config.js`);
- the generic helpers of `lib/util.js` and of the template runtime's `util.js`.

Supporting modules model what the code borrows from its platform:

- `Strings`: the string operations of JavaScript that the code uses;
- `Json`: `JSON.stringify` of strings, and a parser that reads the output back;
- `JsValue`: JavaScript values and objects. An object lists its properties in
  creation order and enumerates them as JavaScript does: array-index keys
  first, in ascending order, then the other keys in creation order;
- `NodePath`: Node's POSIX `path` module, covering `normalize`, `join`,
  `dirname`, `basename`, `extname`, `resolve` and `relative`.

Regular expressions are modelled as explicit scanners with the leftmost
and greedy semantics of JavaScript. Examples:

- `((?:\.\w+)+)$` is the longest trailing run of `.word` groups;
- `\?.*$` cuts at the first `?` after which no line terminator follows;
- `\/{2,}` without the `g` flag collapses only the first run of slashes.

The file system is a map from paths to entries. Babel is a parameter
`compile: string -> Result<string, string>`. The current year, the `Referer`
header, the `window` globals and the md5 map are parameters too.

## Model

| member | source | states |
|---|---|---|
| AssetMiddleware.HandlerFor | lib/assets-handler.js:16-58 | The template handler is chosen exactly for `.xtpl.js`. The Babel handler is chosen exactly for `.js` in `assets-handler`. The verbatim handler is chosen exactly for `.mod.js` in `assert-handler`. Every other extension has no handler. |
| AssetMiddleware.TemplateSource | lib/assets-handler.js:19-22 | A path ending in `.xtpl.js` (in any case) loses exactly its final `.js` and ends in `.xtpl`. Any other path is unchanged. |
| AssetMiddleware.TempPathOf | lib/assert-handler.js:34-37 | The compiled copy gets `.defined` before the final `.js` (after `.mod` in `assert-handler`) and keeps the rest of the path. A template keeps its path. A path without `.js` is unchanged. |
| AssetMiddleware.ShadowPathInsertsTilde | lib/assets-handler.js:73-81 | The shadow path is the request path with one `~` inserted after the leading slashes, so only the first non-empty segment changes. A path of slashes alone is unchanged. |
| AssetMiddleware.ModuleIdDropsFirstDirectory | lib/assets-handler.js:25 | The module id of `/<dir>/<rest>` is `<rest>`: the leading `/` and the first directory are dropped. |
| AssetMiddleware.ReadTemplateModuleRoundTrip | lib/assets-handler.js:23-29 | The generated template module can be read back, and it gives exactly the id and the template text it was built from. |
| AssetMiddleware.WrapModule | lib/assert-handler.js:38-42 | The wrapped script is the fixed `define(...)` header, then the source verbatim, then `\n});`. |
| AssetMiddleware.ContentOf | lib/assets-handler.js:23-47 | A template becomes its module. A `.mod.js` script is wrapped verbatim. A `.js` script is wrapped after compilation, and the step fails exactly when compilation fails. |
| AssetMiddleware.Emit | lib/assets-handler.js:83-88 | The generated file is written and `req.url` becomes the shadow path. Writing fails exactly when compilation failed, the target is a directory, or a directory on the way to it is a file. |
| AssetMiddleware.EmitUnderFileFails | lib/assets-handler.js:83-86 | A target below an existing file cannot be written, because `outputFileSync` cannot create the directory. |
| AssetMiddleware.Serve | lib/assets-handler.js:59-88 | A missing local file gives status 404 with the body `"<path>" does not exist`, and nothing is written. The request is served exactly when the local path is a file, its content builds, and the shadow target can be written: it is not a directory, and no directory on the way to it is a file. Then the generated content is written at the shadow path, and `req.url` is rewritten to it. |
| AssetMiddleware.Handle | lib/assets-handler.js:51-92 | The query is cut off and the extension run picks the handler. Without a handler the request passes on untouched. With one, the handler's outcome is never that untouched pass. |
| AssetMiddleware.PassThrough | lib/assets-handler.js:58-91 | A request whose extension run is not handled is passed on, with `req.url` and the files unchanged. |
| AssetMiddleware.ServedTemplateReadsBack | lib/assets-handler.js:83-88 | A served template request writes, at the shadow path, a module that reads back as the module id and the exact template text. |
| Patterns.ExtRunSound | lib/assets-handler.js:54-56 | The extension found is a run of `.word` groups at the end of the path. |
| Patterns.ExtRunMaximal | lib/assets-handler.js:54-56 | No longer trailing run of `.word` groups exists, so `x.xtpl.js` gives `.xtpl.js` and not `.js`. |
| Patterns.StripQuery | lib/assets-handler.js:52 | The result is a prefix of the URL. It stops at the first `?` that has no line terminator after it, and no earlier `?` qualifies. |
| Patterns.StripQueryIdempotent | lib/assets-handler.js:52 | Cutting the query twice is cutting it once. |
| Patterns.FinalExtStart | public/assets/xtpl/commands.js:71 | The position found holds the dot of `\.\w+$`. |
| Patterns.FinalExtStartUnique | public/assets/xtpl/commands.js:71 | Every dot followed only by word characters up to the end is the position found. |
| Patterns.InsertBeforeFinalExt | public/assets/xtpl/commands.js:71-73 | With a final extension, the hash is inserted as `.<hash>` right before it. Without one the path is unchanged. |
| Util.IsURLIff | lib/util.js:47 | The scanner is true exactly when the string starts with `//`, or with letters followed by `://`. |
| Util.LowerURLIsURL | public/assets/xtpl/commands.js:36 | A URL for the lower-case browser pattern is also a URL for `util.isURL`. |
| Util.EachEntries | lib/util.js:17-34 | An array visits its items with their indices in order. A string visits each character with its index. An object without `length` visits its own entries in enumeration order. An object with a `length` visits index `i` exactly when `i < length` holds after `length` is converted to a number. Any other value visits nothing. |
| Util.IndexCount | lib/util.js:28-29 | The loop `++i < len` runs exactly for the indices below the converted `len`: none for `NaN` or a length that is not positive. |
| Util.EachEntriesCount | lib/util.js:28-29 | An object with a `length` gets as many visits as the loop test admits. |
| Util.EachNonNumericLength | lib/util.js:28-29 | A `length` of `"<n>"` visits `n` indices and `true` visits one. `null`, another object and a negative number visit none. |
| Util.EachNegatedStringLength | lib/util.js:28-29 | A `length` of `"-"` followed by decimal digits visits nothing. |
| Util.TakeUntilStop | lib/util.js:26-33 | The visits are a prefix of the entries. Only the last visit may return `false`, and the walk stops early only after such a visit. |
| Util.TakeUntilStopSkips | lib/util.js:29-33 | Visits that do not stop pass straight through to the rest of the walk. |
| Util.VisitEntries | lib/util.js:22-33 | The loop visits entries in order and stops right after the first visit that returns `false`, making exactly the visits of `TakeUntilStop`. |
| Util.Each | lib/util.js:17-38 | The method makes exactly the visits of `EachVisits`, with none for `null` or `undefined`, and returns its input. |
| RuntimeUtil.ObjectKeys | public/assets/lib/xtpl/4.6/xtemplate/runtime/util.js:18-29 | There is one key per own entry, and a name is a key exactly when it is an own property. |
| RuntimeUtil.ObjectKeysDistinct | public/assets/lib/xtpl/4.6/xtemplate/runtime/util.js:18-29 | No key is listed twice. |
| RuntimeUtil.EachAgreesWithLib | public/assets/lib/xtpl/4.6/xtemplate/runtime/util.js:31-61 | The runtime's `each` makes the same visits as `lib/util.js`'s `each` on every value. |
| RuntimeUtil.Mix | public/assets/lib/xtpl/4.6/xtemplate/runtime/util.js:62-71 | A falsy source leaves the target as it is. In creation order, the target's keys stay at the front. The source's properties are copied in its enumeration order. |
| RuntimeUtil.MixGet | public/assets/lib/xtpl/4.6/xtemplate/runtime/util.js:62-71 | After `mix`, a key of the source reads as in the source, and every other key reads as before. |
| RuntimeUtil.MergeGet | public/assets/lib/xtpl/4.6/xtemplate/runtime/util.js:98-109 | Each key of `merge` holds the value of the last truthy argument that defines it, and falsy arguments are skipped. |
| RuntimeUtil.Placeholder | public/assets/lib/xtpl/4.6/xtemplate/runtime/util.js:8 | A match is `{`, a non-empty name without braces, then `}`. |
| RuntimeUtil.Substitute | public/assets/lib/xtpl/4.6/xtemplate/runtime/util.js:82-85 | A non-string, or a falsy map, is returned unchanged. A string stays a string. |
| RuntimeUtil.SubstituteHole | public/assets/lib/xtpl/4.6/xtemplate/runtime/util.js:87-92 | `{name}` is replaced by the property as a string, or by nothing when it is `undefined`. |
| RuntimeUtil.SubstituteEscapedHole | public/assets/lib/xtpl/4.6/xtemplate/runtime/util.js:88-89 | `\{name}` becomes the literal `{name}` without the backslash. |
| RuntimeUtil.SubstituteLiteral | public/assets/lib/xtpl/4.6/xtemplate/runtime/util.js:87 | Text without braces passes through unchanged. |
| RuntimeUtil.SubstituteSpelled | public/assets/lib/xtpl/4.6/xtemplate/runtime/util.js:82-93 | Spelling literal pieces and holes as a template, then substituting, gives the text those pieces stand for. |
| XtplCommands.RewriteRunModuleVersion | lib/xtpl-commands.js:18-23 | The segment `m@v` becomes `m/v/m`, splitting at the last `@`. |
| XtplCommands.RewriteAtSeparated | lib/xtpl-commands.js:18-23 | No rewrite crosses a `/` or `\`, so each side of a separator is rewritten on its own. |
| XtplCommands.RewriteAtNoAt | lib/xtpl-commands.js:18-23 | A path without `@` is unchanged. |
| XtplCommands.RewriteAtSegments | lib/xtpl-commands.js:18-23 | Rewriting a `/`-joined path rewrites every segment on its own. |
| XtplCommands.WithDefaultExt | lib/xtpl-commands.js:25-27 | The default extension is appended exactly when the path has no extension and a default is given. |
| XtplCommands.WithDefaultExtIdempotent | lib/xtpl-commands.js:25-27 | Adding the default extension twice is adding it once. |
| XtplCommands.ResolveAsset | lib/xtpl-commands.js:16-39 | Absolute paths and URLs are returned as they are. Under an absolute root, any path that does not start with `.` resolves to an absolute path or a URL. |
| XtplCommands.ResolveDotRelative | lib/xtpl-commands.js:16-32 | For any extension and any `module@version` rewrite, a path that starts with `.` after the rewrite is joined onto the directory of the referencing template. |
| XtplCommands.ResolveRootRelative | lib/xtpl-commands.js:16-34 | For any extension and any rewrite, any other relative path that is not a URL is joined onto the root path. |
| XtplCommands.ResolveUnderRoot | lib/xtpl-commands.js:16-39 | Relative to the root, a resolved root-relative path is the rewritten and extended name with empty and `.` segments dropped. |
| XtplCommands.ModuleReferenceRewritten | lib/xtpl-commands.js:18-27 | `m@v` with extension `e` becomes `m/v/m.e`. |
| XtplCommands.ModuleReferenceUnderRoot | lib/xtpl-commands.js:16-39 | `m@v` resolves to the file `m/v/m.e` under the root. |
| XtplCommands.FindRootDataShared | lib/xtpl-commands.js:43-47 | Every frame on the `parent` chain finds the same data, which is that of the topmost frame. |
| XtplCommands.AddPaths | lib/xtpl-commands.js:56-62 | The old list is kept as a prefix and every path ends up in the list. Only new paths are appended, so a list without duplicate paths stays without them. |
| XtplCommands.AddPathsIdempotent | lib/xtpl-commands.js:58-60 | Adding paths that are already listed changes nothing. |
| XtplCommands.ResolvedParams | lib/xtpl-commands.js:56-57 | Every parameter is resolved with the directive's default extension, in order. |
| XtplCommands.ImportAssets | lib/xtpl-commands.js:50-100 | The output is `''`. Only the directive's list changes. It gets the new paths, and in block form one more entry with the paths and the trimmed content. |
| XtplCommands.ImportKeepsOrderAndNoDuplicates | lib/xtpl-commands.js:54-62 | The plain form keeps the list free of duplicates and keeps the first-reference order. Every resolved parameter is in the list. |
| XtplCommands.ImportTwice | lib/xtpl-commands.js:56-62 | Importing the same paths twice leaves the lists as after the first import. |
| XtplCommands.WithTrailingSlashIdempotent | lib/xtpl-commands.js:108-110 | A path ending in `/` is kept, and normalising twice is normalising once. |
| XtplCommands.AssetUrlPrefix | lib/xtpl-commands.js:107-110 | The prefix is the configured `url_prefix`, or `/<rootDirname>` when there is no asset configuration. A `/` is added exactly when that value does not end in `/`. |
| XtplCommands.ResolvePathCommand | lib/xtpl-commands.js:117-122 | The command fails exactly without a parameter. Its result starts with the prefix, and without an md5 map it has no backslash. |
| XtplCommands.ResolvePathRootRelative | lib/xtpl-commands.js:117-121 | A root-relative path gives the prefix plus the path's segments joined by `/`. |
| XtplCommands.ResolvePathThroughMd5 | lib/xtpl-commands.js:121 | With an md5 map, the prefix is followed by the map's entry for that path. |
| XtplAdapter.CollapseSlashes | lib/xtpl.js:38 | No `//` remains. The characters other than `/` are kept in order, and a non-empty input keeps its first character. |
| XtplAdapter.CollapseSlashesIdentity | lib/xtpl.js:38 | A path without `//` is unchanged. |
| XtplAdapter.NormalizePath | lib/xtpl.js:35-40 | The result has no backslash, no `//` and no query part. An absolute path stays absolute. |
| XtplAdapter.NormalizePathIdempotent | lib/xtpl.js:35-40 | Normalising twice is normalising once. |
| XtplAdapter.FixExtname | lib/xtpl.js:43-49 | `.xtpl` is appended exactly when the extension is empty or `.page`. Otherwise the path is unchanged. |
| XtplAdapter.FixExtnameIdempotent | lib/xtpl.js:43-49 | After the fix the extension is neither empty nor `.page`, so a second fix changes nothing. |
| XtplAdapter.FixExtnameOfEmpty | lib/xtpl.js:43-49 | The empty path is the exception: it becomes `.xtpl` and then `.xtpl.xtpl`. |
| XtplAdapter.LoaderPath | lib/xtpl.js:92-98 | A name written with a leading `.` resolves to its normalised form. Any other name is joined onto the root, and an absolute root keeps it absolute. Either way `.xtpl` is appended exactly when that path's extension is empty or `.page`, and the path is otherwise unchanged. |
| XtplAdapter.LoaderPathUnderRoot | lib/xtpl.js:93-97 | A root-joined name lies under the root, and its path relative to the root is its normalised segments. `.xtpl` follows exactly when the joined path's extension is empty or `.page`. |
| XtplAdapter.ViewPath | lib/xtpl.js:186-192 | A view path is absolute, with no backslash and no `//`. |
| XtplAdapter.ViewPathUnderRoot | lib/xtpl.js:186-192 | Relative to the root, the view path of a plain name is the name itself. `.xtpl` is added exactly when the name's extension is empty or `.page`. |
| XtplAdapter.ShortenURL | lib/xtpl.js:103-111 | URLs are unchanged. With `addDirname`, every other path starts with `/<rootDirname>/`. |
| XtplAdapter.ShortenOfJoin | lib/xtpl.js:103-111 | A path under the root shortens to its root-relative segments, behind `/<rootDirname>/` when asked. |
| XtplAdapter.ShortenEntries | lib/xtpl.js:133-136 | Each entry is shortened in order. A block entry in the list makes the markup fail. |
| XtplAdapter.ShortenDeps | lib/xtpl.js:173 | Each dependency is shortened, in order. |
| XtplAdapter.CssMarkup | lib/xtpl.js:118-138 | The CSS markup exists exactly when every entry is a path. With an asset configuration, it is a `<script>` of one `document.write` line per stylesheet, looked up in `cssFiles` under its root-relative path, joined by newlines. Without one, it is one `<link>` per stylesheet under `/<rootDirname>/`. |
| XtplAdapter.JsMarkup | lib/xtpl.js:140-158 | The JS markup exists exactly when every entry is a path. With an asset configuration, it is a `<script>` of one `jsFiles[...](window);` line per script, under its root-relative path, joined by newlines. Without one, it is one `<script src>` per script under `/<rootDirname>/`. |
| XtplAdapter.ModjsListMarkup | lib/xtpl.js:160-166 | The Modjs markup exists exactly when every entry is a path. |
| XtplAdapter.ApplyHook | lib/xtpl.js:160-167 | A missing list, or a page without the marker, leaves the page unchanged. A failing markup fails the render. Otherwise the first marker is replaced by the markup. |
| XtplAdapter.Render | lib/xtpl.js:115-182 | A render error is passed through unmodified. A page with no lists to show is unchanged. An inline entry in the CSS, JS or Modjs list fails the render. |
| XtplAdapter.ModjsMarkupRoundTrip | lib/xtpl.js:163-165 | The `require([...])` markup parses back to exactly the shortened URLs. |
| XtplAdapter.RenderModjsOnly | lib/xtpl.js:160-167 | With only a Modjs list, the first marker is replaced by the `require` script, and the text around it is untouched. |
| XtplAdapter.DevCssLinks | lib/xtpl.js:131-137 | Without an asset configuration, the CSS hook becomes one `<link>` per stylesheet, in list order, under `/<rootDirname>/`. |
| XtplAdapter.DevJsTags | lib/xtpl.js:152-157 | Without an asset configuration, the JS hook becomes one `<script src>` per script, in list order, under `/<rootDirname>/`. |
| XtplAdapter.ManifestCssWrites | lib/xtpl.js:119-129 | With an asset configuration, the CSS hook becomes one `cssFiles` line per stylesheet, in list order, keyed by its normalised segments below the root. |
| XtplAdapter.ManifestJsCalls | lib/xtpl.js:141-150 | With an asset configuration, the JS hook becomes one `jsFiles` line per script, in list order, keyed by its normalised segments below the root. |
| XtplAdapter.CssWriteReadsBack | lib/xtpl.js:124-126 | The `cssFiles` key on a line is the quoted path, and it parses back to that path. |
| XtplAdapter.JsCallReadsBack | lib/xtpl.js:146-147 | The `jsFiles` key on a line is the quoted path, and it parses back to that path. |
| XtplAdapter.RenderCssOnly | lib/xtpl.js:115-138 | With only a CSS list, the first CSS marker is replaced by the stylesheet markup, and the text around it is untouched. |
| XtplAdapter.RenderJsOnly | lib/xtpl.js:140-158 | With only a JS list, the first JS marker is replaced by the script markup, and the text around it is untouched. |
| XtplAdapter.GetCached | lib/xtpl.js:54-71 | A cached entry is returned. Otherwise the new one is returned, and it is stored only when caching is on. Other entries are kept. |
| XtplAdapter.CachedOnce | lib/xtpl.js:55-57 | With caching on, the second request gets the first instance. |
| XtplAdapter.UncachedEachTime | lib/xtpl.js:67-69 | With caching off, nothing is stored and every request creates a new instance. |
| XtplAdapter.OptionsAsWrittenConstant | lib/xtpl.js:26-31 | Once an environment was recognised, the comparisons as written are always true. |
| XtplAdapter.DevelopmentCachedAsWritten | lib/xtpl.js:27 | With `--env development`, the environment is `dev` and the cache is on. |
| XtplAdapter.OptionsFollowEnvironment | lib/xtpl.js:26-31 | With the normalised names, the cache is off exactly in development. Errors are left uncaught exactly in production. |
| XtplAdapter.SetupAsWrittenFails | lib/xtpl.js:205 | The configuration step as written fails, because `util.extend` does not exist. |
| XtplAdapter.Setup | lib/xtpl.js:205-208 | The corrected step fails exactly when `rootPath` is truthy but not a string. |
| XtplAdapter.SetupGet | lib/xtpl.js:205-208 | The configuration overrides the defaults. `rootDirname` is the basename of `rootPath`. |
| NodePath.JoinedSegments | lib/xtpl-commands.js:32-34 | Joining a relative path onto an absolute root gives the root's segments, then the path's segments. |
| NodePath.RelativeOfJoin | lib/xtpl-commands.js:118-120 | `path.relative(root, path.join(root, x))` is the segments of `x` joined by `/`. |
| NodePath.ExtnameOfAppended | lib/xtpl-commands.js:25-27 | After `.<ext>` is appended, the path has a non-empty extension taken from what was appended. |
| NodePath.Extname | lib/xtpl.js:44 | The extension is empty, or a dot followed by no other dot, at the end of the basename. |
| Json.ParseQuote | lib/assets-handler.js:27 | `JSON.stringify` of a string parses back to that string. |
| Json.QuoteInjective | lib/assets-handler.js:25 | Different strings stringify differently. |
| Json.ParseQuoteList | lib/xtpl.js:163-165 | `JSON.stringify` of an array of strings parses back to the array. |
| JsValue.AssignGet | routes/route-helpers.js:73 | After `Object.assign`, a key of the source has the source's value, and every other key keeps its old value. |
| JsValue.PutGet | routes/route-helpers.js:75 | After `o[k] = v`, `k` reads `v` and every other key reads as before. |
| JsValue.StringifyStrings | lib/xtpl.js:163-165 | `JSON.stringify` of an array of strings is the quoted list. |
| JsValue.Put | routes/route-helpers.js:75 | In creation order, an existing key keeps its place and a new key goes last. |
| JsValue.Enumerate | public/assets/lib/xtpl/4.6/xtemplate/runtime/util.js:18-29 | Enumeration lists the same entries as the object, as many of them, with array-index keys first in ascending order, and the other keys in creation order. |
| JsValue.EnumerateGet | public/assets/lib/xtpl/4.6/xtemplate/runtime/util.js:18-29 | Enumeration changes no key's value. |
| JsValue.EnumerateDistinct | public/assets/lib/xtpl/4.6/xtemplate/runtime/util.js:18-29 | Enumeration lists no key twice. |
| JsValue.NoIndexKeysEnumerate | public/assets/lib/xtpl/4.6/xtemplate/runtime/util.js:18-29 | Without array-index keys, enumeration is creation order. |
| JsValue.IndexKeyEnumeratedFirst | public/assets/lib/xtpl/4.6/xtemplate/runtime/util.js:18-29 | `{b: 1}` with `"0"` added later enumerates `"0"` first. |
| JsValue.ToNumber | lib/util.js:29 | The comparison `i < len` converts `len` as follows. A number is itself. `null` is 0 and booleans are 1 or 0. `undefined` is `NaN`. A string is read as a number, and an array goes through its string form. |
| JsValue.NumericString | lib/util.js:29 | A trimmed run of decimal digits reads as its value. |
| JsValue.NumericStringOfDecimal | lib/util.js:29 | The decimal text of `n` converts back to `n`. |
| JsValue.DecimalToNumber | lib/util.js:29 | Decimal digits convert to their value. With a minus sign in front, they convert to its negation. |
| JsValue.ObjectIsNaN | lib/util.js:29 | A plain object converts to `NaN`. |
| Strings.SplitJoin | lib/assets-handler.js:74-81 | Splitting joined parts gives the parts back. |
| Strings.JoinSplit | lib/assets-handler.js:74-81 | Joining split parts gives the string back. |
| ClientCommands.AssetCommand | public/assets/xtpl/commands.js:5-10 | The browser asset commands output `''` and write nothing visible to the buffer. |
| ClientCommands.AssetCommandAgreesWithServer | public/assets/xtpl/commands.js:5-10 | The browser and server asset commands produce the same output. |
| ClientCommands.ClientPrefix | public/assets/xtpl/commands.js:23-32 | The prefix ends in `/`. It is `/` when the global is missing or empty. Otherwise it is the given URL, with a `/` added exactly when the URL does not end in `/`. |
| ClientCommands.WalkDescending | public/assets/xtpl/commands.js:45-60 | Items other than `.` and `..` are pushed in order. |
| ClientCommands.DotSegmentsOfSpelled | public/assets/xtpl/commands.js:41-60 | `./x` resolves in the template's directory, and `../x` resolves one directory up. |
| ClientCommands.ResolvePath | public/assets/xtpl/commands.js:38-75 | The command fails exactly without a parameter or for a path not starting with `.`. A URL result is returned as it is. Otherwise the leading `/` is dropped and the hashed path follows the prefix. |
| ClientCommands.PlainPathFailsAsWritten | public/assets/xtpl/commands.js:61-65 | As written, the path `lib/x.js`, which does not start with `.`, makes `resolvePath` fail. |
| ClientCommands.ResolvePathIntended | public/assets/xtpl/commands.js:38-75 | Corrected: only a missing parameter fails. A `.` path resolves as before. Any other path is taken as it is: a URL is returned unchanged, and a plain path gets the prefix and the md5 insertion. |
| ClientCommands.HashedPathOnlyInserts | public/assets/xtpl/commands.js:70-73 | Without a hash or a final extension, the path is unchanged. With both, only `.<hash>` is inserted, right before the final extension. |
| ClientCommands.JsonEncode | public/assets/xtpl/commands.js:80-82 | There is no string exactly for a missing or `undefined` parameter. |
| ClientCommands.JsonEncodeString | public/assets/xtpl/commands.js:80-82 | An encoded string parses back to the string. |
| ClientCommands.TextOf | public/assets/xtpl/commands.js:84-86 | `null` and `undefined` give `''`, and a string is kept. |
| ClientCommands.Nl2BrText | public/assets/xtpl/commands.js:90 | No `\n` remains, and a text without `\n` is unchanged. |
| ClientCommands.Nl2BrLines | public/assets/xtpl/commands.js:90 | Lines joined by `\n` or `\r\n` come out joined by `<br />`. |
| ClientCommands.Nl2BrFirstLine | public/assets/xtpl/commands.js:90 | A line and its break become the line and `<br />`. |
| ClientCommands.Nl2Br | public/assets/xtpl/commands.js:89-91 | `null` and `undefined` give `''`. No `\n` is left. |
| ClientCommands.Space2NbspText | public/assets/xtpl/commands.js:95-97 | No two whitespace characters are adjacent in the result. A non-whitespace first character is kept. |
| ClientCommands.Space2NbspRun | public/assets/xtpl/commands.js:95-97 | A whitespace run of length n >= 2 becomes n `&nbsp;`. |
| ClientCommands.Space2NbspIdentity | public/assets/xtpl/commands.js:95-97 | A text without two adjacent whitespace characters is unchanged, so single spaces stay. |
| ClientCommands.Space2Nbsp | public/assets/xtpl/commands.js:94-98 | `null` and `undefined` give `''`. No whitespace pair is left. |
| CommonCommands.Prefix | public/assets/common/xtpl/1.0/commands.js:12-21 | The prefix is the global, with a `/` added exactly when the global does not end in `/`. Without `window` it is `/`. When the global is undefined, `charAt` throws. |
| CommonCommands.ResolvePath | public/assets/common/xtpl/1.0/commands.js:23-51 | The command fails exactly without a parameter or for a path not starting with `.`. Otherwise it gives the prefix, then the resolved segments joined by `/`. |
| CommonCommands.AgreesWithClient | public/assets/common/xtpl/1.0/commands.js:23-51 | The two browser versions agree when the path holds no prefix, is not a URL, has no leading `/` and has no hash. |
| CommonCommands.Nl2Br | public/assets/common/xtpl/1.0/commands.js:61-63 | `String(...)` is used, so a missing parameter gives `undefined`. No `\n` is left. |
| CommonCommands.Nl2BrAgreesWithClient | public/assets/common/xtpl/1.0/commands.js:61-63 | Both versions agree except on `null` and `undefined`, which this version spells out. |
| ClientLoader.LoadTpl | public/assets/common/xtpl/1.0/xtpl.js:7-17 | A path ending in `?csrOnly` gives the empty template, and only such a path does. Every module path asked for has an extension. A path that already has one is unchanged, and any other path gains `.xtpl`. |
| ClientLoader.XtplExtname | public/assets/common/xtpl/1.0/xtpl.js:11-13 | A path with `.xtpl` appended has an extension. |
| ClientLoader.LoadTplIdempotent | public/assets/common/xtpl/1.0/xtpl.js:11-13 | Loading the path a load produced asks for the same module. |
| BowlConfig.RootBasePath | public/assets/layouts/root/1.0/bowl-config.raw.js:7 | A missing or empty global falls back to `/assets/`. Any other value is used as it is. |
| BowlConfig.AssetsMatchFrom | public/assets/layouts/root/1.0/bowl-config.raw.js:18 | The position found is the leftmost one, from the given start, where `/assets/(.+)` matches. |
| BowlConfig.RootMap | public/assets/layouts/root/1.0/bowl-config.raw.js:15-30 | Without an md5 map, or for a path not ending in `.raw.js`, the path is unchanged. With a map and a `.raw.js` path, the result is the one `HashAfter` makes to the rest after the leftmost `/assets/` match. Any change happens that way. |
| BowlConfig.HashAfter | public/assets/layouts/root/1.0/bowl-config.raw.js:19-26 | When the rest has a hash and a final extension, `.<hash>` is inserted right before that extension. Any change is that insertion. |
| BowlConfig.RootMapRawScript | public/assets/layouts/root/1.0/bowl-config.raw.js:16-24 | `/assets/<b>.raw.js` with a hash becomes `/assets/<b>.raw.<hash>.js`. |
| BowlConfig.BasicRawMap | public/assets/layouts/basic/1.0/bowl-config.raw.js:12-33 | `.qq.com` hosts, and paths without an extension run, are unchanged. Otherwise the run is cut off, renamed, and appended again. |
| BowlConfig.BasicRawMapRenames | public/assets/layouts/basic/1.0/bowl-config.raw.js:18-31 | A single group `.preload` becomes `.raw.js`, and `.xtpl` becomes `.xtpl.js`. Any other single group is kept. |
| BowlConfig.BasicRawMapKeepsTwoGroups | public/assets/layouts/basic/1.0/bowl-config.raw.js:18-32 | A run of two groups matches no case, so the path is unchanged. |
| BowlConfig.RemapAppended | public/assets/layouts/basic/1.0/bowl-config.raw.js:23-32 | The cut-off run is appended again after renaming. |
| BowlConfig.BasicRawMapIdempotent | public/assets/layouts/basic/1.0/bowl-config.raw.js:12-33 | Rewriting twice is rewriting once. |
| BowlConfig.BasicMap | public/assets/layouts/basic/1.0/bowl-config.js:7-15 | `.qq.com` hosts are unchanged. `.xtpl` gains `.js`, and `.xtpl.js` and `.mod.js` are kept. Any other `.js` path has its `.js` replaced by `.mod.js`. Paths without either ending are unchanged, and the part before the final `.js` is kept. |
| BowlConfig.BasicMapIdempotent | public/assets/layouts/basic/1.0/bowl-config.js:12-14 | Rewriting twice is rewriting once. |
| RouteHelpers.TypeName | routes/route-helpers.js:33-35 | `type()` is `basic`, `html` or `json` exactly for the three helper classes. |
| RouteHelpers.NewHelper | routes/route-helpers.js:20-25 | A new helper is not rendered, has empty view data and keeps its template. A JSON helper's envelope has `status: 1`. |
| RouteHelpers.ViewData | routes/route-helpers.js:67-78 | One string argument reads the value and changes nothing. Any other call updates the view data. `null` view data throws. |
| RouteHelpers.ViewDataSetGet | routes/route-helpers.js:72-76 | `viewData(k, v)` sets only `k`. |
| RouteHelpers.ViewDataMergeGet | routes/route-helpers.js:72-74 | `viewData(obj)` merges every own key of `obj`, and other keys are kept. |
| RouteHelpers.Render | routes/route-helpers.js:127-143 | Rendering marks the helper rendered and keeps its kind and template. A basic helper ends the response. An HTML helper renders its template, and a JSON helper sends its envelope. Rendering fails exactly for an HTML helper with `null` view data. |
| RouteHelpers.PutAssetListsGet | routes/route-helpers.js:133-138 | Each asset type's list is stored under `<type>Files`. |
| RouteHelpers.PutAssetListsKeeps | routes/route-helpers.js:133-138 | Keys that are not `<type>Files` are untouched. |
| RouteHelpers.HtmlRenderAssets | routes/route-helpers.js:129-140 | With a manifest entry for the template, every list is copied into the view data as `<type>Files`, and everything else is kept. |
| RouteHelpers.JsonEnvelope | routes/route-helpers.js:170-175 | A JSON render sends `{status: 1, data: viewData}`. |
| RouteHelpers.RenderInfo | routes/route-helpers.js:145-153 | The helper becomes rendered. HTML switches to the information template. JSON drops the view data. |
| RouteHelpers.HtmlInfoFields | routes/route-helpers.js:146-151 | `info` gets `status: 1` and the referer as defaults, and the caller's fields override them. |
| RouteHelpers.JsonInfoFields | routes/route-helpers.js:177-181 | The information is merged into the envelope, and `data` becomes `null`. |
| RouteInit.MainPath | routes/init.js:54-58 | `__` mounts at `/`. Any other name gets a leading `/`. |
| RouteInit.MainPathInjective | routes/init.js:54-58 | Two route files share a mount path only when both are `''` or `__`. |
| RouteInit.AsConfig | routes/init.js:61-65 | A function or an array becomes `{callbacks}`, and a configuration object is kept. |
| RouteInit.CallbackList | routes/init.js:66-68 | The callbacks are always a list, and a missing one is kept as `undefined`. |
| RouteInit.CollapseFirstSlashRun | routes/init.js:80-83 | Only the first run of two or more slashes becomes one slash. |
| RouteInit.RouteTemplate | routes/init.js:79-83 | The template always ends in `.page.xtpl`. |
| RouteInit.DefaultTemplate | routes/init.js:78-83 | The default template is `pages/<name>/<sub>/<sub>.page.xtpl`. |
| RouteInit.RootTemplate | routes/init.js:78-83 | For the root file `__`, the template is `pages/<sub>/<sub>.page.xtpl`. |
| RouteInit.GivenTemplate | routes/init.js:80-83 | A given template is used below `pages/`. |
| RouteInit.Stages | routes/init.js:66-71 | The helper is created first, the callbacks run in order, and the render stage comes last. |
| RouteInit.RoutePath | routes/init.js:88 | The route path gets a leading `/` when it has none. |
| RouteInit.MountRoute | routes/init.js:61-110 | The helper is JSON exactly when `resType` is `json`. A template exists exactly for HTML routes. The verb defaults to `get` and the pattern to the path. |
| RouteInit.Guard | routes/init.js:32-48 | A response already sent is ended. Otherwise the stage throws exactly when the callback is missing or throws itself. A callback returning `true` stops the chain, and any value other than a promise continues it. |
| RouteInit.MissingCallbackThrows | routes/init.js:38-70 | A route configured without callbacks gets one `undefined` callback. Calling it throws an error without a status. The corrected error handler answers it with 500 and logs it. |
| RouteInit.InitStage | routes/init.js:90-104 | The fresh helper has `ENV` and `currentYear` in its view data. |
| RouteInit.RenderStageStep | routes/init.js:19-29 | With no helper the request passes on. A rendered helper ends the response. Otherwise the helper renders. |
| RouteInit.FailureStatus | routes/init.js:130 | The status is `err.status`, or 500 when that is missing. |
| RouteInit.HandleError | routes/init.js:128-148 | The handler fails exactly without a helper or with `null` view data. Everything but a 404 is logged. An HTML helper shows the information page. |
| RouteInit.StackShownOutsideProduction | routes/init.js:137-142 | The stack is shown outside production and hidden in production. `httpStatus` is the status. |
| RouteInit.NextLayer | routes/init.js:128 | When an error is pending, Express calls only four-parameter layers, and otherwise only those with at most three parameters. The layer found is the first such layer. |
| RouteInit.ErrorHandlerSkippedAsWritten | routes/init.js:128 | As written, the 404 error skips the three-parameter error handler. |
| RouteInit.ErrorHandlerReached | routes/init.js:128 | With four parameters, the handler receives the error, and no request without an error reaches it. |
| PageType.AsList | routes/page-type.js:4-11 | An array is copied, a single value is wrapped, and a falsy value becomes `[]`. |
| PageType.PrependTo | routes/page-type.js:4-16 | A truthy `elt` becomes element 0 and the length grows by one. A falsy `elt` gives the target as a list, unchanged. |
| PageType.Basic | routes/page-type.js:19-23 | The title setter comes first, then the original callbacks in order. |
| PageType.RunSetTitle | routes/page-type.js:20-22 | The title setter keeps the helper's kind and template, and fails exactly on `null` view data. |
| PageType.SetTitleGet | routes/page-type.js:21 | After the setter, the title reads `Back2Front` and other keys are unchanged. |
| Config.Canonical | config.js:6-11 | A missing item stays missing. An accepted name is kept, and each of the four aliases maps to an accepted name. |
| Config.CanonicalIdempotent | config.js:6-11 | Normalising twice is normalising once. |
| Config.CanonicalAccepted | config.js:6-13 | An item is accepted exactly when it is one of the five names or one of the four aliases. |
| Config.FirstAccepted | config.js:4-19 | The first accepted item among `--env` and `NODE_ENV` wins. |
| Config.Load | config.js:3-36 | `isProd` is true exactly when the name is not `local` and `--prod` is not `false`. `NODE_ENV` follows it, and `maxAge` is three days in production and 0 otherwise. When nothing is accepted, the environment variables are left as they were. |
| Config.ArgvWins | config.js:4 | A recognised `--env` wins over `NODE_ENV`. |

## Left out

- The XTemplate engine is not modelled: parsing, compiling, `option.fn`, the buffer, and the loader callback. A block directive's rendered body is a parameter.
- Express is not modelled: `res.render`, `res.json`, `res.end`, router registration, and the asynchronous settling of promises in `handlePromise`. `Guard` only reports that the chain waits for a promise.
- Babel is a parameter, and the file system is a map.
- `AssetMiddleware.FileSystem`: the map has no rule that the `/`-prefixes of a key are directories. A path that is only implicitly a directory (`a` when only `a/x` is listed) reads as missing and gets a 404. Node would see the directory and fail with `EISDIR`.
- `AssetMiddleware.Emit`: the directories that `outputFileSync` creates on the way to the target are not added to the map. A later write to one of those directory paths therefore succeeds in the model, where Node would fail with `EISDIR`.
- `fs.readFileSync` encodings, UTF-16 surrogate pairs and floating-point numbers are not modelled. Numbers are integers.
- `public/assets/lib/xtpl/4.6/xtpl.mod.js` and `public/assets/common/xtpl/1.0/xtpl.mod.js` are not part of this model. They are promise-based caching wrappers.
- DOM and `eval` code is not part of this model: `globalEval`, `dom-ready.js`, the tabs component and the example page scripts. `util.toURL` needs the DOM. `ClientCommands.ClientPrefix` takes its result as a parameter.
- `bin/www.js`, `app.js` and `routes/pages/example.js` are not part of this model. They are process start-up and demonstration data.
- The feature-detecting `preload` lists of the bowl configurations are left out. They depend on browser globals.
- `space2nbsp` of `public/assets/common/xtpl/1.0/commands.js` calls a `toString` helper that this file does not define. Inside the module, the name resolves to the global `toString`, which ignores its argument. Its output is not modelled.
- Properties inherited from `Object.prototype` are not modelled. This affects `viewData(k)` reads and md5-map lookups (`md5Map['constructor']`).
- A sub-route that is neither a function, an array nor an object is not modelled.
- `ClientCommands.JsonEncode` also stands for `jsonEncode` in `public/assets/common/xtpl/1.0/commands.js:56-58`, which is the same code.
- `XtplCommands.WithDefaultExtIdempotent`: requires a path whose last segment is not empty. `path.extname` of `a/` is empty, and appending gives `a/.css`, whose extension is empty again.
- `XtplAdapter.FixExtnameIdempotent`: requires a last segment that is not empty, for the same reason. `XtplAdapter.FixExtnameOfEmpty` shows the exception.
- `ClientLoader.LoadTplIdempotent`: Dafny proves it from the contract of `LoadTpl` alone, so its body is empty.
- `BowlConfig.BasicRawMap`: a run such as `.min.preload` is not renamed, because the whole run is compared with `.preload`. This is what the source does.
- `RouteInit.HandleError` models what the handler would do once Express calls it. As written, Express never calls it (see Findings).
- `RouteInit.Guard`: a thenable result continues later. The model does not say with which value it settles.
- `RouteInit.InitStage` takes the current year as a parameter instead of reading the clock.
- `JsValue.ToNumber`: a string with a fraction, an exponent, a `0x`/`0o`/`0b` prefix or `Infinity` gives `None` (`NaN`), because numbers are integers here. In JavaScript, `"2.5"` admits three indices and `"Infinity"` admits all of them.
- `Util.EachEntries`: inherits the limits of `JsValue.ToNumber` for a `length` that is such a string. The runtime's `each` shares this, through `RuntimeUtil.EachAgreesWithLib`.
- `RuntimeUtil.Substitute`: the optional third argument `regexp` is not modelled. The model always uses the built-in placeholder pattern, and no caller in this repository passes another one.

## Findings

| source | as written | input that shows it | evidently intended | confidence | as-written member | corrected member |
|---|---|---|---|---|---|---|
| lib/xtpl.js:27-28 | `cache` tests `env !== 'development'` and `catchError` tests `env !== 'production'`. Once `config.js` recognises an environment, it produces `local`, `dev`, `test`, `pre` or `prod`, so both tests are always true. A preset `BACK2FRONT_ENV` is kept as it is. | `--env development`: the environment is `dev` and templates are cached. | The cache is off in development, and errors are uncaught in production. | not executed | `XtplAdapter.OptionsAsWritten`, shown by `XtplAdapter.DevelopmentCachedAsWritten` and `XtplAdapter.OptionsAsWrittenConstant` | `XtplAdapter.Options`, proved in `XtplAdapter.OptionsFollowEnvironment` |
| lib/xtpl.js:205 | `util.extend(tplConfig, config)` is called, but `lib/util.js` exports only `each` and `isURL`. | Any call of `express(app, {rootPath: '/srv/public'})` throws before the view class is registered. | The configuration is merged over the defaults. | not executed | `XtplAdapter.SetupAsWritten`, shown by `XtplAdapter.SetupAsWrittenFails` | `XtplAdapter.Setup`, proved in `XtplAdapter.SetupGet` |
| routes/init.js:128 | The error handler is declared as `function(err, req, res)`. Express passes an error only to four-parameter middleware. | A request for a missing page: the 404 handler's error skips the handler, and Express's default handler answers. | The handler is declared `(err, req, res, next)` and renders the information page. | not executed | `RouteInit.WrittenErrorArity`, shown by `RouteInit.ErrorHandlerSkippedAsWritten` | `RouteInit.ErrorArity`, proved in `RouteInit.ErrorHandlerReached` |
| public/assets/xtpl/commands.js:61-65 | A path that does not start with `.` is kept as a string, and `result.join('/')` is then called on it. Strings have no `join`. `public/assets/common/xtpl/1.0/commands.js:47-50` has the same code. | `{{resolvePath('lib/x.js')}}` in a browser-rendered template throws a `TypeError`. | Such a path is taken as it is, so that the URL test and the md5 insertion that follow apply to it. | not executed | `ClientCommands.ResolvePath`, shown by `ClientCommands.PlainPathFailsAsWritten` | `ClientCommands.ResolvePathIntended`, which proves that only a missing parameter fails and that `.` paths resolve as before |

=== FILE: bowlconfig.dfy ===
/** The module loader's URL maps (`bowl-config.raw.js` of the root layout,
    `bowl-config.raw.js` and `bowl-config.js` of the basic layout): how the
    pathname of a module request is rewritten before it is fetched. */
module BowlConfig {
  import opened Wrappers
  import opened Strings
  import Patterns
  import ClientCommands

  // ---------------------------------------------------------------------
  // Root layout

  /** `basePath: global.ASSET_URL_PREFIX || '/assets/'`. */
  function RootBasePath(prefix: Option<string>): (r: string)
    ensures prefix.None? || prefix == Some("") <==> r == "/assets/" && prefix != Some("/assets/")
    ensures prefix.Some? && prefix.value != "" ==> r == prefix.value
  {
    if prefix.None? || prefix == Some("") then "/assets/" else prefix.value
  }

  const AssetsDir := "/assets/"

  /** `/(\/assets\/)(.+)$/` matches at `k`: `/assets/` there, followed by at
      least one character and no line terminator up to the end. */
  predicate AssetsMatchAt(p: string, k: nat) {
    OccursAt(p, AssetsDir, k) && k + |AssetsDir| < |p| && NoLineTerminator(p[k + |AssetsDir|..])
  }

  /** The leftmost match at or after `i`. */
  function AssetsMatchFrom(p: string, i: nat): (r: Option<nat>)
    ensures r.Some? ==> i <= r.value && AssetsMatchAt(p, r.value)
    ensures forall k: nat :: i <= k && (r.None? || k < r.value) ==> !AssetsMatchAt(p, k)
    decreases |p| - i
  {
    if i + |AssetsDir| >= |p| then None
    else if AssetsMatchAt(p, i) then Some(i)
    else AssetsMatchFrom(p, i + 1)
  }

  /** The pathname with the md5 fragment of the path under `/assets/`
      inserted before its extension. Only loader-fetched raw scripts
      (`.raw.js`) are mapped, and only when a map is loaded. */
  function RootMap(md5Map: Option<map<string, string>>, p: string): (r: string)
    ensures md5Map.None? || !EndsWith(p, ".raw.js") ==> r == p
    ensures r != p ==> md5Map.Some? && AssetsMatchFrom(p, 0).Some?
    ensures r != p ==> r == HashAfter(md5Map.value, p, AssetsMatchFrom(p, 0).value + |AssetsDir|)
    ensures md5Map.Some? && EndsWith(p, ".raw.js") && AssetsMatchFrom(p, 0).Some? ==>
      r == HashAfter(md5Map.value, p, AssetsMatchFrom(p, 0).value + |AssetsDir|)
  {
    if md5Map.None? || !EndsWith(p, ".raw.js") then p
    else match AssetsMatchFrom(p, 0)
      case None => p
      case Some(k) => HashAfter(md5Map.value, p, k + |AssetsDir|)
  }

  /** The hash of the part of `p` from `m` on, inserted before that part's
      final extension; `p` itself when the part has no hash or no extension. */
  function HashAfter(md5Map: map<string, string>, p: string, m: nat): (r: string)
    requires m <= |p|
    ensures r != p ==>
      var rest := p[m..];
      ClientCommands.HashOf(md5Map, rest).Some? && Patterns.FinalExtStart(rest).Some?
      && var j := m + Patterns.FinalExtStart(rest).value;
      r == p[..j] + "." + ClientCommands.HashOf(md5Map, rest).value + p[j..]
    ensures var rest := p[m..];
      ClientCommands.HashOf(md5Map, rest).Some? && Patterns.FinalExtStart(rest).Some? ==>
      var j := m + Patterns.FinalExtStart(rest).value;
      r == p[..j] + "." + ClientCommands.HashOf(md5Map, rest).value + p[j..]
  {
    var rest := p[m..];
    match ClientCommands.HashOf(md5Map, rest)
    case None => p
    case Some(h) =>
      match Patterns.FinalExtStart(rest)
      case None => p
      case Some(f) =>
        InsertAfterPrefix(p, m, f, h);
        p[..m] + Patterns.InsertBeforeFinalExt(rest, h)
  }

  /** Inserting before the final extension of a suffix of `p` inserts into `p`. */
  lemma InsertAfterPrefix(p: string, m: nat, f: nat, h: string)
    requires m <= |p| && Patterns.FinalExtStart(p[m..]) == Some(f)
    ensures p[..m] + Patterns.InsertBeforeFinalExt(p[m..], h) == p[..m + f] + "." + h + p[m + f..]
  {
    var rest := p[m..];
    assert Patterns.InsertBeforeFinalExt(rest, h) == rest[..f] + "." + h + rest[f..];
    Splice(p, m, f, h);
  }

  lemma Splice(p: string, m: nat, k: nat, h: string)
    requires m + k <= |p|
    ensures p[..m] + (p[m..][..k] + "." + h + p[m..][k..]) == p[..m + k] + "." + h + p[m + k..]
  {
    assert p[..m + k] == p[..m] + p[m..][..k];
    assert p[m + k..] == p[m..][k..];
  }

  /** A pathname that starts with `/assets/` matches right there. */
  lemma AssetsMatchAtStart(rest: string)
    requires |rest| > 0 && NoLineTerminator(rest)
    ensures AssetsMatchFrom(AssetsDir + rest, 0) == Some(0)
  {
    var p := AssetsDir + rest;
    assert p[..8] == AssetsDir;
    assert p[8..] == rest;
    assert AssetsMatchAt(p, 0);
  }

  /** The final extension of `b.raw.js` is `.js`. */
  lemma RawScriptExtname(b: string, h: string)
    ensures Patterns.InsertBeforeFinalExt(b + ".raw.js", h) == b + ".raw." + h + ".js"
  {
    var rest := b + ".raw.js";
    assert rest[|b| + 4] == '.';
    assert rest[|b| + 5..] == "js";
    assert AllWordChars("js");
    Patterns.FinalExtStartUnique(rest, |b| + 4);
    assert rest[..|b| + 4] == b + ".raw";
    assert rest[|b| + 4..] == ".js";
  }

  /** A raw script under `/assets/` with an md5 entry is fetched as
      `name.raw.<md5>.js`. */
  lemma RootMapRawScript(md5Map: map<string, string>, b: string)
    requires NoLineTerminator(b)
    requires b + ".raw.js" in md5Map && md5Map[b + ".raw.js"] != ""
    ensures RootMap(Some(md5Map), AssetsDir + (b + ".raw.js")) == AssetsDir + (b + ".raw." + md5Map[b + ".raw.js"] + ".js")
  {
    var rest := b + ".raw.js";
    var p := AssetsDir + rest;
    assert EndsWith(p, ".raw.js") by { assert p[|p| - 7..] == ".raw.js"; }
    assert NoLineTerminator(rest) by {
      forall i | 0 <= i < |rest| ensures !IsLineTerminator(rest[i]) {
        if i < |b| { assert rest[i] == b[i]; }
      }
    }
    AssetsMatchAtStart(rest);
    assert p[..|AssetsDir|] == AssetsDir && p[|AssetsDir|..] == rest;
    RawScriptExtname(b, md5Map[rest]);
  }

  // ---------------------------------------------------------------------
  // Basic layout, raw loader

  /** `/\.qq\.com$/` on the host name: such requests are never mapped. */
  predicate IsQQHost(hostname: string) {
    EndsWith(hostname, ".qq.com")
  }

  /** The extension run with the loader's two renames. */
  function RenameExt(e: string): (r: string)
    ensures e != ".preload" && e != ".xtpl" ==> r == e
  {
    if e == ".preload" then ".raw.js" else if e == ".xtpl" then ".xtpl.js" else e
  }

  /** The last `n` characters renamed as an extension run. */
  function Remap(p: string, n: nat): (r: string)
    requires n <= |p|
    ensures n == 0 ==> r == p
  {
    if n == 0 then p else p[..|p| - n] + RenameExt(p[|p| - n..])
  }

  /** Renaming the run after a prefix keeps the prefix. */
  lemma RemapAppended(base: string, e: string)
    requires |e| > 0
    ensures Remap(base + e, |e|) == base + RenameExt(e)
  {
    var p := base + e;
    assert p[..|p| - |e|] == base && p[|p| - |e|..] == e;
  }

  /** The map of the basic layout's raw loader: the whole trailing
      extension run is cut and put back, renamed when it is exactly
      `.preload` or `.xtpl`. */
  function BasicRawMap(hostname: string, p: string): (r: string)
    ensures IsQQHost(hostname) || Patterns.ExtRun(p).None? ==> r == p
    ensures Patterns.ExtRun(p).Some? && !IsQQHost(hostname) ==>
      var n := |Patterns.ExtRun(p).value|;
      r == p[..|p| - n] + RenameExt(p[|p| - n..])
  {
    if IsQQHost(hostname) then p else Remap(p, Patterns.ExtRunLength(p))
  }

  /** Once the run is peeled off, nothing of it is left. */
  lemma {:induction false} ExtRunPeeled(s: string)
    ensures Patterns.ExtRunLength(s[..|s| - Patterns.ExtRunLength(s)]) == 0
    decreases |s|
  {
    var w := Patterns.TrailingWordLength(s);
    if 1 <= w < |s| && s[|s| - w - 1] == '.' {
      var s' := s[..|s| - w - 1];
      ExtRunPeeled(s');
      assert s[..|s| - Patterns.ExtRunLength(s)] == s'[..|s'| - Patterns.ExtRunLength(s')];
    } else {
      assert s[..|s| - 0] == s;
    }
  }

  /** Appending `.g` for a word `g` lengthens the extension run by it. */
  lemma ExtRunAppend(base: string, g: string)
    requires |g| > 0 && AllWordChars(g)
    ensures Patterns.ExtRunLength(base + "." + g) == |g| + 1 + Patterns.ExtRunLength(base)
  {
    var s := base + "." + g;
    assert s[|base|] == '.';
    assert s[|base| + 1..] == g;
    Patterns.FinalExtPosition(s, |base|);
    assert s[..|s| - |g| - 1] == base;
  }



  /** The raw map renames the run the scanner finds. */
  lemma BasicRawMapOf(hostname: string, p: string, n: nat)
    requires !IsQQHost(hostname) && n == Patterns.ExtRunLength(p)
    ensures BasicRawMap(hostname, p) == Remap(p, n)
  {
  }

  /** Renaming a run of known length after a known prefix. */
  lemma RemapAfter(p: string, n: nat, base: string, e: string)
    requires p == base + e && n == |e| && n > 0
    ensures Remap(p, n) == base + RenameExt(e)
  {
    RemapAppended(base, e);
  }

  /** A path without an extension run, extended by one `.ext`, has that
      extension renamed: `.preload` is fetched as `.raw.js` and `.xtpl` as
      `.xtpl.js`. */
  lemma BasicRawMapRenames(hostname: string, base: string, ext: string)
    requires !IsQQHost(hostname) && Patterns.ExtRunLength(base) == 0
    requires |ext| > 0 && AllWordChars(ext)
    ensures BasicRawMap(hostname, base + "." + ext) == base + RenameExt("." + ext)
  {
    var p := base + "." + ext;
    var e := "." + ext;
    assert p == base + e by {
      ConcatAssoc(base, ".", ext);
    }
    assert Patterns.ExtRunLength(p) == |e| by {
      ExtRunAppend(base, ext);
    }
    BasicRawMapRun(hostname, p, base, e);
  }

  /** The raw map of a path whose extension run is known. */
  lemma BasicRawMapRun(hostname: string, p: string, base: string, e: string)
    requires !IsQQHost(hostname) && |e| > 0 && p == base + e && Patterns.ExtRunLength(p) == |e|
    ensures BasicRawMap(hostname, p) == base + RenameExt(e)
  {
    BasicRawMapOf(hostname, p, |e|);
    RemapAfter(p, |e|, base, e);
  }

  /** A peeled path followed by the run `.a.b` is left alone when that run is
      neither `.preload` nor `.xtpl`. */
  lemma BasicRawMapKeepsTwoGroups(hostname: string, base: string, a: string, b: string)
    requires Patterns.ExtRunLength(base) == 0
    requires |a| > 0 && AllWordChars(a) && |b| > 0 && AllWordChars(b)
    ensures BasicRawMap(hostname, base + "." + a + "." + b) == base + "." + a + "." + b
  {
    if !IsQQHost(hostname) {
      var p := base + "." + a + "." + b;
      var e := "." + a + "." + b;
      assert p == base + e by {
        ConcatAssoc4(base, ".", a, ".", b);
      }
      ExtRunTwoGroups(base, a, b);
      BasicRawMapOf(hostname, p, |e|);
      RemapAfter(p, |e|, base, e);
      RenameKeepsTwoGroups(a, b);
    }
  }

  /** Two groups after a peeled path make a run of both. */
  lemma ExtRunTwoGroups(base: string, a: string, b: string)
    requires Patterns.ExtRunLength(base) == 0
    requires |a| > 0 && AllWordChars(a) && |b| > 0 && AllWordChars(b)
    ensures Patterns.ExtRunLength(base + "." + a + "." + b) == |a| + |b| + 2
  {
    ExtRunAppend(base, a);
    ExtRunAppend(base + "." + a, b);
  }

  /** A run of two groups is neither of the renamed extensions. */
  lemma RenameKeepsTwoGroups(a: string, b: string)
    requires |a| > 0 && AllWordChars(a)
    ensures RenameExt("." + a + "." + b) == "." + a + "." + b
  {
    var e := "." + a + "." + b;
    assert e[|a| + 1] == '.';
    assert forall i :: 1 <= i < |".preload"| ==> ".preload"[i] != '.';
    assert forall i :: 1 <= i < |".xtpl"| ==> ".xtpl"[i] != '.';
  }

  /** What the raw map does to a path: nothing, or it turns the path into
      a peeled prefix followed by `.raw.js` or `.xtpl.js`. */
  lemma BasicRawMapShape(hostname: string, p: string) returns (renamed: bool, base: string, g: string)
    ensures !renamed ==> BasicRawMap(hostname, p) == p
    ensures renamed ==> Patterns.ExtRunLength(base) == 0 && (g == "raw" || g == "xtpl")
    ensures renamed ==> BasicRawMap(hostname, p) == base + ("." + g + "." + "js")
  {
    renamed, base, g := false, "", "";
    var n := Patterns.ExtRunLength(p);
    if !IsQQHost(hostname) && n > 0 {
      var e := p[|p| - n..];
      base := p[..|p| - n];
      assert p == base + e;
      ExtRunPeeled(p);
      BasicRawMapOf(hostname, p, n);
      RemapAfter(p, n, base, e);
      RenamedRuns();
      if e == ".preload" {
        renamed, g := true, "raw";
      } else if e == ".xtpl" {
        renamed, g := true, "xtpl";
      }
    }
  }

  /** The renamed runs, group by group. */
  lemma RenamedRuns()
    ensures RenameExt(".preload") == "." + "raw" + "." + "js"
    ensures RenameExt(".xtpl") == "." + "xtpl" + "." + "js"
  {
  }

  /** Mapping a mapped path changes nothing more. */
  lemma BasicRawMapIdempotent(hostname: string, p: string)
    ensures BasicRawMap(hostname, BasicRawMap(hostname, p)) == BasicRawMap(hostname, p)
  {
    var renamed, base, g := BasicRawMapShape(hostname, p);
    if renamed {
      assert AllWordChars(g) && AllWordChars("js");
      assert base + ("." + g + "." + "js") == base + "." + g + "." + "js" by {
        ConcatAssoc4(base, ".", g, ".", "js");
      }
      BasicRawMapKeepsTwoGroups(hostname, base, g, "js");
    }
  }

  // ---------------------------------------------------------------------
  // Basic layout, module loader

  /** The map of the basic layout's module loader: templates are fetched as
      their compiled `.xtpl.js`, other scripts as `.mod.js`. */
  function BasicMap(hostname: string, p: string): (r: string)
    ensures IsQQHost(hostname) ==> r == p
    ensures !IsQQHost(hostname) && EndsWith(p, ".js") && !EndsWith(p, ".xtpl.js") ==> EndsWith(r, ".mod.js")
    ensures !IsQQHost(hostname) && (EndsWith(p, ".xtpl") || EndsWith(p, ".xtpl.js")) ==> EndsWith(r, ".xtpl.js")
    ensures !EndsWith(p, ".js") && !EndsWith(p, ".xtpl") ==> r == p
    ensures !IsQQHost(hostname) && EndsWith(p, ".xtpl") ==> r == p + ".js"
    ensures EndsWith(p, ".xtpl.js") || EndsWith(p, ".mod.js") ==> r == p
    ensures !IsQQHost(hostname) && EndsWith(p, ".js") && !EndsWith(p, ".xtpl.js") && !EndsWith(p, ".mod.js") ==>
      r == p[..|p| - 3] + ".mod.js"
    ensures |r| >= |p| && r[..|p| - (if EndsWith(p, ".js") then 3 else 0)] == p[..|p| - (if EndsWith(p, ".js") then 3 else 0)]
  {
    if IsQQHost(hostname) then p
    else if EndsWith(p, ".xtpl") then
      assert (p + ".js")[|p| + 3 - 8..] == p[|p| - 5..] + ".js";
      assert p[|p| - 1] == 'l';
      assert (p + ".js")[..|p|] == p;
      p + ".js"
    else if EndsWith(p, ".xtpl.js") || EndsWith(p, ".mod.js") then p
    else if EndsWith(p, ".js") then p[..|p| - 3] + ".mod.js"
    else p
  }

  /** Mapping a mapped path changes nothing more. */
  lemma BasicMapIdempotent(hostname: string, p: string)
    ensures BasicMap(hostname, BasicMap(hostname, p)) == BasicMap(hostname, p)
  {
    var r := BasicMap(hostname, p);
    if !IsQQHost(hostname) && r != p {
      assert EndsWith(r, ".xtpl.js") || EndsWith(r, ".mod.js") by {
        if EndsWith(p, ".xtpl") {
          EndsWithExtended(p, ".xtpl", ".js");
          assert ".xtpl" + ".js" == ".xtpl.js";
        } else {
          EndsWithAppended(p[..|p| - 3], ".mod.js");
        }
      }
      assert !EndsWith(r, ".xtpl") by {
        if EndsWith(r, ".xtpl.js") {
          EndsWithLastChar(r, ".xtpl.js");
        } else {
          EndsWithLastChar(r, ".mod.js");
        }
        if EndsWith(r, ".xtpl") {
          EndsWithLastChar(r, ".xtpl");
        }
      }
    }
  }
}

=== FILE: clientcommands.dfy ===
/** The browser twin of the template directives
    (`public/assets/xtpl/commands.js`): the asset directives print nothing,
    `resolvePath` resolves `.`-paths segment by segment against the
    template's name, drops the URL prefix, inserts the md5 fragment before
    the extension and prefixes the result; `jsonEncode`, `nl2br` and
    `space2nbsp` format values for the page. */
module ClientCommands {
  import opened Wrappers
  import opened Strings
  import opened JsValue
  import Patterns
  import Util
  import Json
  import XtplCommands

  /** What a directive returns and what it leaves in the output buffer. */
  datatype Written = Written(output: string, buffer: string)

  /** `css`, `js` and `modjs`: the browser loads nothing, so the directive
      returns `''`, or writes `''` in block form. */
  function AssetCommand(block: bool, buffer: string): (w: Written)
    ensures w.output == "" && w.buffer == buffer
  {
    if block then Written("", buffer + "") else Written("", buffer)
  }

  /** Rendered in the browser or on the server, an asset directive shows the
      same (nothing) on the page. */
  lemma AssetCommandAgreesWithServer(block: bool, buffer: string, kind: XtplCommands.AssetKind, rootPath: string,
                                     from: string, lists: XtplCommands.AssetLists, params: seq<string>, body: Option<string>)
    ensures AssetCommand(block, buffer).output == XtplCommands.ImportAssets(kind, rootPath, from, lists, params, body).output
  {
  }

  /** `assetURLPrefix`: the page's `ASSET_URL_PREFIX` as a URL, `/` when
      there is none, ending in `/`. */
  function ClientPrefix(given: Option<string>): (r: string)
    ensures EndsWith(r, "/")
    ensures given.None? || given == Some("") ==> r == "/"
    ensures given.Some? && given.value != "" ==>
      (r == given.value || r == given.value + "/") && (r == given.value <==> EndsWith(given.value, "/"))
  {
    XtplCommands.WithTrailingSlash(if given.None? || given == Some("") then "/" else given.value)
  }

  // ---------------------------------------------------------------------
  // Segment-wise resolution of `.`-paths

  /** `array.pop()`, which leaves an empty array empty. */
  function PopLast(xs: seq<string>): (r: seq<string>)
    ensures |xs| > 0 ==> r == xs[..|xs| - 1]
    ensures |xs| == 0 ==> r == []
  {
    if |xs| == 0 then [] else xs[..|xs| - 1]
  }

  /** One item of the path: `.` stays, `..` goes up one level, anything
      else (the empty item included) goes down. */
  function WalkStep(stack: seq<string>, item: string): seq<string> {
    if item == "." then stack else if item == ".." then PopLast(stack) else stack + [item]
  }

  function Walk(stack: seq<string>, items: seq<string>): seq<string>
    decreases |items|
  {
    if |items| == 0 then stack else Walk(WalkStep(stack, items[0]), items[1..])
  }

  /** Items that neither stay nor climb. */
  predicate Descending(items: seq<string>) {
    forall i :: 0 <= i < |items| ==> items[i] != "." && items[i] != ".."
  }

  /** Descending items are appended as they are. */
  lemma {:induction false} WalkDescending(stack: seq<string>, items: seq<string>)
    requires Descending(items)
    ensures Walk(stack, items) == stack + items
    decreases |items|
  {
    if |items| > 0 {
      assert Descending(items[1..]) by {
        forall i | 0 <= i < |items[1..]| ensures items[1..][i] == items[i + 1] { }
      }
      WalkDescending(stack + [items[0]], items[1..]);
      assert stack + [items[0]] + items[1..] == stack + items;
    }
  }

  /** A path starts with `.` (`/^\./`). */
  predicate DotPath(p: string) {
    |p| > 0 && p[0] == '.'
  }

  /** The segments a `.`-path resolves to from the template `name`: the
      template's directory, then each item of the path. */
  function DotSegments(name: string, assetPath: string): seq<string> {
    Walk(PopLast(Split(name, '/')), Split(assetPath, '/'))
  }

  /** The segments of a path spelled from segments without `/`. */
  lemma SplitSpelled(segs: seq<string>)
    requires |segs| > 0 && forall i :: 0 <= i < |segs| ==> '/' !in segs[i]
    ensures Split(Join(segs, "/"), '/') == segs
  {
    assert "/" == ['/'];
    SplitJoin(segs, '/');
  }

  /** `./x/y` from a template in `d1/.../dn` names `d1/.../dn/x/y`, and
      `../x/y` names `d1/.../d(n-1)/x/y`. */
  lemma DotSegmentsOfSpelled(dirs: seq<string>, file: string, lead: string, xs: seq<string>)
    requires lead == "." || lead == ".."
    requires '/' !in file && forall i :: 0 <= i < |dirs| ==> '/' !in dirs[i]
    requires |xs| > 0 && Descending(xs) && forall i :: 0 <= i < |xs| ==> '/' !in xs[i]
    ensures DotSegments(Join(dirs + [file], "/"), lead + "/" + Join(xs, "/"))
      == (if lead == "." then dirs else PopLast(dirs)) + xs
  {
    var name := dirs + [file];
    assert forall i :: 0 <= i < |name| ==> '/' !in name[i] by {
      forall i | 0 <= i < |name| ensures '/' !in name[i] {
        if i < |dirs| { assert name[i] == dirs[i]; }
      }
    }
    SplitSpelled(name);
    assert name[..|name| - 1] == dirs;
    var items := [lead] + xs;
    JoinCons(lead, xs, "/");
    assert forall i :: 0 <= i < |items| ==> '/' !in items[i] by {
      forall i | 0 <= i < |items| ensures '/' !in items[i] {
        if i > 0 { assert items[i] == xs[i - 1]; }
      }
    }
    SplitSpelled(items);
    assert items[1..] == xs;
    WalkDescending(WalkStep(dirs, lead), xs);
  }

  // ---------------------------------------------------------------------
  // `resolvePath`

  /** Drops one leading `/` (`replace(/^\//, '')`). */
  function Unslashed(s: string): (r: string)
    ensures |s| > 0 && s[0] == '/' ==> r == s[1..]
    ensures !(|s| > 0 && s[0] == '/') ==> r == s
  {
    if |s| > 0 && s[0] == '/' then s[1..] else s
  }

  /** The md5 fragment of a path: its entry in the map when that is not empty. */
  function HashOf(md5Map: map<string, string>, p: string): Option<string> {
    if p in md5Map && md5Map[p] != "" then Some(md5Map[p]) else None
  }

  /** `p.replace(/\.\w+$/, ...)` inserting `.hash` before the final extension
      when there is a hash. */
  function WithHash(md5Map: map<string, string>, p: string): (r: string)
    ensures HashOf(md5Map, p).None? ==> r == p
  {
    match HashOf(md5Map, p)
    case None => p
    case Some(h) => Patterns.InsertBeforeFinalExt(p, h)
  }

  /** The resolved path with the first occurrence of the prefix removed. */
  function Located(prefix: string, name: string, assetPath: string): string {
    ReplaceFirst(Join(DotSegments(name, assetPath), "/"), prefix, "")
  }

  /** `resolvePath` in the browser. A path that does not start with `.` is
      left a string, and `result.join` throws on it; so does a missing
      parameter. */
  function ResolvePath(prefix: string, md5Map: map<string, string>, name: string, params: seq<string>): (r: Result<string, string>)
    ensures r.Err? <==> |params| == 0 || !DotPath(params[0])
    ensures r.Ok? && Util.IsURLWith(Located(prefix, name, params[0]), true) ==> r.value == Located(prefix, name, params[0])
    ensures r.Ok? && !Util.IsURLWith(Located(prefix, name, params[0]), true) ==>
      var t := Unslashed(Located(prefix, name, params[0]));
      r.value == prefix + WithHash(md5Map, t) && StartsWith(r.value, prefix)
  {
    if |params| == 0 || !DotPath(params[0]) then Err("TypeError: result.join is not a function")
    else
      var located := Located(prefix, name, params[0]);
      if Util.IsURLWith(located, true) then Ok(located)
      else Ok(prefix + WithHash(md5Map, Unslashed(located)))
  }

  /** As written, a path that does not start with `.` never resolves: the
      module path `lib/x.js` fails whatever template asks for it. */
  lemma PlainPathFailsAsWritten(prefix: string, md5Map: map<string, string>, name: string)
    ensures ResolvePath(prefix, md5Map, name, ["lib/x.js"]).Err?
  {
    assert !DotPath(["lib/x.js"][0]);
  }

  /** `resolvePath` as evidently intended: a path that does not start with
      `.` is taken as it is (`result = assetPath.split('/')` would give the
      same once joined), and only a missing parameter fails. */
  function ResolvePathIntended(prefix: string, md5Map: map<string, string>, name: string, params: seq<string>): (r: Result<string, string>)
    ensures r.Err? <==> |params| == 0
    ensures |params| > 0 && DotPath(params[0]) ==> r == ResolvePath(prefix, md5Map, name, params)
    ensures |params| > 0 && !DotPath(params[0]) && IndexOf(params[0], prefix).None? && Util.IsURLWith(params[0], true) ==>
      r == Ok(params[0])
    ensures |params| > 0 && !DotPath(params[0]) && IndexOf(params[0], prefix).None? && !Util.IsURLWith(params[0], true) ==>
      r == Ok(prefix + WithHash(md5Map, Unslashed(params[0])))
  {
    if |params| == 0 then Err("TypeError: cannot read property 'replace' of undefined")
    else
      var located := if DotPath(params[0]) then Located(prefix, name, params[0]) else ReplaceFirst(params[0], prefix, "");
      if Util.IsURLWith(located, true) then Ok(located)
      else Ok(prefix + WithHash(md5Map, Unslashed(located)))
  }

  /** Inserting into the text after a prefix is inserting into the whole. */
  lemma PrefixedInsert(prefix: string, t: string, k: nat, h: string)
    requires k <= |t|
    ensures prefix + (t[..k] + "." + h + t[k..])
      == (prefix + t)[..|prefix| + k] + "." + h + (prefix + t)[|prefix| + k..]
  {
    assert (prefix + t)[..|prefix| + k] == prefix + t[..k];
    assert (prefix + t)[|prefix| + k..] == t[k..];
  }

  /** The md5 map inserts `.hash` right before the final extension of the
      path it has an entry for, and changes nothing else: compared with the
      path `resolvePath` gives without a map (`prefix + t`), the path it gives
      with one differs only by that insertion. */
  lemma HashedPathOnlyInserts(prefix: string, md5Map: map<string, string>, t: string)
    ensures prefix + WithHash(map[], t) == prefix + t
    ensures HashOf(md5Map, t).None? || Patterns.FinalExtStart(t).None? ==>
      prefix + WithHash(md5Map, t) == prefix + t
    ensures HashOf(md5Map, t).Some? && Patterns.FinalExtStart(t).Some? ==>
      var k := |prefix| + Patterns.FinalExtStart(t).value;
      prefix + WithHash(md5Map, t) == (prefix + t)[..k] + "." + HashOf(md5Map, t).value + (prefix + t)[k..]
  {
    assert HashOf(map[], t).None?;
    if HashOf(md5Map, t).Some? && Patterns.FinalExtStart(t).Some? {
      PrefixedInsert(prefix, t, Patterns.FinalExtStart(t).value, HashOf(md5Map, t).value);
    }
  }

  // ---------------------------------------------------------------------
  // Formatting helpers

  /** `jsonEncode`: `JSON.stringify` of the first parameter (`undefined`
      for a missing one or for `undefined`). */
  function JsonEncode(params: seq<Value>): (r: Option<string>)
    ensures r.None? <==> |params| == 0 || params[0].Undefined?
  {
    Stringify(if |params| == 0 then Undefined else params[0])
  }

  /** A string encoded by `jsonEncode` reads back as the same string. */
  lemma JsonEncodeString(s: string)
    ensures Json.ParseString(JsonEncode([Str(s)]).value) == Some((s, ""))
  {
    Json.ParseQuote(s, "");
    assert Json.Quote(s) + "" == Json.Quote(s);
  }

  /** The local `toString`: `''` for `null` and `undefined`. */
  function TextOf(v: Value): (r: string)
    ensures IsNullish(v) ==> r == ""
    ensures v.Str? ==> r == v.s
  {
    if IsNullish(v) then "" else ToJsString(v)
  }

  /** The first parameter, `undefined` when there is none. */
  function FirstParam(params: seq<Value>): Value {
    if |params| == 0 then Undefined else params[0]
  }

  /** `s.replace(/\r?\n/g, '<br />')`. */
  function Nl2BrText(s: string): (r: string)
    ensures '\n' !in r
    ensures '\n' !in s ==> r == s
    decreases |s|
  {
    if |s| == 0 then ""
    else if s[0] == '\n' then "<br />" + Nl2BrText(s[1..])
    else if s[0] == '\r' && |s| > 1 && s[1] == '\n' then "<br />" + Nl2BrText(s[2..])
    else
      assert '\n' !in s ==> '\n' !in s[1..] by {
        assert forall i :: 0 <= i < |s| - 1 ==> s[1..][i] == s[i + 1];
      }
      [s[0]] + Nl2BrText(s[1..])
  }

  /** Text without line feeds is copied, unless its `\r` ends it right
      before a line feed. */
  lemma {:induction false} Nl2BrPrefix(a: string, t: string)
    requires '\n' !in a
    requires |a| > 0 && a[|a| - 1] == '\r' ==> |t| == 0 || t[0] != '\n'
    ensures Nl2BrText(a + t) == a + Nl2BrText(t)
    decreases |a|
  {
    if |a| > 0 {
      var s := a + t;
      assert s[0] == a[0];
      assert s[1..] == a[1..] + t;
      assert a[0] != '\n';
      if a[0] == '\r' && |s| > 1 {
        assert s[1] != '\n' by {
          if |a| > 1 { assert s[1] == a[1]; } else { assert s[1] == t[0]; }
        }
      }
      assert '\n' !in a[1..] by {
        assert forall i :: 0 <= i < |a| - 1 ==> a[1..][i] == a[i + 1];
      }
      Nl2BrPrefix(a[1..], t);
      ConsAppend(a, Nl2BrText(t));
    } else {
      assert a + t == t;
    }
  }

  /** Either line break becomes one `<br />`. */
  lemma Nl2BrBreak(sep: string, rest: string)
    requires sep == "\n" || sep == "\r\n"
    ensures Nl2BrText(sep + rest) == "<br />" + Nl2BrText(rest)
  {
    var s := sep + rest;
    assert s[0] == sep[0];
    if sep == "\r\n" {
      assert s[1] == '\n';
      assert s[2..] == rest;
    } else {
      assert s[1..] == rest;
    }
  }

  /** The first line and the break after it. */
  lemma Nl2BrFirstLine(line: string, sep: string, rest: string)
    requires sep == "\n" || sep == "\r\n"
    requires '\n' !in line
    requires sep == "\n" ==> |line| == 0 || line[|line| - 1] != '\r'
    ensures Nl2BrText(line + sep + rest) == line + "<br />" + Nl2BrText(rest)
  {
    assert line + sep + rest == line + (sep + rest);
    Nl2BrPrefix(line, sep + rest);
    Nl2BrBreak(sep, rest);
  }

  /** Lines joined by `\n` or by `\r\n` come out joined by `<br />`. */
  lemma {:induction false} Nl2BrLines(lines: seq<string>, crlf: bool)
    requires forall i :: 0 <= i < |lines| ==> '\n' !in lines[i]
    requires !crlf ==> forall i :: 0 <= i < |lines| - 1 ==> |lines[i]| == 0 || lines[i][|lines[i]| - 1] != '\r'
    ensures Nl2BrText(Join(lines, if crlf then "\r\n" else "\n")) == Join(lines, "<br />")
    decreases |lines|
  {
    var sep := if crlf then "\r\n" else "\n";
    if |lines| == 1 {
      assert Join(lines, sep) == lines[0];
    } else if |lines| > 1 {
      var tail := lines[1..];
      assert forall i :: 0 <= i < |tail| ==> tail[i] == lines[i + 1];
      Nl2BrLines(tail, crlf);
      Nl2BrFirstLine(lines[0], sep, Join(tail, sep));
    }
  }

  /** `nl2br`. */
  function Nl2Br(params: seq<Value>): (r: string)
    ensures IsNullish(FirstParam(params)) ==> r == ""
    ensures '\n' !in r
  {
    Nl2BrText(TextOf(FirstParam(params)))
  }

  /** The length of the whitespace run at the front of `s`. */
  function WhitespaceRun(s: string): (n: nat)
    ensures n <= |s|
    ensures forall i :: 0 <= i < n ==> IsWhitespace(s[i])
    ensures n < |s| ==> !IsWhitespace(s[n])
  {
    if |s| > 0 && IsWhitespace(s[0]) then 1 + WhitespaceRun(s[1..]) else 0
  }

  /** `n` copies of `t`, as `new Array(n + 1).join(t)` gives them. */
  function Repeat(t: string, n: nat): (r: string)
    ensures |r| == n * |t|
  {
    if n == 0 then "" else t + Repeat(t, n - 1)
  }

  /** No two whitespace characters side by side. */
  predicate NoWhitespacePair(s: string) {
    forall i :: 0 <= i < |s| - 1 ==> !(IsWhitespace(s[i]) && IsWhitespace(s[i + 1]))
  }

  /** `s.replace(/\s{2,}/g, ...)`: every whitespace run of two or more
      characters becomes as many `&nbsp;`. */
  function Space2NbspText(s: string): (r: string)
    ensures NoWhitespacePair(r)
    ensures |s| > 0 && !IsWhitespace(s[0]) ==> |r| > 0 && r[0] == s[0]
    ensures |r| > 0 && IsWhitespace(r[0]) ==> |s| > 0 && r[0] == s[0] && WhitespaceRun(s) == 1
    decreases |s|
  {
    if |s| == 0 then ""
    else
      var n := WhitespaceRun(s);
      if n >= 2 then
        var rest := Space2NbspText(s[n..]);
        RepeatNbsp(n);
        NoPairAppend(Repeat("&nbsp;", n), rest);
        Repeat("&nbsp;", n) + rest
      else
        var rest := Space2NbspText(s[1..]);
        assert n == 1 && |s| > 1 ==> !IsWhitespace(s[1..][0]);
        NoPairAppend([s[0]], rest);
        [s[0]] + rest
  }

  /** Gluing text without whitespace pairs to the front of another creates
      none, unless a whitespace character meets one. */
  lemma NoPairAppend(a: string, b: string)
    requires NoWhitespacePair(a) && NoWhitespacePair(b)
    requires |a| > 0 && |b| > 0 ==> !(IsWhitespace(a[|a| - 1]) && IsWhitespace(b[0]))
    ensures NoWhitespacePair(a + b)
  {
    var s := a + b;
    forall i | 0 <= i < |s| - 1 ensures !(IsWhitespace(s[i]) && IsWhitespace(s[i + 1])) {
      if i >= |a| {
        assert s[i] == b[i - |a|] && s[i + 1] == b[i - |a| + 1];
      } else if i + 1 < |a| {
        assert s[i] == a[i] && s[i + 1] == a[i + 1];
      }
    }
  }

  /** The non-breaking spaces hold no whitespace. */
  lemma {:induction false} RepeatNbsp(n: nat)
    ensures forall i :: 0 <= i < |Repeat("&nbsp;", n)| ==> !IsWhitespace(Repeat("&nbsp;", n)[i])
  {
    if n > 0 {
      RepeatNbsp(n - 1);
      var r := Repeat("&nbsp;", n);
      assert r == "&nbsp;" + Repeat("&nbsp;", n - 1);
      forall i | 0 <= i < |r| ensures !IsWhitespace(r[i]) {
        if i >= 6 { assert r[i] == Repeat("&nbsp;", n - 1)[i - 6]; }
      }
    }
  }

  /** Text without whitespace pairs is left as it is. */
  lemma {:induction false} Space2NbspIdentity(s: string)
    requires NoWhitespacePair(s)
    ensures Space2NbspText(s) == s
    decreases |s|
  {
    if |s| > 0 {
      assert WhitespaceRun(s) <= 1 by {
        if |s| > 1 && IsWhitespace(s[0]) { assert !IsWhitespace(s[1]); }
      }
      Space2NbspIdentity(s[1..]);
      assert [s[0]] + s[1..] == s;
    }
  }

  /** A whitespace run of length `n >= 2` becomes `n` non-breaking spaces. */
  lemma Space2NbspRun(w: string, t: string)
    requires |w| >= 2 && forall i :: 0 <= i < |w| ==> IsWhitespace(w[i])
    requires |t| == 0 || !IsWhitespace(t[0])
    ensures Space2NbspText(w + t) == Repeat("&nbsp;", |w|) + Space2NbspText(t)
  {
    var s := w + t;
    WhitespaceRunOf(w, t);
    assert s[|w|..] == t;
  }

  lemma {:induction false} WhitespaceRunOf(w: string, t: string)
    requires forall i :: 0 <= i < |w| ==> IsWhitespace(w[i])
    requires |t| == 0 || !IsWhitespace(t[0])
    ensures WhitespaceRun(w + t) == |w|
    decreases |w|
  {
    if |w| > 0 {
      assert (w + t)[1..] == w[1..] + t;
      WhitespaceRunOf(w[1..], t);
    } else {
      assert w + t == t;
    }
  }

  /** `space2nbsp`. */
  function Space2Nbsp(params: seq<Value>): (r: string)
    ensures IsNullish(FirstParam(params)) ==> r == ""
    ensures NoWhitespacePair(r)
  {
    Space2NbspText(TextOf(FirstParam(params)))
  }
}

=== FILE: clientloader.dfy ===
/** The browser's template loader (`public/assets/common/xtpl/1.0/xtpl.js`):
    which module a template path is loaded from. */
module ClientLoader {
  import opened Strings
  import Patterns

  /** What `loadTpl` resolves to: the empty template, or the module required
      under the given name. */
  datatype Loaded = EmptyTemplate | Module(path: string)

  /** Whether the path has a final extension (`/\.\w+$/`). */
  predicate HasExtname(p: string) {
    Patterns.FinalExtStart(p).Some?
  }

  /** `loadTpl`: a `?csrOnly` path renders nothing in the browser; a path
      without an extension gets `.xtpl`. */
  function LoadTpl(p: string): (r: Loaded)
    ensures EndsWith(p, "?csrOnly") <==> r == EmptyTemplate
    ensures r.Module? ==> HasExtname(r.path)
    ensures r.Module? && HasExtname(p) ==> r.path == p
    ensures !EndsWith(p, "?csrOnly") && !HasExtname(p) ==> r == Module(p + ".xtpl")
  {
    if EndsWith(p, "?csrOnly") then EmptyTemplate
    else if !HasExtname(p) then
      XtplExtname(p);
      Module(p + ".xtpl")
    else Module(p)
  }

  /** Appending `.xtpl` gives a path with a final extension. */
  lemma XtplExtname(p: string)
    ensures HasExtname(p + ".xtpl")
  {
    var s := p + ".xtpl";
    assert s[|p|] == '.';
    assert s[|p| + 1..] == "xtpl";
    assert AllWordChars("xtpl");
  }

  /** Loading the module a path names loads that same module. */
  lemma LoadTplIdempotent(p: string)
    requires LoadTpl(p).Module?
    ensures LoadTpl(LoadTpl(p).path) == LoadTpl(p)
  {
  }
}

=== FILE: commoncommands.dfy ===
/** The older shared directive set (`public/assets/common/xtpl/1.0/commands.js`):
    the asset directives print nothing and `resolvePath` resolves `.`-paths
    against the template's name under the page's URL prefix, without the md5
    map; `nl2br` formats any value as `String(v)` does. */
module CommonCommands {
  import opened Wrappers
  import opened Strings
  import opened JsValue
  import ClientCommands
  import Util

  /** The global the prefix is read from: no `window` at all (the lookup
      throws and is caught, leaving `''`), or a `window` whose
      `ASSET_URL_PREFIX` is undefined (`None`) or a string. */
  datatype Global = NoWindow | Window(prefix: Option<string>)

  /** `assetURLPrefix` when the directives are loaded. An undefined
      `ASSET_URL_PREFIX` on a real `window` makes `charAt` throw. */
  function Prefix(g: Global): (r: Result<string, string>)
    ensures r.Err? <==> g == Window(None)
    ensures r.Ok? ==> EndsWith(r.value, "/")
    ensures g == NoWindow ==> r == Ok("/")
    ensures g.Window? && g.prefix.Some? ==>
      && r.Ok?
      && (r.value == g.prefix.value || r.value == g.prefix.value + "/")
      && (r.value == g.prefix.value <==> EndsWith(g.prefix.value, "/"))
  {
    match g
    case NoWindow => Ok(WithSlash(""))
    case Window(None) => Err("TypeError: cannot read property 'charAt' of undefined")
    case Window(Some(p)) => Ok(WithSlash(p))
  }

  /** Appends `/` unless the text already ends with one. */
  function WithSlash(p: string): (r: string)
    ensures EndsWith(r, "/") && (r == p || r == p + "/")
    ensures r == p <==> EndsWith(p, "/")
  {
    if |p| > 0 && p[|p| - 1] == '/' then p else p + "/"
  }

  /** `resolvePath`: the resolved segments joined under the prefix. A path
      that does not start with `.` stays a string and has no `join`. */
  function ResolvePath(prefix: string, name: string, params: seq<string>): (r: Result<string, string>)
    ensures r.Err? <==> |params| == 0 || !ClientCommands.DotPath(params[0])
    ensures r.Ok? ==> StartsWith(r.value, prefix)
    ensures r.Ok? ==> r.value[|prefix|..] == Join(ClientCommands.DotSegments(name, params[0]), "/")
  {
    if |params| == 0 || !ClientCommands.DotPath(params[0]) then Err("TypeError: result.join is not a function")
    else
      var joined := Join(ClientCommands.DotSegments(name, params[0]), "/");
      assert (prefix + joined)[|prefix|..] == joined;
      Ok(prefix + joined)
  }

  /** Both directive sets agree on a relative path that is not a URL, does
      not contain the prefix or start with `/`, and has no md5 entry. */
  lemma AgreesWithClient(prefix: string, md5Map: map<string, string>, name: string, params: seq<string>)
    requires |params| > 0 && ClientCommands.DotPath(params[0])
    requires var joined := Join(ClientCommands.DotSegments(name, params[0]), "/");
      IndexOf(joined, prefix).None? && !Util.IsURLWith(joined, true)
      && !(|joined| > 0 && joined[0] == '/') && ClientCommands.HashOf(md5Map, joined).None?
    ensures ResolvePath(prefix, name, params) == ClientCommands.ResolvePath(prefix, md5Map, name, params)
  {
    var joined := Join(ClientCommands.DotSegments(name, params[0]), "/");
    assert ClientCommands.Located(prefix, name, params[0]) == joined;
  }

  /** `nl2br`: `String(v)`, so `undefined` and `null` show as words, with
      each line break turned into `<br />`. */
  function Nl2Br(params: seq<Value>): (r: string)
    ensures '\n' !in r
    ensures |params| == 0 ==> r == "undefined"
  {
    ClientCommands.Nl2BrText(ToJsString(ClientCommands.FirstParam(params)))
  }

  /** The two `nl2br` directives differ only on `null` and `undefined`. */
  lemma Nl2BrAgreesWithClient(params: seq<Value>)
    ensures !IsNullish(ClientCommands.FirstParam(params)) ==> Nl2Br(params) == ClientCommands.Nl2Br(params)
    ensures ClientCommands.FirstParam(params) == Null ==> Nl2Br(params) == "null" && ClientCommands.Nl2Br(params) == ""
  {
  }
}

=== FILE: config.dfy ===
/** The environment settings of `config.js`: the environment name is taken
    from `--env` or `NODE_ENV`, normalised through a few aliases, and decides
    `NODE_ENV`, `BACK2FRONT_ENV`, the production flag and the static files'
    `maxAge`. */
module Config {
  import opened Wrappers

  /** `{'': 'local', development: 'dev', 'pre-release': 'pre', production: 'prod'}[item] || item`. */
  function Canonical(item: Option<string>): (r: Option<string>)
    ensures item.None? <==> r.None?
    ensures Accepted(item) ==> r == item
    ensures item.Some? && item.value in {"", "development", "pre-release", "production"} ==> Accepted(r)
  {
    match item
    case None => None
    case Some(s) =>
      if s == "" then Some("local")
      else if s == "development" then Some("dev")
      else if s == "pre-release" then Some("pre")
      else if s == "production" then Some("prod")
      else item
  }

  /** `['local', 'dev', 'test', 'pre', 'prod'].indexOf(item) !== -1`. */
  predicate Accepted(name: Option<string>) {
    name.Some? && name.value in {"local", "dev", "test", "pre", "prod"}
  }

  /** The names an item is recognised under: the five accepted names and their aliases. */
  predicate Recognised(item: Option<string>) {
    item.Some? && item.value in {"local", "dev", "test", "pre", "prod", "", "development", "pre-release", "production"}
  }

  /** Normalising twice is normalising once. */
  lemma CanonicalIdempotent(item: Option<string>)
    ensures Canonical(Canonical(item)) == Canonical(item)
  {
  }

  /** An item is accepted after normalisation exactly when it is one of the
      five names or one of the four aliases. */
  lemma CanonicalAccepted(item: Option<string>)
    ensures Accepted(Canonical(item)) <==> Recognised(item)
  {
  }

  /** `[argvs.env, process.env.NODE_ENV].some(...)`: the first item that is
      accepted after normalisation. */
  function FirstAccepted(items: seq<Option<string>>): (r: Option<nat>)
    ensures r.Some? ==> r.value < |items| && Accepted(Canonical(items[r.value]))
    ensures r.Some? ==> forall i :: 0 <= i < r.value ==> !Accepted(Canonical(items[i]))
    ensures r.None? ==> forall i :: 0 <= i < |items| ==> !Accepted(Canonical(items[i]))
  {
    if |items| == 0 then None
    else if Accepted(Canonical(items[0])) then Some(0)
    else match FirstAccepted(items[1..])
      case None => None
      case Some(k) => Some(k + 1)
  }

  /** What the module exports, and `isProd` (`undefined` when no item is accepted). */
  datatype Settings = Settings(env: Option<string>, nodeEnv: Option<string>, isProd: Option<bool>, maxAge: nat)

  const ThreeDays: nat := 3 * 24 * 60 * 60 * 1000

  /** Loading `config.js` with the given `--env`, `NODE_ENV`, `--prod` given as
      `false` (`prodFalse`), and the `BACK2FRONT_ENV` already in the environment. */
  function Load(argvEnv: Option<string>, nodeEnv: Option<string>, prodFalse: bool, presetEnv: Option<string>): (s: Settings)
    ensures s.maxAge == (if s.isProd == Some(true) then ThreeDays else 0)
    ensures s.isProd.Some? ==> Accepted(s.env)
    ensures s.isProd.None? ==> s.env == presetEnv && s.nodeEnv == nodeEnv
    ensures s.isProd.Some? ==>
      (s.isProd.value <==> s.env != Some("local") && !prodFalse)
      && s.nodeEnv == Some(if s.isProd.value then "production" else "development")
  {
    var items := [argvEnv, nodeEnv];
    match FirstAccepted(items)
    case None => Settings(presetEnv, nodeEnv, None, 0)
    case Some(i) =>
      var name := Canonical(items[i]);
      var prod := !(name == Some("local") || prodFalse);
      Settings(name, Some(if prod then "production" else "development"), Some(prod), if prod then ThreeDays else 0)
  }

  /** `--env` wins over `NODE_ENV` whenever it is recognised. */
  lemma ArgvWins(argvEnv: Option<string>, nodeEnv: Option<string>, prodFalse: bool, presetEnv: Option<string>)
    requires Recognised(argvEnv)
    ensures Load(argvEnv, nodeEnv, prodFalse, presetEnv).env == Canonical(argvEnv)
  {
    CanonicalAccepted(argvEnv);
  }

  /** `NODE_ENV=production` alone gives the production settings. */
  lemma ProductionNodeEnv(presetEnv: Option<string>)
    ensures Load(None, Some("production"), false, presetEnv) == Settings(Some("prod"), Some("production"), Some(true), 259200000)
  {
    assert FirstAccepted([None, Some("production")]) == Some(1);
  }
}

=== FILE: json.dfy ===
/** JSON string literals as `JSON.stringify` writes them (section 7 of
    RFC 8259), together with a parser for string literals and arrays of
    string literals that serves as the inverse of the writer. */
module Json {
  import opened Wrappers
  import opened Strings

  const HexDigits: string := "0123456789abcdef"

  /** The escape `JSON.stringify` writes for one character: the two-character
      escapes of RFC 8259 where one exists, `\u00xx` with lower-case hex digits
      for the other control characters, and the character itself otherwise. */
  function EscapeChar(c: char): (r: string)
    ensures |r| > 0
    ensures (c as int) >= 0x20 && c != '"' && c != '\\' ==> r == [c]
  {
    if c == '"' then "\\\""
    else if c == '\\' then "\\\\"
    else if c == '\U{0008}' then "\\b"
    else if c == '\t' then "\\t"
    else if c == '\n' then "\\n"
    else if c == '\U{000C}' then "\\f"
    else if c == '\r' then "\\r"
    else if (c as int) < 0x20 then
      "\\u00" + [HexDigits[(c as int) / 16], HexDigits[(c as int) % 16]]
    else [c]
  }

  function EscapeBody(s: string): string {
    if |s| == 0 then "" else EscapeChar(s[0]) + EscapeBody(s[1..])
  }

  /** `JSON.stringify(s)` for a string `s`. */
  function Quote(s: string): (r: string)
    ensures |r| >= 2 && r[0] == '"'
  {
    "\"" + EscapeBody(s) + "\""
  }

  /** `JSON.stringify(xs)` for an array of strings. */
  function QuoteList(xs: seq<string>): (r: string)
    ensures |r| >= 2 && r[0] == '['
  {
    "[" + QuoteItems(xs) + "]"
  }

  function QuoteItems(xs: seq<string>): string {
    if |xs| == 0 then ""
    else if |xs| == 1 then Quote(xs[0])
    else Quote(xs[0]) + "," + QuoteItems(xs[1..])
  }

  function HexValue(c: char): (r: Option<nat>)
    ensures r.Some? ==> r.value < 16
  {
    if '0' <= c <= '9' then Some(c as int - '0' as int)
    else if 'a' <= c <= 'f' then Some(c as int - 'a' as int + 10)
    else if 'A' <= c <= 'F' then Some(c as int - 'A' as int + 10)
    else None
  }

  function Hex4(u: string): (r: Option<nat>)
    requires |u| == 4
    ensures r.Some? ==> r.value < 0x10000
  {
    match (HexValue(u[0]), HexValue(u[1]), HexValue(u[2]), HexValue(u[3]))
    case (Some(a), Some(b), Some(c), Some(d)) => Some(((a * 16 + b) * 16 + c) * 16 + d)
    case _ => None
  }

  /** The character an escape sequence (the text after the backslash) stands
      for, and how many characters of that text it uses. A `\u` escape naming a
      surrogate code unit has no character of its own and is refused. */
  function Unescape(u: string): (r: Option<(char, nat)>)
    ensures r.Some? ==> 1 <= r.value.1 <= |u|
  {
    if |u| == 0 then None
    else if u[0] == '"' || u[0] == '\\' || u[0] == '/' then Some((u[0], 1))
    else if u[0] == 'b' then Some(('\U{0008}', 1))
    else if u[0] == 'f' then Some(('\U{000C}', 1))
    else if u[0] == 'n' then Some(('\n', 1))
    else if u[0] == 'r' then Some(('\r', 1))
    else if u[0] == 't' then Some(('\t', 1))
    else if u[0] == 'u' && |u| >= 5 then
      match Hex4(u[1..5])
      case Some(v) =>
        if v < 0xD800 || 0xE000 <= v then Some((v as char, 5)) else None
      case None => None
    else None
  }

  /** Reads the characters of a string literal up to its closing quote;
      gives the decoded text and what follows the closing quote. */
  function ParseChars(t: string): (r: Option<(string, string)>)
    ensures r.Some? ==> |r.value.1| < |t|
    decreases |t|
  {
    if |t| == 0 then None
    else if t[0] == '"' then Some(("", t[1..]))
    else if t[0] == '\\' then
      match Unescape(t[1..])
      case None => None
      case Some((c, n)) =>
        match ParseChars(t[1 + n..])
        case None => None
        case Some((s, rest)) => Some(([c] + s, rest))
    else if (t[0] as int) < 0x20 then None
    else
      match ParseChars(t[1..])
      case None => None
      case Some((s, rest)) => Some(([t[0]] + s, rest))
  }

  /** Reads one JSON string literal at the front of `t`. */
  function ParseString(t: string): (r: Option<(string, string)>)
    ensures r.Some? ==> |r.value.1| < |t|
  {
    if |t| > 0 && t[0] == '"' then ParseChars(t[1..]) else None
  }

  /** Reads a JSON array of string literals (no white space) at the front of `t`. */
  function ParseList(t: string): Option<(seq<string>, string)> {
    if |t| > 0 && t[0] == '[' then
      if |t| > 1 && t[1] == ']' then Some(([], t[2..]))
      else ParseItems(t[1..])
    else None
  }

  function ParseItems(t: string): Option<(seq<string>, string)>
    decreases |t|
  {
    match ParseString(t)
    case None => None
    case Some((s, rest)) =>
      if |rest| > 0 && rest[0] == ']' then Some(([s], rest[1..]))
      else if |rest| > 0 && rest[0] == ',' then
        match ParseItems(rest[1..])
        case None => None
        case Some((ss, rest')) => Some(([s] + ss, rest'))
      else None
  }

  lemma HexDigitValue(d: nat)
    requires d < 16
    ensures HexValue(HexDigits[d]) == Some(d)
  {
  }

  /** What reading a character `c` that uses `n` characters of `w` leaves. */
  function ReadOn(c: char, n: nat, w: string): Option<(string, string)>
    requires n <= |w|
  {
    match ParseChars(w[n..])
    case None => None
    case Some((s, rest)) => Some(([c] + s, rest))
  }

  /** A control character without a short escape reads back from `\u00xx`. */
  lemma ParseControlChar(c: char, t: string)
    requires (c as int) < 0x20 && c !in {'\U{0008}', '\t', '\n', '\U{000C}', '\r'}
    ensures ParseChars(EscapeChar(c) + t) == ReadOn(c, 0, t)
  {
    var v := c as int;
    var e := EscapeChar(c);
    var w := e + t;
    assert e == "\\u00" + [HexDigits[v / 16], HexDigits[v % 16]];
    assert |e| == 6 && e[1] == 'u' && e[2] == '0' && e[3] == '0';
    assert w[0] == '\\';
    assert Unescape(w[1..]) == Some((c, 5)) by {
      var x := w[1..][1..5];
      assert w[1..][0] == e[1];
      assert x[0] == e[2] && x[1] == e[3] && x[2] == e[4] && x[3] == e[5];
      HexDigitValue(v / 16);
      HexDigitValue(v % 16);
      assert (v / 16) * 16 + v % 16 == v;
      assert Hex4(x) == Some(v);
      assert (v as char) == c;
    }
    assert w[1 + 5..] == t;
    assert t[0..] == t;
  }

  /** A character with a two-character escape reads back from it. */
  lemma ParseShortEscape(c: char, t: string)
    requires c in {'"', '\\', '\U{0008}', '\t', '\n', '\U{000C}', '\r'}
    ensures ParseChars(EscapeChar(c) + t) == ReadOn(c, 0, t)
  {
    var w := EscapeChar(c) + t;
    assert |EscapeChar(c)| == 2 && EscapeChar(c)[0] == '\\';
    assert w[0] == '\\' && w[1] == EscapeChar(c)[1];
    assert Unescape(w[1..]) == Some((c, 1));
    assert w[1 + 1..] == t;
    assert t[0..] == t;
  }

  /** Any other character is written as itself and read back as itself. */
  lemma ParsePlainChar(c: char, t: string)
    requires (c as int) >= 0x20 && c != '"' && c != '\\'
    ensures ParseChars(EscapeChar(c) + t) == ReadOn(c, 0, t)
  {
    var w := EscapeChar(c) + t;
    assert w == [c] + t;
    assert w[0] == c && w[1..] == t;
    assert t[0..] == t;
  }

  /** Reading back the escape of one character gives that character. */
  lemma ParseEscapedChar(c: char, t: string)
    ensures ParseChars(EscapeChar(c) + t) ==
      match ParseChars(t)
      case None => None
      case Some((s, rest)) => Some(([c] + s, rest))
  {
    if c in {'"', '\\', '\U{0008}', '\t', '\n', '\U{000C}', '\r'} {
      ParseShortEscape(c, t);
    } else if (c as int) < 0x20 {
      ParseControlChar(c, t);
    } else {
      ParsePlainChar(c, t);
    }
    assert t[0..] == t;
  }

  /** The escaped body followed by a closing quote reads back as the text. */
  lemma {:induction false} ParseEscapedBody(s: string, t: string)
    ensures ParseChars(EscapeBody(s) + "\"" + t) == Some((s, t))
  {
    if |s| == 0 {
      assert EscapeBody(s) + "\"" + t == "\"" + t;
      assert ("\"" + t)[1..] == t;
    } else {
      var e := EscapeChar(s[0]);
      var b := EscapeBody(s[1..]);
      var tail := b + "\"" + t;
      assert EscapeBody(s) + "\"" + t == e + tail by {
        assert EscapeBody(s) == e + b;
        ConcatAssoc(e, b, "\"");
        ConcatAssoc(e, b + "\"", t);
      }
      assert ParseChars(tail) == Some((s[1..], t)) by {
        ParseEscapedBody(s[1..], t);
      }
      assert ParseChars(e + tail) == Some(([s[0]] + s[1..], t)) by {
        ParseEscapedChar(s[0], tail);
      }
      assert [s[0]] + s[1..] == s;
    }
  }

  /** Round trip of the string writer: whatever follows the literal is left alone. */
  lemma ParseQuote(s: string, t: string)
    ensures ParseString(Quote(s) + t) == Some((s, t))
  {
    var w := Quote(s) + t;
    assert w[1..] == EscapeBody(s) + "\"" + t;
    ParseEscapedBody(s, t);
  }

  /** The writer is injective: distinct texts give distinct literals. */
  lemma QuoteInjective(a: string, b: string)
    requires Quote(a) == Quote(b)
    ensures a == b
  {
    ParseQuote(a, "");
    ParseQuote(b, "");
    assert Quote(a) + "" == Quote(a);
    assert Quote(b) + "" == Quote(b);
  }

  lemma {:induction false} ParseQuoteItems(xs: seq<string>, t: string)
    requires |xs| > 0
    ensures ParseItems(QuoteItems(xs) + "]" + t) == Some((xs, t))
    decreases |xs|
  {
    var q := Quote(xs[0]);
    if |xs| == 1 {
      assert QuoteItems(xs) + "]" + t == q + ("]" + t) by {
        ConcatAssoc(q, "]", t);
      }
      assert ParseString(q + ("]" + t)) == Some((xs[0], "]" + t)) by {
        ParseQuote(xs[0], "]" + t);
      }
      assert ("]" + t)[1..] == t;
      assert [xs[0]] == xs;
    } else {
      var items := QuoteItems(xs[1..]);
      var more := items + "]" + t;
      assert QuoteItems(xs) + "]" + t == q + ("," + more) by {
        assert QuoteItems(xs) == q + "," + items;
        ConcatAssoc4(q, ",", items, "]", t);
        ConcatAssoc(",", items + "]", t);
        ConcatAssoc(",", items, "]");
      }
      assert ParseString(q + ("," + more)) == Some((xs[0], "," + more)) by {
        ParseQuote(xs[0], "," + more);
      }
      assert ("," + more)[1..] == more;
      assert ParseItems(more) == Some((xs[1..], t)) by {
        ParseQuoteItems(xs[1..], t);
      }
      assert [xs[0]] + xs[1..] == xs;
    }
  }

  /** Round trip of the array writer. */
  lemma ParseQuoteList(xs: seq<string>, t: string)
    ensures ParseList(QuoteList(xs) + t) == Some((xs, t))
  {
    var w := QuoteList(xs) + t;
    if |xs| == 0 {
      assert w == "[]" + t;
      assert w[2..] == t;
    } else {
      assert w[1..] == QuoteItems(xs) + "]" + t;
      ParseQuoteItems(xs, t);
      assert Quote(xs[0])[0] == '"';
      assert |Quote(xs[0])| <= |QuoteItems(xs)| by {
        if |xs| > 1 { assert QuoteItems(xs) == Quote(xs[0]) + "," + QuoteItems(xs[1..]); }
      }
      assert w[1] == '"';
    }
  }
}

=== FILE: jsvalue.dfy ===
/** The JavaScript values the system passes around: view data, template
    data, directive parameters, manifests. A `Dict` lists an object's
    properties in creation order; enumeration (`Enumerate`) puts array-index
    keys first, in ascending order, as JavaScript does. `own` holds an
    object's own enumerable properties and `inherited` the properties its
    prototype chain supplies. Floating-point numbers are not
    modelled: numbers are integers. */
module JsValue {
  import opened Wrappers
  import opened Strings
  import Json

  datatype Value =
    | Undefined
    | Null
    | Bool(b: bool)
    | Num(n: int)
    | Str(s: string)
    | Arr(items: seq<Value>)
    | Obj(own: seq<(string, Value)>, inherited: seq<(string, Value)>)

  type Dict = seq<(string, Value)>

  function PlainObject(d: Dict): Value {
    Obj(d, [])
  }

  /** ToBoolean. */
  predicate Truthy(v: Value) {
    !(v.Undefined? || v.Null? || v == Bool(false) || v == Num(0) || v == Str(""))
  }

  /** `v == null`: true of `null` and `undefined` only. */
  predicate IsNullish(v: Value) {
    v.Undefined? || v.Null?
  }

  function Keys(d: Dict): (ks: seq<string>)
    ensures |ks| == |d|
    ensures forall i :: 0 <= i < |d| ==> ks[i] == d[i].0
  {
    if |d| == 0 then [] else [d[0].0] + Keys(d[1..])
  }

  predicate HasKey(d: Dict, k: string) {
    k in Keys(d)
  }

  /** No key appears twice, as in every JavaScript object. */
  predicate DistinctKeys(d: Dict) {
    forall i, j :: 0 <= i < j < |d| ==> d[i].0 != d[j].0
  }

  /** The value stored under `k`. */
  function Get(d: Dict, k: string): (r: Option<Value>)
    ensures r.None? <==> !HasKey(d, k)
  {
    if |d| == 0 then None
    else if d[0].0 == k then Some(d[0].1)
    else
      assert Keys(d) == [d[0].0] + Keys(d[1..]);
      Get(d[1..], k)
  }

  /** `o[k] = v`: in creation order, an existing key keeps its position and
      a new key goes last. */
  function Put(d: Dict, k: string, v: Value): (r: Dict)
    ensures HasKey(d, k) ==> Keys(r) == Keys(d)
    ensures !HasKey(d, k) ==> Keys(r) == Keys(d) + [k]
  {
    if |d| == 0 then [(k, v)]
    else if d[0].0 == k then [(k, v)] + d[1..]
    else
      assert Keys(d) == [d[0].0] + Keys(d[1..]);
      var r := [d[0]] + Put(d[1..], k, v);
      assert Keys(r) == [d[0].0] + Keys(Put(d[1..], k, v));
      r
  }

  /** Reading after a write: the written key has the new value, every other
      key its old one. */
  lemma {:induction false} PutGet(d: Dict, k: string, v: Value, k': string)
    ensures Get(Put(d, k, v), k') == if k' == k then Some(v) else Get(d, k')
  {
    if |d| > 0 && d[0].0 != k {
      PutGet(d[1..], k, v, k');
      assert Put(d, k, v)[1..] == Put(d[1..], k, v);
    }
  }

  lemma DistinctKeysTail(d: Dict)
    requires |d| > 0 && DistinctKeys(d)
    ensures DistinctKeys(d[1..])
    ensures !HasKey(d[1..], d[0].0)
  {
    forall i, j | 0 <= i < j < |d[1..]| ensures d[1..][i].0 != d[1..][j].0 {
      assert d[1..][i] == d[i + 1] && d[1..][j] == d[j + 1];
    }
    forall i | 0 <= i < |d[1..]| ensures Keys(d[1..])[i] != d[0].0 {
      assert d[1..][i] == d[i + 1];
    }
  }

  /** Writes keep keys distinct. */
  lemma PutDistinct(d: Dict, k: string, v: Value)
    requires DistinctKeys(d)
    ensures DistinctKeys(Put(d, k, v))
  {
    var r := Put(d, k, v);
    assert forall i :: 0 <= i < |r| ==> Keys(r)[i] == r[i].0;
    assert forall i :: 0 <= i < |d| ==> Keys(d)[i] == d[i].0;
    if HasKey(d, k) {
      assert Keys(r) == Keys(d);
    } else {
      assert Keys(r) == Keys(d) + [k];
      forall i | 0 <= i < |d| ensures r[i].0 != k {
        assert Keys(r)[i] == Keys(d)[i];
      }
    }
  }

  /** `Object.assign(d, ...)` with one source: every own entry of the source,
      in order, is put into `d`. */
  function Assign(d: Dict, src: Dict): Dict
    decreases |src|
  {
    if |src| == 0 then d else Assign(Put(d, src[0].0, src[0].1), src[1..])
  }

  /** After an assignment, a key of the source has the source's value and every
      other key keeps its old value. */
  lemma {:induction false} AssignGet(d: Dict, src: Dict, k: string)
    requires DistinctKeys(src)
    ensures Get(Assign(d, src), k) == if HasKey(src, k) then Get(src, k) else Get(d, k)
    decreases |src|
  {
    if |src| > 0 {
      var d' := Put(d, src[0].0, src[0].1);
      DistinctKeysTail(src);
      AssignGet(d', src[1..], k);
      PutGet(d, src[0].0, src[0].1, k);
      assert Keys(src) == [src[0].0] + Keys(src[1..]);
    }
  }

  /** The keys after an assignment: the old ones in their order, then the
      source's new ones. */
  lemma {:induction false} AssignKeepsOldKeysFirst(d: Dict, src: Dict)
    ensures |Assign(d, src)| >= |d|
    ensures Keys(Assign(d, src))[..|d|] == Keys(d)
    decreases |src|
  {
    if |src| > 0 {
      var d' := Put(d, src[0].0, src[0].1);
      AssignKeepsOldKeysFirst(d', src[1..]);
      assert Keys(d')[..|d|] == Keys(d);
      assert |Keys(Assign(d, src))| == |Assign(d, src)|;
      assert Keys(Assign(d, src))[..|d|] == Keys(Assign(d', src[1..]))[..|d'|][..|d|];
    }
  }

  /** A canonical array index ("0", "1", ..., no leading zero) and its value. */
  function ParseIndex(k: string): Option<nat> {
    if |k| == 0 || (|k| > 1 && k[0] == '0') || exists i :: 0 <= i < |k| && !('0' <= k[i] <= '9') then None
    else Some(DigitsValue(k))
  }

  function DigitsValue(k: string): nat
    requires forall i :: 0 <= i < |k| ==> '0' <= k[i] <= '9'
  {
    if |k| == 0 then 0 else DigitsValue(k[..|k| - 1]) * 10 + (k[|k| - 1] as int - '0' as int)
  }

  /** An array index: a canonical decimal below 2^32 - 1. */
  predicate IsArrayIndex(k: string) {
    ParseIndex(k).Some? && ParseIndex(k).value < 4294967295
  }

  /** Index keys come first, in ascending numeric order; the other keys
      follow them. */
  predicate IndicesFirst(d: Dict) {
    forall i, j :: 0 <= i < j < |d| && IsArrayIndex(d[j].0) ==>
      IsArrayIndex(d[i].0) && ParseIndex(d[i].0).value <= ParseIndex(d[j].0).value
  }

  /** The entries of `d` whose key is not an array index, in order. */
  function NamedEntries(d: Dict): Dict {
    if |d| == 0 then []
    else NamedEntries(d[..|d| - 1]) + (if IsArrayIndex(d[|d| - 1].0) then [] else [d[|d| - 1]])
  }

  /** The order in which JavaScript enumerates an object's own string keys
      (`Object.keys`, `for-in`, `JSON.stringify`): array indices first, in
      ascending numeric order, then the other keys in the order they were
      created. `d` lists the properties in creation order. */
  function Enumerate(d: Dict): (r: Dict)
    ensures |r| == |d|
    ensures forall e :: e in r <==> e in d
    ensures IndicesFirst(r)
    ensures NamedEntries(r) == NamedEntries(d)
  {
    if |d| == 0 then []
    else
      var x := d[|d| - 1];
      var r := Enumerate(d[..|d| - 1]);
      assert d == d[..|d| - 1] + [x];
      EnumInsertOrdered(r, x);
      EnumInsertNamed(r, x);
      EnumInsert(r, x)
  }

  /** How many entries at the front of `r` have an index key below `n`. */
  function SmallerIndices(r: Dict, n: nat): (p: nat)
    ensures p <= |r|
    ensures forall i :: 0 <= i < p ==> IsArrayIndex(r[i].0) && ParseIndex(r[i].0).value < n
    ensures p < |r| ==> !(IsArrayIndex(r[p].0) && ParseIndex(r[p].0).value < n)
  {
    if |r| > 0 && IsArrayIndex(r[0].0) && ParseIndex(r[0].0).value < n then 1 + SmallerIndices(r[1..], n) else 0
  }

  /** Where a new property lands among properties already in enumeration
      order: an index before the first entry that is not a smaller index,
      any other key last. */
  function InsertPosition(r: Dict, k: string): (p: nat)
    ensures p <= |r|
    ensures !IsArrayIndex(k) ==> p == |r|
  {
    if IsArrayIndex(k) then SmallerIndices(r, ParseIndex(k).value) else |r|
  }

  function EnumInsert(r: Dict, x: (string, Value)): (s: Dict)
    ensures |s| == |r| + 1
    ensures forall e :: e in s <==> e in r || e == x
  {
    var p := InsertPosition(r, x.0);
    assert r == r[..p] + r[p..];
    r[..p] + [x] + r[p..]
  }

  /** Inserting keeps the enumeration order. */
  lemma EnumInsertOrdered(r: Dict, x: (string, Value))
    requires IndicesFirst(r)
    ensures IndicesFirst(EnumInsert(r, x))
  {
    var s := EnumInsert(r, x);
    forall i, j | 0 <= i < j < |s| && IsArrayIndex(s[j].0)
      ensures IsArrayIndex(s[i].0) && ParseIndex(s[i].0).value <= ParseIndex(s[j].0).value
    {
      EnumInsertPair(r, x, i, j);
    }
  }

  /** One pair of the inserted entries is in order. */
  lemma EnumInsertPair(r: Dict, x: (string, Value), i: nat, j: nat)
    requires IndicesFirst(r)
    requires i < j < |r| + 1 && IsArrayIndex(EnumInsert(r, x)[j].0)
    ensures var s := EnumInsert(r, x);
      IsArrayIndex(s[i].0) && ParseIndex(s[i].0).value <= ParseIndex(s[j].0).value
  {
    var p := InsertPosition(r, x.0);
    EnumInsertAt(r, x);
    if i == p {
      InsertedBeforeLater(r, x.0, j - 1);
    }
  }

  /** Where each entry sits after an insertion. */
  lemma EnumInsertAt(r: Dict, x: (string, Value))
    ensures var p := InsertPosition(r, x.0); var s := EnumInsert(r, x);
      && s[p] == x
      && (forall k :: 0 <= k < p ==> s[k] == r[k])
      && (forall k :: p < k < |s| ==> s[k] == r[k - 1])
  {
  }

  /** An index key is inserted before every later index key that is not
      smaller. */
  lemma InsertedBeforeLater(r: Dict, k: string, q: nat)
    requires IndicesFirst(r) && InsertPosition(r, k) <= q < |r| && IsArrayIndex(r[q].0)
    ensures IsArrayIndex(k) && ParseIndex(k).value <= ParseIndex(r[q].0).value
  {
    var p := InsertPosition(r, k);
    assert p < |r|;
    if p < q {
      assert IsArrayIndex(r[p].0) && ParseIndex(r[p].0).value <= ParseIndex(r[q].0).value;
    }
  }

  /** Inserting an index key leaves the other keys as they were; another
      key is added at the end. */
  lemma EnumInsertNamed(r: Dict, x: (string, Value))
    ensures NamedEntries(EnumInsert(r, x)) == NamedEntries(r) + (if IsArrayIndex(x.0) then [] else [x])
  {
    var p := InsertPosition(r, x.0);
    if IsArrayIndex(x.0) {
      NamedConcat(r[..p] + [x], r[p..]);
      NamedConcat(r[..p], [x]);
      assert NamedEntries([x]) == [] by {
        assert [x][..0] == [];
      }
      NamedConcat(r[..p], r[p..]);
      assert r[..p] + r[p..] == r;
    } else {
      assert EnumInsert(r, x) == r + [x];
      assert (r + [x])[..|r|] == r;
    }
  }

  lemma {:induction false} NamedConcat(a: Dict, b: Dict)
    ensures NamedEntries(a + b) == NamedEntries(a) + NamedEntries(b)
    decreases |b|
  {
    if |b| > 0 {
      var b' := b[..|b| - 1];
      NamedConcat(a, b');
      assert (a + b)[..|a + b| - 1] == a + b';
    } else {
      assert a + b == a;
    }
  }

  /** Entries with the same members have the same keys. */
  lemma SameMembersSameKeys(a: Dict, b: Dict, k: string)
    requires forall e :: e in a <==> e in b
    ensures HasKey(a, k) <==> HasKey(b, k)
  {
    if HasKey(a, k) {
      var i :| 0 <= i < |a| && Keys(a)[i] == k;
      assert a[i] in b;
      var j :| 0 <= j < |b| && b[j] == a[i];
      assert Keys(b)[j] == k;
    }
    if HasKey(b, k) {
      var i :| 0 <= i < |b| && Keys(b)[i] == k;
      assert b[i] in a;
      var j :| 0 <= j < |a| && a[j] == b[i];
      assert Keys(a)[j] == k;
    }
  }

  /** What `Get` finds is stored in the entries. */
  lemma {:induction false} GetIsMember(d: Dict, k: string)
    requires HasKey(d, k)
    ensures (k, Get(d, k).value) in d
  {
    if d[0].0 != k {
      assert Keys(d) == [d[0].0] + Keys(d[1..]);
      GetIsMember(d[1..], k);
    }
  }

  /** With distinct keys, a stored entry is what `Get` finds. */
  lemma {:induction false} MemberIsGet(d: Dict, k: string, x: Value)
    requires DistinctKeys(d) && (k, x) in d
    ensures Get(d, k) == Some(x)
  {
    var j :| 0 <= j < |d| && d[j] == (k, x);
    if j > 0 {
      assert d[0].0 != k;
      DistinctKeysTail(d);
      assert d[1..][j - 1] == (k, x);
      MemberIsGet(d[1..], k, x);
    }
  }

  /** Enumeration names no key twice when the object does not. */
  lemma {:induction false} EnumerateDistinct(d: Dict)
    requires DistinctKeys(d)
    ensures DistinctKeys(Enumerate(d))
    decreases |d|
  {
    if |d| > 0 {
      var d' := d[..|d| - 1];
      var x := d[|d| - 1];
      var r := Enumerate(d');
      assert DistinctKeys(d');
      EnumerateDistinct(d');
      forall i | 0 <= i < |r| ensures r[i].0 != x.0 {
        assert r[i] in d';
        var j :| 0 <= j < |d'| && d'[j] == r[i];
        assert d[j] == r[i];
      }
      EnumInsertDistinct(r, x);
    }
  }

  lemma EnumInsertDistinct(r: Dict, x: (string, Value))
    requires DistinctKeys(r) && forall i :: 0 <= i < |r| ==> r[i].0 != x.0
    ensures DistinctKeys(EnumInsert(r, x))
  {
    EnumInsertAt(r, x);
  }

  /** Enumeration reorders an object's properties without changing what any
      key reads. */
  lemma EnumerateGet(d: Dict, k: string)
    requires DistinctKeys(d)
    ensures Get(Enumerate(d), k) == Get(d, k)
  {
    var r := Enumerate(d);
    SameMembersSameKeys(r, d, k);
    if HasKey(d, k) {
      var x := Get(d, k).value;
      GetIsMember(d, k);
      EnumerateDistinct(d);
      MemberIsGet(r, k, x);
    }
  }

  /** Without index keys, enumeration is creation order. */
  lemma NoIndexKeysEnumerate(d: Dict)
    requires forall i :: 0 <= i < |d| ==> !IsArrayIndex(d[i].0)
    ensures Enumerate(d) == d
  {
    var r := Enumerate(d);
    forall i | 0 <= i < |r| ensures !IsArrayIndex(r[i].0) {
      assert r[i] in d;
    }
    NamedOfNamed(d);
    NamedOfNamed(r);
  }

  lemma {:induction false} NamedOfNamed(d: Dict)
    requires forall i :: 0 <= i < |d| ==> !IsArrayIndex(d[i].0)
    ensures NamedEntries(d) == d
    decreases |d|
  {
    if |d| > 0 {
      NamedOfNamed(d[..|d| - 1]);
      assert d[..|d| - 1] + [d[|d| - 1]] == d;
    }
  }

  /** A key that does not start with a digit is not an array index. */
  lemma NonDigitKeyNotIndex(k: string)
    requires |k| > 0 && !('0' <= k[0] <= '9')
    ensures !IsArrayIndex(k)
  {
  }

  /** An index key created after a named key is still enumerated first:
      `{b: 1}` with `"0"` added enumerates `"0"`, then `"b"`. */
  lemma IndexKeyEnumeratedFirst()
    ensures Enumerate([("b", Num(1)), ("0", Num(2))]) == [("0", Num(2)), ("b", Num(1))]
  {
    NonDigitKeyNotIndex("b");
    assert ParseIndex("0") == Some(0);
    var d := [("b", Num(1)), ("0", Num(2))];
    assert d[..1] == [("b", Num(1))];
    assert Enumerate(d[..1]) == [("b", Num(1))] by {
      assert d[..1][..0] == [];
    }
    assert SmallerIndices([("b", Num(1))], 0) == 0;
  }

  /** Property lookup `v[k]`, own properties first, then inherited ones. */
  function GetProperty(v: Value, k: string): Value {
    match v
    case Obj(own, inh) =>
      (match Get(own, k)
       case Some(x) => x
       case None => Get(inh, k).GetOr(Undefined))
    case Arr(items) =>
      if k == "length" then Num(|items|)
      else (match ParseIndex(k)
        case Some(i) => if i < |items| then items[i] else Undefined
        case None => Undefined)
    case Str(s) =>
      if k == "length" then Num(|s|)
      else (match ParseIndex(k)
        case Some(i) => if i < |s| then Str([s[i]]) else Undefined
        case None => Undefined)
    case _ => Undefined
  }

  /** The own enumerable string-keyed properties, in enumeration order;
      arrays and strings enumerate their indices. */
  function OwnEntries(v: Value): (es: Dict)
    ensures v.Obj? ==> es == Enumerate(v.own)
    ensures v.Arr? ==> |es| == |v.items|
  {
    match v
    case Obj(own, _) => Enumerate(own)
    case Arr(items) => seq(|items|, i requires 0 <= i < |items| => (NatToString(i), items[i]))
    case Str(s) => seq(|s|, i requires 0 <= i < |s| => (NatToString(i), Str([s[i]])))
    case _ => []
  }

  /** A value as JavaScript can build it: no object holds a key twice. */
  predicate WellFormed(v: Value) {
    v.Obj? ==> DistinctKeys(v.own)
  }

  /** Enumerating the own properties of a well-formed value never yields a
      key twice; array and string indices print distinctly. */
  lemma OwnEntriesDistinct(v: Value)
    requires WellFormed(v)
    ensures DistinctKeys(OwnEntries(v))
  {
    var es := OwnEntries(v);
    if v.Obj? {
      EnumerateDistinct(v.own);
    }
    if v.Arr? || v.Str? {
      forall i, j | 0 <= i < j < |es| ensures es[i].0 != es[j].0 {
        if es[i].0 == es[j].0 {
          assert es[i].0 == NatToString(i) && es[j].0 == NatToString(j);
          NatToStringInjective(i, j);
        }
      }
    }
  }

  /** `String(v)`. An object's own `toString` is not consulted. */
  function ToJsString(v: Value): string
    decreases v, 1
  {
    match v
    case Undefined => "undefined"
    case Null => "null"
    case Bool(b) => if b then "true" else "false"
    case Num(n) => IntToString(n)
    case Str(s) => s
    case Arr(items) => JoinElements(v, items)
    case Obj(_, _) => "[object Object]"
  }

  /** `Array.prototype.join(",")`: `null` and `undefined` elements become empty. */
  function JoinElements(parent: Value, items: seq<Value>): string
    requires forall i :: 0 <= i < |items| ==> items[i] < parent
    decreases parent, 0, |items|
  {
    if |items| == 0 then ""
    else
      var first := if IsNullish(items[0]) then "" else ToJsString(items[0]);
      if |items| == 1 then first else first + "," + JoinElements(parent, items[1..])
  }

  predicate AllDigits(k: string) {
    forall i :: 0 <= i < |k| ==> '0' <= k[i] <= '9'
  }

  /** `Number(s)` for a string, as far as the model goes: once trimmed, the
      empty string is 0 and an optionally signed run of decimal digits is its
      value; `None` stands for `NaN`. */
  function NumericString(s: string): (r: Option<int>)
    ensures var t := Trim(s); AllDigits(t) ==> r == Some(DigitsValue(t))
  {
    SignedDigits(Trim(s))
  }

  /** An optionally signed run of decimal digits, or the empty string. */
  function SignedDigits(t: string): (r: Option<int>)
    ensures AllDigits(t) ==> r == Some(DigitsValue(t))
  {
    if AllDigits(t) then Some(DigitsValue(t))
    else if t[0] == '-' || t[0] == '+' then
      var d := t[1..];
      if |d| > 0 && AllDigits(d) then Some(if t[0] == '-' then -(DigitsValue(d) as int) else DigitsValue(d))
      else None
    else None
  }

  /** `Number(v)`, the conversion a relational comparison with a number
      applies: `undefined` is `NaN` (`None`), `null` is 0, booleans are 1 and
      0, and arrays and objects go through their string form. */
  function ToNumber(v: Value): (r: Option<int>)
    ensures v.Num? ==> r == Some(v.n)
    ensures v.Undefined? ==> r.None?
    ensures v.Null? ==> r == Some(0)
    ensures v.Bool? ==> r == Some(if v.b then 1 else 0)
  {
    match v
    case Undefined => None
    case Null => Some(0)
    case Bool(b) => Some(if b then 1 else 0)
    case Num(n) => Some(n)
    case Str(s) => NumericString(s)
    case _ => NumericString(ToJsString(v))
  }

  /** A plain object converts to `NaN`: `"[object Object]"` is not a number. */
  lemma ObjectIsNaN(v: Value)
    requires v.Obj?
    ensures ToNumber(v).None?
  {
    var s := ToJsString(v);
    assert s == "[object Object]";
    TrimUntouched(s);
    assert !AllDigits(s) by {
      assert !('0' <= s[0] <= '9');
    }
  }

  /** The decimal digits of a number read back as that number. */
  lemma {:induction false} DigitsOfNatToString(n: nat)
    ensures AllDigits(NatToString(n)) && DigitsValue(NatToString(n)) == n
    decreases n
  {
    var k := NatToString(n);
    if n >= 10 {
      DigitsOfNatToString(n / 10);
      assert k[..|k| - 1] == NatToString(n / 10);
    }
  }

  /** Trimming leaves a string that neither starts nor ends with
      whitespace as it is. */
  lemma TrimUntouched(s: string)
    requires |s| > 0 ==> !IsWhitespace(s[0]) && !IsWhitespace(s[|s| - 1])
    ensures Trim(s) == s
  {
    var t := TrimStart(s);
    assert t == s;
  }

  /** The decimal text of a number converts back to that number. */
  lemma NumericStringOfDecimal(n: nat)
    ensures ToNumber(Str(NatToString(n))) == Some(n)
  {
    DigitsOfNatToString(n);
    DecimalToNumber(NatToString(n));
  }

  /** Decimal digits, with or without a minus sign, convert to their value. */
  lemma DecimalToNumber(k: string)
    requires |k| > 0 && AllDigits(k)
    ensures ToNumber(Str(k)) == Some(DigitsValue(k))
    ensures ToNumber(Str("-" + k)) == Some(-(DigitsValue(k) as int))
  {
    DecimalReads(k);
    NegatedDecimalReads(k);
  }

  lemma DecimalReads(k: string)
    requires |k| > 0 && AllDigits(k)
    ensures NumericString(k) == Some(DigitsValue(k))
  {
    TrimUntouched(k);
  }

  lemma NegatedDecimalReads(k: string)
    requires |k| > 0 && AllDigits(k)
    ensures NumericString("-" + k) == Some(-(DigitsValue(k) as int))
  {
    var m := "-" + k;
    TrimUntouched(m);
    NegatedDigits(k);
  }

  lemma NegatedDigits(k: string)
    requires |k| > 0 && AllDigits(k)
    ensures SignedDigits("-" + k) == Some(-(DigitsValue(k) as int))
  {
    var m := "-" + k;
    assert m[1..] == k;
    assert !AllDigits(m) by {
      assert m[0] == '-';
    }
  }

  /** `JSON.stringify(v)`; `None` where it returns `undefined`. An object
      member whose value has no JSON text is skipped; an array element
      without one is written `null`. */
  function Stringify(v: Value): (r: Option<string>)
    ensures v.Str? ==> r == Some(Json.Quote(v.s))
    ensures r.None? <==> v.Undefined?
    decreases v, 1
  {
    match v
    case Undefined => None
    case Null => Some("null")
    case Bool(b) => Some(if b then "true" else "false")
    case Num(n) => Some(IntToString(n))
    case Str(s) => Some(Json.Quote(s))
    case Arr(items) => Some("[" + StringifyItems(v, items) + "]")
    case Obj(own, _) =>
      var members := Enumerate(own);
      assert forall i :: 0 <= i < |members| ==> members[i] in own;
      Some("{" + StringifyMembers(v, members) + "}")
  }

  function StringifyItems(parent: Value, items: seq<Value>): string
    requires forall i :: 0 <= i < |items| ==> items[i] < parent
    decreases parent, 0, |items|
  {
    if |items| == 0 then ""
    else
      var first := Stringify(items[0]).GetOr("null");
      if |items| == 1 then first else first + "," + StringifyItems(parent, items[1..])
  }

  function StringifyMembers(parent: Value, members: Dict): string
    requires forall i :: 0 <= i < |members| ==> members[i].1 < parent
    decreases parent, 0, |members|
  {
    if |members| == 0 then ""
    else
      var rest := StringifyMembers(parent, members[1..]);
      match Stringify(members[0].1)
      case None => rest
      case Some(t) =>
        var m := Json.Quote(members[0].0) + ":" + t;
        if rest == "" then m else m + "," + rest
  }

  function Strs(xs: seq<string>): (vs: seq<Value>)
    ensures |vs| == |xs|
    ensures forall i :: 0 <= i < |xs| ==> vs[i] == Str(xs[i])
  {
    if |xs| == 0 then [] else [Str(xs[0])] + Strs(xs[1..])
  }

  /** An array of strings serialises exactly as the JSON array writer does. */
  lemma {:induction false} StringifyStrings(xs: seq<string>)
    ensures Stringify(Arr(Strs(xs))) == Some(Json.QuoteList(xs))
  {
    StringifyItemsStrings(Arr(Strs(xs)), xs);
  }

  lemma {:induction false} StringifyItemsStrings(parent: Value, xs: seq<string>)
    requires forall i :: 0 <= i < |xs| ==> Str(xs[i]) < parent
    ensures StringifyItems(parent, Strs(xs)) == Json.QuoteItems(xs)
    decreases |xs|
  {
    if |xs| > 1 {
      assert Strs(xs)[1..] == Strs(xs[1..]);
      StringifyItemsStrings(parent, xs[1..]);
    }
  }
}

=== FILE: middleware.dfy ===
/** The two request rewriters for static assets (`lib/assets-handler.js` and
    `lib/assert-handler.js`). A request whose extension run names a handler
    is served from a generated shadow file: the handler reads the local
    file, transforms it, writes the result next to it under a path whose
    first segment carries a `~`, and points the request at that path.
    The file system is a map from normalised paths to entries; the Babel
    compiler is a parameter. */
module AssetMiddleware {
  import opened Wrappers
  import opened Strings
  import Patterns
  import NodePath
  import Json

  datatype Entry = File(content: string) | Directory

  type FileSystem = map<string, Entry>

  /** Which of the two middlewares: `assets-handler` (templates and Babel
      compiled modules) or `assert-handler` (templates and `.mod.js` modules). */
  datatype Flavour = Assets | Assert

  datatype Kind =
    | Template     // `*.xtpl.js`: the template text as a module
    | BabelModule  // `*.js`: compiled, then wrapped in `define`
    | PlainModule  // `*.mod.js`: wrapped in `define` as it is

  /** What the middleware does with one request. */
  datatype Outcome =
    | Respond(status: int, body: string)                  // ends the response, `next` not called
    | Next(rewrittenUrl: Option<string>, fs: FileSystem)   // calls `next` once
    | Throw(error: string)                                 // a synchronous exception

  /** The handler table of each middleware, looked up by the extension run. */
  function HandlerFor(f: Flavour, ext: Option<string>): (k: Option<Kind>)
    ensures k == Some(Template) <==> ext == Some(".xtpl.js")
    ensures k == Some(BabelModule) <==> f.Assets? && ext == Some(".js")
    ensures k == Some(PlainModule) <==> f.Assert? && ext == Some(".mod.js")
  {
    match ext
    case None => None
    case Some(e) =>
      if e == ".xtpl.js" then Some(Template)
      else if f.Assets? && e == ".js" then Some(BabelModule)
      else if f.Assert? && e == ".mod.js" then Some(PlainModule)
      else None
  }

  /** `urlPath.replace(/(\.xtpl)\.js$/i, '$1')`: a trailing `.js` after
      `.xtpl` (in any case) is dropped. */
  function TemplateSource(u: string): (r: string)
    ensures EndsWithIgnoringCase(u, ".xtpl.js") ==> r + u[|u| - 3..] == u && EndsWithIgnoringCase(r, ".xtpl")
    ensures !EndsWithIgnoringCase(u, ".xtpl.js") ==> r == u
  {
    if EndsWithIgnoringCase(u, ".xtpl.js") then
      var r := u[..|u| - 3];
      assert r + u[|u| - 3..] == u;
      forall i | 0 <= i < 5 ensures ToLowerAscii(r[|r| - 5 + i]) == ToLowerAscii(".xtpl"[i]) {
        assert r[|r| - 5 + i] == u[|u| - 8 + i];
        assert ".xtpl"[i] == ".xtpl.js"[i];
      }
      r
    else u
  }

  /** The file a request reads, relative to the static directory. */
  function LocalPathOf(k: Kind, u: string): string {
    if k.Template? then TemplateSource(u) else u
  }

  /** `urlPath.replace(/(\.js)$/, '.defined$1')` and
      `urlPath.replace(/(\.mod)(\.js)$/, '$1.defined$2')`: the compiled copy
      gets `.defined` before its final `.js`. */
  function TempPathOf(k: Kind, u: string): (r: string)
    ensures k.Template? ==> r == u
    ensures k.BabelModule? && EndsWith(u, ".js") ==> EndsWith(r, ".defined.js") && r[..|r| - 11] == u[..|u| - 3]
    ensures k.PlainModule? && EndsWith(u, ".mod.js") ==> EndsWith(r, ".mod.defined.js") && r[..|r| - 15] == u[..|u| - 7]
    ensures !EndsWith(u, ".js") ==> r == u
  {
    match k
    case Template => u
    case BabelModule =>
      if EndsWith(u, ".js") then
        EndsWithAppended(u[..|u| - 3], ".defined.js");
        u[..|u| - 3] + ".defined.js"
      else u
    case PlainModule =>
      if EndsWith(u, ".mod.js") then
        EndsWithAppended(u[..|u| - 7], ".mod.defined.js");
        u[..|u| - 7] + ".mod.defined.js"
      else u
  }

  /** The number of `/` at the start of `p`. */
  function LeadingSlashes(p: string): (k: nat)
    ensures k <= |p|
    ensures forall i :: 0 <= i < k ==> p[i] == '/'
    ensures k < |p| ==> p[k] != '/'
  {
    if |p| > 0 && p[0] == '/' then 1 + LeadingSlashes(p[1..]) else 0
  }

  /** The first non-empty segment gets a `~` in front. */
  function MarkFirstSegment(parts: seq<string>): (r: seq<string>)
    ensures |r| == |parts|
  {
    if |parts| == 0 then []
    else if parts[0] != "" then ["~" + parts[0]] + parts[1..]
    else [""] + MarkFirstSegment(parts[1..])
  }

  /** The URL path of the generated file. */
  function ShadowPath(p: string): string {
    Join(MarkFirstSegment(Split(p, '/')), "/")
  }

  /** A leading slash is kept and the rest is marked. */
  lemma ShadowPathSlash(p: string)
    requires |p| > 0 && p[0] == '/'
    ensures ShadowPath(p) == "/" + ShadowPath(p[1..])
  {
    var rest := Split(p[1..], '/');
    assert Split(p, '/') == [""] + rest;
    assert MarkFirstSegment(Split(p, '/')) == [""] + MarkFirstSegment(rest);
    JoinCons("", MarkFirstSegment(rest), "/");
  }

  /** A path that starts with a segment gets the `~` in front. */
  lemma ShadowPathWord(p: string)
    requires |p| > 0 && p[0] != '/'
    ensures ShadowPath(p) == "~" + p
  {
    var rest := Split(p[1..], '/');
    var first := [p[0]] + rest[0];
    assert Split(p, '/') == [first] + rest[1..];
    assert MarkFirstSegment(Split(p, '/')) == ["~" + first] + rest[1..];
    JoinConsHead("~", first, rest[1..], "/");
    JoinSplit(p, '/');
  }

  /** The shadow path is the request path with a `~` inserted after its
      leading slashes; a path of slashes only has nothing to mark. */
  lemma {:induction false} ShadowPathInsertsTilde(p: string)
    ensures var k := LeadingSlashes(p);
      ShadowPath(p) == if k == |p| then p else p[..k] + "~" + p[k..]
  {
    if |p| > 0 {
      if p[0] == '/' {
        var t := p[1..];
        var k := LeadingSlashes(t);
        assert LeadingSlashes(p) == k + 1;
        assert ShadowPath(p) == "/" + ShadowPath(t) by {
          ShadowPathSlash(p);
        }
        assert ShadowPath(t) == if k == |t| then t else t[..k] + "~" + t[k..] by {
          ShadowPathInsertsTilde(t);
        }
        if k < |t| {
          assert p[..k + 1] == "/" + t[..k];
          assert p[k + 1..] == t[k..];
          ConcatAssoc("/", t[..k] + "~", t[k..]);
          ConcatAssoc("/", t[..k], "~");
        } else {
          assert p == "/" + t;
        }
      } else {
        ShadowPathWord(p);
        assert p[..0] + "~" + p[0..] == "~" + p;
      }
    }
  }

  /** `urlPath.split('/').slice(2).join('/')`: the module id of a template
      drops the first directory of the URL. */
  function ModuleId(u: string): string {
    var parts := Split(u, '/');
    Join(if |parts| >= 2 then parts[2..] else [], "/")
  }

  /** The id of `/<dir>/<rest>` is `<rest>`. */
  lemma ModuleIdDropsFirstDirectory(dir: string, rest: string)
    requires '/' !in dir
    ensures ModuleId("/" + dir + "/" + rest) == rest
  {
    NodePath.SplitLeadingSlash(dir + "/" + rest);
    NodePath.SplitSlashConcat(dir, rest);
    assert "/" + dir + "/" + rest == "/" + (dir + "/" + rest);
    var parts := Split("/" + dir + "/" + rest, '/');
    assert parts == [""] + Split(dir, '/') + Split(rest, '/');
    SplitJoin([dir], '/');
    assert Split(dir, '/') == [dir];
    assert parts[2..] == Split(rest, '/');
    JoinSplit(rest, '/');
  }

  const TemplateHeader: string := "define("
  const TemplateMiddle: string := ", null, function(require, exports, module) {\nmodule.exports = "
  const TemplateFooter: string := ";\n});"

  /** A template as an AMD module whose export is the template text. */
  function TemplateModule(id: string, text: string): string {
    TemplateHeader + Json.Quote(id) + TemplateMiddle + Json.Quote(text) + TemplateFooter
  }

  /** What follows the prefix `p` of `m`, if `m` starts with it. */
  function AfterPrefix(m: string, p: string): (r: Option<string>)
    ensures r.Some? <==> StartsWith(m, p)
    ensures r.Some? ==> p + r.value == m
  {
    if StartsWith(m, p) then
      assert m == m[..|p|] + m[|p|..];
      Some(m[|p|..])
    else None
  }

  lemma AfterPrefixOfConcat(p: string, t: string)
    ensures AfterPrefix(p + t, p) == Some(t)
  {
    assert (p + t)[..|p|] == p;
    assert (p + t)[|p|..] == t;
  }

  /** Reads a template module back: its id and its text. */
  function ReadTemplateModule(m: string): Option<(string, string)> {
    match AfterPrefix(m, TemplateHeader)
    case None => None
    case Some(afterHeader) =>
      match Json.ParseString(afterHeader)
      case None => None
      case Some((id, rest)) =>
        match AfterPrefix(rest, TemplateMiddle)
        case None => None
        case Some(afterMiddle) =>
          match Json.ParseString(afterMiddle)
          case None => None
          case Some((text, tail)) => if tail == TemplateFooter then Some((id, text)) else None
  }

  /** The generated module holds exactly the id and the template text. */
  lemma ReadTemplateModuleRoundTrip(id: string, text: string)
    ensures ReadTemplateModule(TemplateModule(id, text)) == Some((id, text))
  {
    var q, qt := Json.Quote(id), Json.Quote(text);
    var afterMiddle := qt + TemplateFooter;
    var afterId := TemplateMiddle + afterMiddle;
    var afterHeader := q + afterId;
    assert TemplateModule(id, text) == TemplateHeader + afterHeader by {
      ConcatAssoc4(TemplateHeader, q, TemplateMiddle, qt, TemplateFooter);
      ConcatAssoc(q + TemplateMiddle, qt, TemplateFooter);
      ConcatAssoc(q, TemplateMiddle, afterMiddle);
    }
    assert AfterPrefix(TemplateHeader + afterHeader, TemplateHeader) == Some(afterHeader) by {
      AfterPrefixOfConcat(TemplateHeader, afterHeader);
    }
    assert Json.ParseString(afterHeader) == Some((id, afterId)) by {
      Json.ParseQuote(id, afterId);
    }
    assert AfterPrefix(afterId, TemplateMiddle) == Some(afterMiddle) by {
      AfterPrefixOfConcat(TemplateMiddle, afterMiddle);
    }
    assert Json.ParseString(afterMiddle) == Some((text, TemplateFooter)) by {
      Json.ParseQuote(text, TemplateFooter);
    }
  }

  const ModuleHeader: string := "define(function(require, exports, module) { \"use strict\";\n"
  const ModuleFooter: string := "\n});"

  /** A script wrapped as an AMD module factory. */
  function WrapModule(code: string): (r: string)
    ensures |r| == |ModuleHeader| + |code| + |ModuleFooter|
    ensures StartsWith(r, ModuleHeader) && EndsWith(r, ModuleFooter)
    ensures r[|ModuleHeader|..|r| - |ModuleFooter|] == code
  {
    ModuleHeader + code + ModuleFooter
  }

  /** The text of the generated file; only compilation can fail. */
  function ContentOf(k: Kind, compile: string -> Result<string, string>, text: string, u: string): (r: Result<string, string>)
    ensures k.Template? ==> r == Ok(TemplateModule(ModuleId(u), text))
    ensures k.PlainModule? ==> r == Ok(WrapModule(text))
    ensures k.BabelModule? ==> (r.Err? <==> compile(text).Err?)
    ensures k.BabelModule? && r.Ok? ==> r.value == WrapModule(compile(text).value)
  {
    match k
    case Template => Ok(TemplateModule(ModuleId(u), text))
    case PlainModule => Ok(WrapModule(text))
    case BabelModule =>
      match compile(text)
      case Ok(code) => Ok(WrapModule(code))
      case Err(e) => Err(e)
  }

  /** Whether a directory the target lies in is a file: the text of the
      target up to one of its `/` separators names a file. */
  predicate FileAncestor(fs: FileSystem, target: string) {
    exists k :: 0 < k < |target| && target[k] == '/' && target[..k] in fs && fs[target[..k]].File?
  }

  /** Writing the generated file, `fse.outputFileSync`: the missing
      directories on the way are created, so a file in their place makes it
      throw, and so does a directory at the target itself. */
  function Emit(fs: FileSystem, target: string, shadow: string, content: Result<string, string>): (o: Outcome)
    ensures o.Respond? == false
    ensures o.Next? <==> content.Ok? && !(target in fs && fs[target].Directory?) && !FileAncestor(fs, target)
    ensures o.Next? ==> o.rewrittenUrl == Some(shadow) && o.fs == fs[target := File(content.value)]
  {
    match content
    case Err(e) => Throw(e)
    case Ok(c) =>
      if FileAncestor(fs, target) then Throw("ENOTDIR: not a directory, mkdir")
      else if target in fs && fs[target].Directory? then Throw("EISDIR: illegal operation on a directory, open")
      else Next(Some(shadow), fs[target := File(c)])
  }

  /** A file where the target's directory should be stops the write:
      `outputFileSync` cannot create a directory over it. */
  lemma EmitUnderFileFails(fs: FileSystem, dir: string, name: string, shadow: string, c: string)
    requires |dir| > 0 && dir in fs && fs[dir].File?
    ensures Emit(fs, dir + "/" + name, shadow, Ok(c)).Throw?
  {
    var t := dir + "/" + name;
    assert t[..|dir|] == dir && t[|dir|] == '/';
  }

  /** What a handler does once it is chosen. */
  function Serve(k: Kind, staticPath: string, compile: string -> Result<string, string>,
                 fs: FileSystem, u: string): (o: Outcome)
    ensures var local := NodePath.JoinPaths(staticPath, LocalPathOf(k, u));
      && (o.Respond? <==> local !in fs)
      && (o.Respond? ==> o.status == 404 && o.body == "\"" + u + "\" does not exist")
      && (o.Next? ==>
            var shadow := ShadowPath(TempPathOf(k, u));
            && local in fs && fs[local].File?
            && var content := ContentOf(k, compile, fs[local].content, u);
               && content.Ok?
               && o == Next(Some(shadow), fs[NodePath.JoinPaths(staticPath, shadow) := File(content.value)]))
    ensures var local := NodePath.JoinPaths(staticPath, LocalPathOf(k, u));
      var target := NodePath.JoinPaths(staticPath, ShadowPath(TempPathOf(k, u)));
      o.Next? <==> local in fs && fs[local].File? && ContentOf(k, compile, fs[local].content, u).Ok?
                   && !(target in fs && fs[target].Directory?) && !FileAncestor(fs, target)
  {
    var local := NodePath.JoinPaths(staticPath, LocalPathOf(k, u));
    if local !in fs then Respond(404, "\"" + u + "\" does not exist")
    else match fs[local]
      case Directory => Throw("EISDIR: illegal operation on a directory, read")
      case File(text) =>
        var shadow := ShadowPath(TempPathOf(k, u));
        Emit(fs, NodePath.JoinPaths(staticPath, shadow), shadow, ContentOf(k, compile, text, u))
  }

  /** The middleware's handling of one request: the query is cut off, the
      extension run picks the handler, and without one the request passes
      through untouched. */
  function Handle(f: Flavour, staticPath: string, compile: string -> Result<string, string>,
                  fs: FileSystem, originalUrl: string): (o: Outcome)
    ensures var u := Patterns.StripQuery(originalUrl);
      var k := HandlerFor(f, Patterns.ExtRun(u));
      && (k.None? ==> o == Next(None, fs))
      && (k.Some? ==> o == Serve(k.value, staticPath, compile, fs, u) && o != Next(None, fs))
  {
    var u := Patterns.StripQuery(originalUrl);
    match HandlerFor(f, Patterns.ExtRun(u))
    case None => Next(None, fs)
    case Some(k) => Serve(k, staticPath, compile, fs, u)
  }

  /** Requests outside the handler table pass through untouched. */
  lemma PassThrough(f: Flavour, staticPath: string, compile: string -> Result<string, string>,
                    fs: FileSystem, originalUrl: string)
    requires Patterns.ExtRun(Patterns.StripQuery(originalUrl)) !in {Some(".xtpl.js"), Some(".js"), Some(".mod.js")}
    ensures Handle(f, staticPath, compile, fs, originalUrl) == Next(None, fs)
  {
  }

  /** A served template request writes a module that reads back as the
      template's id and the text of its source file. */
  lemma ServedTemplateReadsBack(f: Flavour, staticPath: string, compile: string -> Result<string, string>,
                                fs: FileSystem, originalUrl: string)
    requires var u := Patterns.StripQuery(originalUrl); Patterns.ExtRun(u) == Some(".xtpl.js")
    requires Handle(f, staticPath, compile, fs, originalUrl).Next?
    ensures var u := Patterns.StripQuery(originalUrl);
      var o := Handle(f, staticPath, compile, fs, originalUrl);
      var local := NodePath.JoinPaths(staticPath, TemplateSource(u));
      && o.rewrittenUrl == Some(ShadowPath(u))
      && NodePath.JoinPaths(staticPath, ShadowPath(u)) in o.fs
      && local in fs && fs[local].File?
      && ReadTemplateModule(o.fs[NodePath.JoinPaths(staticPath, ShadowPath(u))].content)
           == Some((ModuleId(u), fs[local].content))
  {
    var u := Patterns.StripQuery(originalUrl);
    var local := NodePath.JoinPaths(staticPath, TemplateSource(u));
    ReadTemplateModuleRoundTrip(ModuleId(u), fs[local].content);
  }
}

=== FILE: nodepath.dfy ===
/** The part of Node's posix `path` module the system calls: `isAbsolute`,
    `normalize`, `join`, `dirname`, `basename`, `extname`, `resolve` and
    `relative`. The working directory `resolve` falls back on is a parameter
    and is taken to be an absolute path, as `process.cwd()` always is. */
module NodePath {
  import opened Wrappers
  import opened Strings

  predicate IsAbsolute(p: string) {
    |p| > 0 && p[0] == '/'
  }

  /** A segment that normalisation keeps as it is. */
  predicate Regular(seg: string) {
    seg != "" && seg != "." && seg != ".." && '/' !in seg
  }

  predicate AllRegular(segs: seq<string>) {
    forall i :: 0 <= i < |segs| ==> Regular(segs[i])
  }

  /** One segment of normalisation: empty and `.` segments vanish, `..`
      removes the segment before it unless that is itself `..`, and a `..`
      with nothing to remove is kept only for relative paths. */
  function Step(stack: seq<string>, seg: string, allowAboveRoot: bool): seq<string> {
    if seg == "" || seg == "." then stack
    else if seg == ".." then
      if |stack| > 0 && stack[|stack| - 1] != ".." then stack[..|stack| - 1]
      else if allowAboveRoot then stack + [".."]
      else stack
    else stack + [seg]
  }

  function Fold(stack: seq<string>, segs: seq<string>, allowAboveRoot: bool): seq<string>
    decreases |segs|
  {
    if |segs| == 0 then stack else Fold(Step(stack, segs[0], allowAboveRoot), segs[1..], allowAboveRoot)
  }

  function NormalSegments(p: string, allowAboveRoot: bool): seq<string> {
    Fold([], Split(p, '/'), allowAboveRoot)
  }

  /** `path.normalize(p)`. */
  function Normalize(p: string): (r: string)
    ensures IsAbsolute(p) ==> IsAbsolute(r)
  {
    if |p| == 0 then "."
    else
      var abs := p[0] == '/';
      var trailing := p[|p| - 1] == '/';
      var segs := NormalSegments(p, !abs);
      var body := Join(segs, "/");
      if |body| == 0 then (if abs then "/" else if trailing then "./" else ".")
      else (if abs then "/" else "") + body + (if trailing then "/" else "")
  }

  /** An absolute path normalises to one that starts with exactly one slash,
      so it never reads as a protocol-relative URL. */
  lemma NormalizeSingleLeadingSlash(p: string)
    requires IsAbsolute(p)
    ensures !StartsWith(Normalize(p), "//")
  {
    var segs := NormalSegments(p, false);
    FoldAbsoluteRegular([], Split(p, '/'));
    var body := Join(segs, "/");
    if |body| > 0 {
      JoinHead(segs, "/");
      var tail := if p[|p| - 1] == '/' then "/" else "";
      assert Normalize(p) == "/" + body + tail;
      assert Normalize(p)[1] == body[0];
    }
  }

  /** `path.join(a, b)`: the non-empty arguments joined by `/`, normalised. */
  function JoinPaths(a: string, b: string): (r: string)
    ensures IsAbsolute(a) ==> IsAbsolute(r)
  {
    var joined := if |a| == 0 then b else if |b| == 0 then a else a + "/" + b;
    if |joined| == 0 then "." else Normalize(joined)
  }

  function StripTrailingSlashes(p: string): (r: string)
    ensures |r| <= |p| && r == p[..|r|]
    ensures |r| == 0 || r[|r| - 1] != '/'
  {
    if |p| > 0 && p[|p| - 1] == '/' then StripTrailingSlashes(p[..|p| - 1]) else p
  }

  /** `path.basename(p)`: the last segment, trailing slashes ignored. */
  function Basename(p: string): (r: string)
    ensures '/' !in r
  {
    var parts := Split(StripTrailingSlashes(p), '/');
    parts[|parts| - 1]
  }

  function LastIndexOf(s: string, c: char): (r: Option<nat>)
    ensures r.Some? ==> r.value < |s| && s[r.value] == c && c !in s[r.value + 1..]
    ensures r.None? ==> c !in s
  {
    if |s| == 0 then None
    else if s[|s| - 1] == c then Some(|s| - 1)
    else
      var r := LastIndexOf(s[..|s| - 1], c);
      assert r.Some? ==> s[r.value + 1..] == s[..|s| - 1][r.value + 1..] + [s[|s| - 1]];
      assert r.None? ==> s == s[..|s| - 1] + [s[|s| - 1]];
      r
  }

  /** `path.extname(p)`: from the last `.` of the base name, except that a base
      name whose only dot is its first character, and the name `..`, have none. */
  function Extname(p: string): (r: string)
    ensures r == "" || (r[0] == '.' && EndsWith(Basename(p), r) && '.' !in r[1..])
  {
    var base := Basename(p);
    match LastIndexOf(base, '.')
    case None => ""
    case Some(k) => if k == 0 || base == ".." then "" else base[k..]
  }

  /** The index that ends the directory part, scanning `p[1..i]` from the end. */
  function DirEnd(p: string, i: int, matchedSlash: bool): (r: int)
    requires 0 <= i < |p|
    ensures -1 <= r <= i && (r != -1 ==> r >= 1 && p[r] == '/')
    decreases i
  {
    if i < 1 then -1
    else if p[i] == '/' then (if !matchedSlash then i else DirEnd(p, i - 1, matchedSlash))
    else DirEnd(p, i - 1, false)
  }

  /** `path.dirname(p)`. */
  function Dirname(p: string): string {
    if |p| == 0 then "."
    else
      var end := DirEnd(p, |p| - 1, true);
      if end == -1 then (if p[0] == '/' then "/" else ".")
      else if p[0] == '/' && end == 1 then "//"
      else p[..end]
  }

  /** The segments of `path.resolve(p)`, which is always absolute. */
  function ResolveSegments(cwd: string, p: string): seq<string> {
    NormalSegments(if IsAbsolute(p) then p else cwd + "/" + p, false)
  }

  /** `path.resolve(a, b)`. */
  function Resolve2(cwd: string, a: string, b: string): (r: string)
    ensures IsAbsolute(r)
  {
    var combined := if IsAbsolute(b) then b else if IsAbsolute(a) then a + "/" + b else cwd + "/" + a + "/" + b;
    "/" + Join(NormalSegments(combined, false), "/")
  }

  function CommonPrefixLength(a: seq<string>, b: seq<string>): (k: nat)
    ensures k <= |a| && k <= |b| && a[..k] == b[..k]
    ensures k < |a| && k < |b| ==> a[k] != b[k]
  {
    if |a| == 0 || |b| == 0 || a[0] != b[0] then 0
    else
      var k := CommonPrefixLength(a[1..], b[1..]);
      assert a[..k + 1] == [a[0]] + a[1..][..k];
      assert b[..k + 1] == [b[0]] + b[1..][..k];
      k + 1
  }

  /** `path.relative(from, to)`: one `..` per segment of `from` beyond the
      common prefix, then the rest of `to`. */
  function Relative(cwd: string, from: string, to: string): string {
    var f := ResolveSegments(cwd, from);
    var t := ResolveSegments(cwd, to);
    var k := CommonPrefixLength(f, t);
    Join(seq(|f| - k, _ => "..") + t[k..], "/")
  }

  // ---------------------------------------------------------------------
  // Facts about normalisation

  /** The segments of a relative path that survive normalisation when it has no `..`. */
  function Kept(segs: seq<string>): (r: seq<string>)
    ensures |r| <= |segs|
  {
    if |segs| == 0 then []
    else (if segs[0] == "" || segs[0] == "." then [] else [segs[0]]) + Kept(segs[1..])
  }

  lemma {:induction false} FoldConcat(stack: seq<string>, a: seq<string>, b: seq<string>, allow: bool)
    ensures Fold(stack, a + b, allow) == Fold(Fold(stack, a, allow), b, allow)
    decreases |a|
  {
    if |a| > 0 {
      assert (a + b)[0] == a[0];
      assert (a + b)[1..] == a[1..] + b;
      FoldConcat(Step(stack, a[0], allow), a[1..], b, allow);
      assert Fold(stack, a + b, allow) == Fold(Step(stack, a[0], allow), a[1..] + b, allow);
      assert Fold(stack, a, allow) == Fold(Step(stack, a[0], allow), a[1..], allow);
    } else {
      assert a + b == b;
    }
  }

  /** Without `..`, normalisation only drops empty and `.` segments. */
  lemma {:induction false} FoldWithoutParent(stack: seq<string>, segs: seq<string>, allow: bool)
    requires ".." !in segs
    ensures Fold(stack, segs, allow) == stack + Kept(segs)
    decreases |segs|
  {
    if |segs| > 0 {
      assert ".." !in segs[1..] by {
        forall i | 0 <= i < |segs[1..]| ensures segs[1..][i] != ".." { assert segs[1..][i] == segs[i + 1]; }
      }
      assert segs[0] in segs;
      var s' := Step(stack, segs[0], allow);
      FoldWithoutParent(s', segs[1..], allow);
      if segs[0] == "" || segs[0] == "." {
        assert Kept(segs) == Kept(segs[1..]);
      } else {
        assert s' == stack + [segs[0]];
        assert Kept(segs) == [segs[0]] + Kept(segs[1..]);
        assert stack + [segs[0]] + Kept(segs[1..]) == stack + ([segs[0]] + Kept(segs[1..]));
      }
    }
  }

  lemma {:induction false} KeptMembers(segs: seq<string>)
    ensures forall x :: x in Kept(segs) ==> x in segs
  {
    if |segs| > 0 {
      KeptMembers(segs[1..]);
      assert forall x :: x in segs[1..] ==> x in segs;
    }
  }

  lemma {:induction false} KeptRegular(segs: seq<string>)
    requires ".." !in segs
    requires forall i :: 0 <= i < |segs| ==> '/' !in segs[i]
    ensures AllRegular(Kept(segs))
    decreases |segs|
  {
    if |segs| > 0 {
      assert segs[0] != "..";
      assert ".." !in segs[1..] by {
        forall i | 0 <= i < |segs[1..]| ensures segs[1..][i] != ".." { assert segs[1..][i] == segs[i + 1]; }
      }
      assert forall i :: 0 <= i < |segs[1..]| ==> segs[1..][i] == segs[i + 1];
      KeptRegular(segs[1..]);
    }
  }

  /** Normalising an absolute path keeps only regular segments. */
  lemma {:induction false} FoldAbsoluteRegular(stack: seq<string>, segs: seq<string>)
    requires AllRegular(stack)
    requires forall i :: 0 <= i < |segs| ==> '/' !in segs[i]
    ensures AllRegular(Fold(stack, segs, false))
    decreases |segs|
  {
    if |segs| > 0 {
      var s' := Step(stack, segs[0], false);
      assert AllRegular(s');
      assert forall i :: 0 <= i < |segs[1..]| ==> segs[1..][i] == segs[i + 1];
      FoldAbsoluteRegular(s', segs[1..]);
    }
  }

  /** Regular segments pass through normalisation unchanged. */
  lemma {:induction false} FoldRegularIdentity(stack: seq<string>, segs: seq<string>)
    requires AllRegular(segs)
    ensures Fold(stack, segs, false) == stack + segs
    decreases |segs|
  {
    if |segs| > 0 {
      assert forall i :: 0 <= i < |segs[1..]| ==> segs[1..][i] == segs[i + 1];
      FoldRegularIdentity(stack + [segs[0]], segs[1..]);
      assert stack + [segs[0]] + segs[1..] == stack + segs;
    }
  }

  lemma SplitSlashConcat(a: string, b: string)
    ensures Split(a + "/" + b, '/') == Split(a, '/') + Split(b, '/')
  {
    var pa := Split(a, '/');
    var pb := Split(b, '/');
    JoinSplit(a, '/');
    JoinSplit(b, '/');
    var parts := pa + pb;
    JoinAppend(pa, pb, "/");
    assert forall i :: 0 <= i < |parts| ==> '/' !in parts[i] by {
      forall i | 0 <= i < |parts| ensures '/' !in parts[i] {
        if i < |pa| { assert parts[i] == pa[i]; } else { assert parts[i] == pb[i - |pa|]; }
      }
    }
    SplitJoin(parts, '/');
  }

  lemma {:induction false} JoinAppend(a: seq<string>, b: seq<string>, sep: string)
    requires |a| > 0 && |b| > 0
    ensures Join(a + b, sep) == Join(a, sep) + sep + Join(b, sep)
    decreases |a|
  {
    if |a| == 1 {
      JoinCons(a[0], b, sep);
      assert [a[0]] + b == a + b;
    } else {
      JoinAppend(a[1..], b, sep);
      assert (a + b)[1..] == a[1..] + b;
    }
  }

  /** A join of regular segments starts with the first segment's first character. */
  lemma JoinHead(segs: seq<string>, sep: string)
    requires AllRegular(segs) && |Join(segs, sep)| > 0
    ensures |segs| > 0 && Join(segs, sep)[0] == segs[0][0] && segs[0][0] != '/'
  {
    if |segs| > 1 {
      assert Join(segs, sep) == segs[0] + (sep + Join(segs[1..], sep));
    }
    assert Regular(segs[0]) && segs[0][0] in segs[0];
  }

  lemma JoinStartsWithFirst(segs: seq<string>, sep: string)
    requires |segs| > 0
    ensures |Join(segs, sep)| >= |segs[0]|
  {
  }

  lemma SplitLeadingSlash(t: string)
    ensures Split("/" + t, '/') == [""] + Split(t, '/')
  {
    assert ("/" + t)[1..] == t;
  }

  lemma FoldSkipsEmpty(stack: seq<string>, segs: seq<string>, allow: bool)
    ensures Fold(stack, [""] + segs, allow) == Fold(stack, segs, allow)
  {
    assert ([""] + segs)[1..] == segs;
  }

  /** The segments of a string spelled by joining regular segments. */
  lemma JoinedRegularSegments(segs: seq<string>)
    requires AllRegular(segs)
    ensures Fold([], Split(Join(segs, "/"), '/'), false) == segs
  {
    if |segs| == 0 {
      assert Split("", '/') == [""];
      FoldSkipsEmpty([], [], false);
    } else {
      SplitJoin(segs, '/');
      FoldRegularIdentity([], segs);
    }
  }

  /** The segments of the absolute path spelled by regular segments. */
  lemma AbsoluteSegments(segs: seq<string>, trailing: bool)
    requires AllRegular(segs)
    ensures NormalSegments("/" + Join(segs, "/") + (if trailing then "/" else ""), false) == segs
  {
    var body := Join(segs, "/");
    var tail := body + (if trailing then "/" else "");
    assert "/" + body + (if trailing then "/" else "") == "/" + tail;
    SplitLeadingSlash(tail);
    FoldSkipsEmpty([], Split(tail, '/'), false);
    JoinedRegularSegments(segs);
    if trailing {
      assert tail == body + "/" + "";
      SplitSlashConcat(body, "");
      assert Split("", '/') == [""];
      FoldConcat([], Split(body, '/'), [""], false);
      assert Fold(segs, [""], false) == segs;
    } else {
      assert tail == body;
    }
  }

  /** The string `path.join` normalises, before normalisation. */
  function Joined(root: string, x: string): string {
    if |x| == 0 then root else root + "/" + x
  }

  /** The segments of a root joined with a relative path without `..`. */
  lemma JoinedNormalSegments(root: string, x: string)
    requires IsAbsolute(root)
    requires ".." !in Split(x, '/')
    ensures NormalSegments(Joined(root, x), false) == NormalSegments(root, false) + Kept(Split(x, '/'))
  {
    if |x| == 0 {
      assert Split(x, '/') == [""];
      assert Kept(Split(x, '/')) == [];
    } else {
      SplitSlashConcat(root, x);
      FoldConcat([], Split(root, '/'), Split(x, '/'), false);
      FoldWithoutParent(NormalSegments(root, false), Split(x, '/'), false);
    }
  }

  /** Normalising an absolute path spells its segments after one slash. */
  lemma NormalizeAbsolute(p: string)
    requires IsAbsolute(p)
    ensures NormalSegments(Normalize(p), false) == NormalSegments(p, false)
  {
    var segs := NormalSegments(p, false);
    FoldAbsoluteRegular([], Split(p, '/'));
    var trailing := p[|p| - 1] == '/';
    if |segs| == 0 {
      AbsoluteSegments(segs, false);
      assert Normalize(p) == "/" + Join(segs, "/") + "";
    } else {
      JoinStartsWithFirst(segs, "/");
      assert Normalize(p) == "/" + Join(segs, "/") + (if trailing then "/" else "");
      AbsoluteSegments(segs, trailing);
    }
  }

  /** Joining a relative path without `..` onto a root appends its kept
      segments to the root's. */
  lemma JoinedSegments(root: string, x: string)
    requires IsAbsolute(root)
    requires ".." !in Split(x, '/')
    ensures var j := JoinPaths(root, x);
      IsAbsolute(j) && ResolveSegments("/", j) == NormalSegments(root, false) + Kept(Split(x, '/'))
  {
    JoinedNormalSegments(root, x);
    assert JoinPaths(root, x) == Normalize(Joined(root, x));
    NormalizeAbsolute(Joined(root, x));
  }

  lemma CommonPrefixOfExtension(a: seq<string>, b: seq<string>)
    ensures CommonPrefixLength(a, a + b) == |a|
  {
    if |a| > 0 {
      assert (a + b)[1..] == a[1..] + b;
      CommonPrefixOfExtension(a[1..], b);
    }
  }

  /** Taking a joined path relative to its root gives back the relative path,
      normalised, whenever that path does not climb with `..`. */
  lemma RelativeOfJoin(cwd: string, root: string, x: string)
    requires IsAbsolute(root)
    requires ".." !in Split(x, '/')
    ensures Relative(cwd, root, JoinPaths(root, x)) == Join(Kept(Split(x, '/')), "/")
  {
    JoinedSegments(root, x);
    var r := NormalSegments(root, false);
    var kx := Kept(Split(x, '/'));
    var j := JoinPaths(root, x);
    assert ResolveSegments(cwd, j) == ResolveSegments("/", j);
    assert ResolveSegments(cwd, root) == r;
    CommonPrefixOfExtension(r, kx);
    assert (r + kx)[|r|..] == kx;
    assert seq(|r| - |r|, _ => "..") == [];
    assert [] + kx == kx;
  }
  /** Normalising an absolute path only drops segments: every segment left
      is on the stack or among the input segments. */
  lemma {:induction false} FoldMembers(stack: seq<string>, segs: seq<string>)
    ensures forall x :: x in Fold(stack, segs, false) ==> x in stack || x in segs
    decreases |segs|
  {
    if |segs| > 0 {
      var s' := Step(stack, segs[0], false);
      assert forall x :: x in s' ==> x in stack || x == segs[0];
      FoldMembers(s', segs[1..]);
      assert forall x :: x in segs[1..] ==> x in segs;
    }
  }

  /** A path whose segments are all regular does not start with `/`. */
  lemma RegularNotAbsolute(name: string)
    requires AllRegular(Split(name, '/'))
    ensures !IsAbsolute(name)
  {
    if IsAbsolute(name) {
      SplitOfAbsolute(name);
    }
  }

  /** An absolute path splits into an empty first segment and the rest. */
  lemma SplitOfAbsolute(name: string)
    requires IsAbsolute(name)
    ensures Split(name, '/')[0] == ""
  {
    assert name == "/" + name[1..];
    SplitLeadingSlash(name[1..]);
  }

  /** Resolving a path of regular segments against an absolute root spells
      the root's segments followed by the path's. */
  lemma ResolveRegular(cwd: string, root: string, name: string)
    requires IsAbsolute(root) && AllRegular(Split(name, '/'))
    ensures Resolve2(cwd, root, name) == "/" + Join(NormalSegments(root, false) + Split(name, '/'), "/")
  {
    RegularNotAbsolute(name);
    SplitSlashConcat(root, name);
    FoldConcat([], Split(root, '/'), Split(name, '/'), false);
    FoldRegularIdentity(NormalSegments(root, false), Split(name, '/'));
  }

  /** An absolute path spelled by the root's segments and then regular
      segments `xs` is `xs` relative to the root. */
  lemma RelativeOfRegular(cwd: string, root: string, xs: seq<string>)
    requires IsAbsolute(root) && AllRegular(xs)
    ensures Relative(cwd, root, "/" + Join(NormalSegments(root, false) + xs, "/")) == Join(xs, "/")
  {
    var r := NormalSegments(root, false);
    var q := "/" + Join(r + xs, "/");
    FoldAbsoluteRegular([], Split(root, '/'));
    assert AllRegular(r + xs);
    AbsoluteSegments(r + xs, false);
    assert q == "/" + Join(r + xs, "/") + "";
    assert ResolveSegments(cwd, q) == r + xs;
    assert ResolveSegments(cwd, root) == r;
    CommonPrefixOfExtension(r, xs);
    assert (r + xs)[|r|..] == xs;
    assert seq(|r| - |r|, _ => "..") + xs == xs;
  }

  /** The last segment of a join of regular segments is its base name, with
      or without a leading `/`. */
  lemma BasenameOfRegularJoin(xs: seq<string>)
    requires AllRegular(xs) && |xs| > 0
    ensures Basename(Join(xs, "/")) == xs[|xs| - 1]
    ensures Basename("/" + Join(xs, "/")) == xs[|xs| - 1]
  {
    var last := xs[|xs| - 1];
    assert Regular(last);
    if |xs| == 1 {
      BasenameWithoutSlash(last);
      assert "/" + last == "" + "/" + last;
      BasenameAfterSlash("", last);
    } else {
      var init := xs[..|xs| - 1];
      JoinLast(xs);
      BasenameAfterSlash(Join(init, "/"), last);
      ConcatAssoc("/", Join(init, "/") + "/", last);
      ConcatAssoc("/", Join(init, "/"), "/");
      BasenameAfterSlash("/" + Join(init, "/"), last);
    }
  }

  /** A join of two or more parts ends with the separator and the last part. */
  lemma JoinLast(xs: seq<string>)
    requires |xs| > 1
    ensures Join(xs, "/") == Join(xs[..|xs| - 1], "/") + "/" + xs[|xs| - 1]
  {
    JoinAppend(xs[..|xs| - 1], [xs[|xs| - 1]], "/");
    assert xs[..|xs| - 1] + [xs[|xs| - 1]] == xs;
  }

  /** A non-empty name without `/` is its own base name. */
  lemma BasenameWithoutSlash(b: string)
    requires |b| > 0 && '/' !in b
    ensures Basename(b) == b
  {
    assert b[|b| - 1] in b;
    assert StripTrailingSlashes(b) == b;
    SplitNoSeparator(b, '/');
  }

  /** Extending the last part extends the join. */
  lemma {:induction false} JoinExtendLast(xs: seq<string>, e: string, sep: string)
    requires |xs| > 0
    ensures Join(xs[..|xs| - 1] + [xs[|xs| - 1] + e], sep) == Join(xs, sep) + e
    decreases |xs|
  {
    var ys := xs[..|xs| - 1] + [xs[|xs| - 1] + e];
    if |xs| > 1 {
      JoinExtendLast(xs[1..], e, sep);
      assert ys[1..] == xs[1..][..|xs| - 2] + [xs[1..][|xs| - 2] + e];
      ConcatAssoc(xs[0] + sep, Join(xs[1..], sep), e);
    }
  }

  // ---------------------------------------------------------------------
  // Facts about extensions

  /** The text after the last `/`, trailing slashes included. */
  function LastSegment(p: string): string {
    var parts := Split(p, '/');
    parts[|parts| - 1]
  }

  lemma {:induction false} LastIndexOfAppend(a: string, b: string, c: char)
    requires c in b
    ensures LastIndexOf(a + b, c) == Some(|a| + LastIndexOf(b, c).value)
    decreases |b|
  {
    var s := a + b;
    assert s[|s| - 1] == b[|b| - 1];
    if b[|b| - 1] == c {
      assert LastIndexOf(s, c) == Some(|s| - 1);
    } else {
      var b' := b[..|b| - 1];
      assert c in b' by {
        InInit(b, c);
      }
      assert LastIndexOf(b, c) == LastIndexOf(b', c) by {
        LastIndexOfInit(b, c);
      }
      assert LastIndexOf(s, c) == LastIndexOf(a + b', c) by {
        LastIndexOfInit(s, c);
        assert s[..|s| - 1] == a + b';
      }
      assert LastIndexOf(a + b', c) == Some(|a| + LastIndexOf(b', c).value) by {
        LastIndexOfAppend(a, b', c);
      }
    }
  }

  /** Without `c` at its end, `s` has `c` last where its initial part does. */
  lemma LastIndexOfInit(s: string, c: char)
    requires |s| > 0 && s[|s| - 1] != c
    ensures LastIndexOf(s, c) == LastIndexOf(s[..|s| - 1], c)
  {
  }

  /** A character of `b` other than its last is in all but the last of `b`. */
  lemma InInit(b: string, c: char)
    requires c in b && b[|b| - 1] != c
    ensures c in b[..|b| - 1]
  {
    var i :| 0 <= i < |b| && b[i] == c;
    assert b[..|b| - 1][i] == c;
  }

  lemma {:induction false} LastIndexOfAbsent(a: string, b: string, c: char)
    requires c !in b
    ensures LastIndexOf(a + b, c) == LastIndexOf(a, c)
    decreases |b|
  {
    if |b| == 0 {
      assert a + b == a;
    } else {
      var s := a + b;
      var b' := b[..|b| - 1];
      assert b == b' + [b[|b| - 1]];
      assert s[|s| - 1] == b[|b| - 1] != c;
      assert s[..|s| - 1] == a + b';
      LastIndexOfAbsent(a, b', c);
    }
  }

  /** Text without `/` and not ending in `/` extends the last segment. */
  lemma BasenameOfAppended(p: string, x: string)
    requires LastSegment(p) != ""
    requires |x| > 0 && '/' !in x && x[|x| - 1] != '/'
    ensures Basename(p + x) == LastSegment(p) + x
  {
    var q := p + x;
    SplitAppend(p, x, '/');
    assert q[|q| - 1] == x[|x| - 1];
    assert StripTrailingSlashes(q) == q;
  }

  /** The base name of a path that ends in `/b`, where `b` is a non-empty
      name without `/`, is `b`. */
  lemma BasenameAfterSlash(a: string, b: string)
    requires |b| > 0 && '/' !in b
    ensures Basename(a + "/" + b) == b
  {
    var q := a + "/" + b;
    assert q[|q| - 1] == b[|b| - 1] && b[|b| - 1] in b;
    assert StripTrailingSlashes(q) == q;
    SplitSlashConcat(a, b);
    SplitNoSeparator(b, '/');
  }

  /** The extension of a path whose basename is `l + x`, with the last dot at
      `j` in `x`, is `x[j..]`. */
  lemma ExtnameAfter(q: string, l: string, x: string, j: nat)
    requires |l| > 0 && j < |x| && x[|x| - 1] != '.'
    requires Basename(q) == l + x && LastIndexOf(l + x, '.') == Some(|l| + j)
    ensures Extname(q) == x[j..]
  {
    var base := l + x;
    assert base[|base| - 1] == x[|x| - 1];
    assert base != "..";
    assert base[|l| + j..] == x[j..];
  }

  /** Appending `.e` to a path whose last segment is not empty gives it an
      extension, which ends `.e`; it is exactly `.e` when `e` has no dot. */
  lemma ExtnameOfAppended(p: string, e: string)
    requires LastSegment(p) != ""
    requires |e| > 0 && '/' !in e && e[|e| - 1] != '.'
    ensures var x := Extname(p + "." + e); x != "" && EndsWith("." + e, x)
    ensures '.' !in e ==> Extname(p + "." + e) == "." + e
  {
    var x := "." + e;
    assert p + "." + e == p + x by {
      ConcatAssoc(p, ".", e);
    }
    var j := ExtnameOfSuffix(p, x);
    assert EndsWith(x, x[j..]);
    if '.' !in e {
      assert j == 0 by {
        LastIndexOfAbsent(".", e, '.');
      }
    }
  }

  /** A suffix that starts with a dot and holds no `/` gives the path the
      extension that starts at the suffix's last dot. */
  lemma ExtnameOfSuffix(p: string, x: string) returns (j: nat)
    requires LastSegment(p) != ""
    requires |x| > 1 && x[0] == '.' && '/' !in x && x[|x| - 1] != '.'
    ensures LastIndexOf(x, '.') == Some(j) && Extname(p + x) == x[j..]
  {
    var q := p + x;
    var l := LastSegment(p);
    assert Basename(q) == l + x by {
      BasenameOfAppended(p, x);
    }
    j := LastIndexOf(x, '.').value;
    assert Extname(q) == x[j..] by {
      LastIndexOfAppend(l, x, '.');
      ExtnameAfter(q, l, x, j);
    }
  }
}

=== FILE: pagetype.dfy ===
/** The page types of `routes/page-type.js`: `prependTo` puts a callback in
    front of a route's callbacks, and the `basic` page type prepends the
    callback that sets the page title. */
module PageType {
  import opened Wrappers
  import opened JsValue
  import RouteHelpers

  /** What `prependTo` receives as its target: an array, a single truthy
      value, or a falsy value. */
  datatype Target<T> = Many(items: seq<T>) | One(item: T) | Falsy

  /** The target as an array: an array is copied, a single value is
      wrapped, a falsy value becomes empty. */
  function AsList<T>(target: Target<T>): (r: seq<T>)
    ensures target.Many? ==> r == target.items
    ensures target.One? ==> r == [target.item]
    ensures target.Falsy? ==> r == []
  {
    match target
    case Many(xs) => xs
    case One(x) => [x]
    case Falsy => []
  }

  /** `prependTo(elt, target)`: a truthy `elt` (here `Some`) goes in front. */
  function PrependTo<T>(elt: Option<T>, target: Target<T>): (r: seq<T>)
    ensures elt.Some? ==> |r| == |AsList(target)| + 1 && r[0] == elt.value && r[1..] == AsList(target)
    ensures elt.None? ==> r == AsList(target)
  {
    match elt
    case Some(x) => [x] + AsList(target)
    case None => AsList(target)
  }

  /** A callback of a page: the title setter of `basic`, or a callback of
      the route file. */
  datatype PageCallback = SetTitle | Given(name: string)

  const DefaultTitle := "Back2Front"

  /** `basic(callbacks)`. */
  function Basic(callbacks: Target<PageCallback>): (r: seq<PageCallback>)
    ensures |r| >= 1 && r[0] == SetTitle
    ensures r[1..] == AsList(callbacks)
  {
    PrependTo(Some(SetTitle), callbacks)
  }

  /** What the title setter does to the helper: `viewData('title', 'Back2Front')`. */
  function RunSetTitle(h: RouteHelpers.Helper): (r: Result<RouteHelpers.Helper, string>)
    ensures r.Err? <==> h.viewData.None?
    ensures r.Ok? ==> r.value.kind == h.kind && r.value.template == h.template && r.value.viewData.Some?
  {
    match RouteHelpers.ViewData(h.viewData, [Str("title"), Str(DefaultTitle)])
    case Err(e) => Err(e)
    case Ok(access) => Ok(h.(viewData := Some(access.viewData)))
  }

  /** After the title setter the title reads `Back2Front` and every other
      key reads as before. */
  lemma SetTitleGet(h: RouteHelpers.Helper, k: string)
    requires h.viewData.Some?
    ensures var r := RunSetTitle(h);
      r.Ok? && Get(r.value.viewData.value, k) == if k == "title" then Some(Str(DefaultTitle)) else Get(h.viewData.value, k)
  {
    PutGet(h.viewData.value, "title", Str(DefaultTitle), k);
  }

  /** Wrapping a list in `basic` twice puts two title setters in front. */
  lemma BasicTwice(callbacks: Target<PageCallback>)
    ensures Basic(Many(Basic(callbacks))) == [SetTitle, SetTitle] + AsList(callbacks)
  {
    var once := Basic(callbacks);
    assert once == [SetTitle] + AsList(callbacks);
  }
}

=== FILE: patterns.dfy ===
/** Regular expressions several source files share, each as a scanner with a
    contract that characterises the leftmost match the JavaScript engine finds:
      - `((?:\.\w+)+)$`  the trailing run of `.word` groups (a multi-part extension);
      - `\?.*$`          a query string (`.` stops at line terminators);
      - `\.\w+$`         the final `.word` extension. */
module Patterns {
  import opened Wrappers
  import opened Strings

  /** The number of word characters at the end of `s`. */
  function TrailingWordLength(s: string): (w: nat)
    ensures w <= |s|
    ensures forall i :: |s| - w <= i < |s| ==> IsWordChar(s[i])
    ensures w < |s| ==> !IsWordChar(s[|s| - w - 1])
  {
    if |s| > 0 && IsWordChar(s[|s| - 1]) then
      var w := TrailingWordLength(s[..|s| - 1]);
      assert forall i :: |s| - 1 - w <= i < |s| - 1 ==> s[i] == s[..|s| - 1][i];
      w + 1
    else 0
  }

  /** A string `(\.\w+)+` matches entirely: it starts with a dot, holds only
      dots and word characters, and every dot is followed by a word character. */
  predicate IsExtRun(t: string) {
    && |t| >= 2
    && t[0] == '.'
    && (forall i :: 0 <= i < |t| ==> t[i] == '.' || IsWordChar(t[i]))
    && (forall i :: 0 <= i < |t| && t[i] == '.' ==> i + 1 < |t| && IsWordChar(t[i + 1]))
  }

  /** The length of the trailing extension run, 0 when there is none. */
  function ExtRunLength(s: string): (n: nat)
    ensures n <= |s|
  {
    var w := TrailingWordLength(s);
    if 1 <= w < |s| && s[|s| - w - 1] == '.' then w + 1 + ExtRunLength(s[..|s| - w - 1]) else 0
  }

  /** The captured group of `/((?:\.\w+)+)$/`, or `None` when it does not match. */
  function ExtRun(s: string): (r: Option<string>)
    ensures r.Some? ==> EndsWith(s, r.value)
  {
    var n := ExtRunLength(s);
    if n == 0 then None else Some(s[|s| - n..])
  }

  /** The run the scanner finds is an extension run. */
  lemma {:induction false} ExtRunSound(s: string)
    requires ExtRunLength(s) > 0
    ensures IsExtRun(s[|s| - ExtRunLength(s)..])
  {
    var w := TrailingWordLength(s);
    assert 1 <= w < |s| && s[|s| - w - 1] == '.';
    ExtRunLengthStep(s, w);
    var s' := s[..|s| - w - 1];
    var n' := ExtRunLength(s');
    if n' > 0 {
      ExtRunSound(s');
    }
    ExtRunJoin(s, w, n');
  }

  /** A dot and the trailing word characters, after an extension run or
      after nothing, make an extension run. */
  lemma ExtRunJoin(s: string, w: nat, n': nat)
    requires 1 <= w < |s| && s[|s| - w - 1] == '.'
    requires forall i :: |s| - w <= i < |s| ==> IsWordChar(s[i])
    requires n' <= |s| - w - 1
    requires n' > 0 ==> IsExtRun(s[..|s| - w - 1][|s| - w - 1 - n'..])
    ensures IsExtRun(s[|s| - w - 1 - n'..])
  {
    var tail := s[|s| - w - 1..];
    assert IsExtRun(tail) by {
      LastExtIsRun(s, w);
    }
    if n' > 0 {
      var u := s[..|s| - w - 1][|s| - w - 1 - n'..];
      assert s[|s| - w - 1 - n'..] == u + tail by {
        SuffixSplit(s, |s| - w - 1 - n', |s| - w - 1);
      }
      ExtRunConcat(u, tail);
    }
  }

  /** A suffix is the part of it before `b` followed by the rest. */
  lemma SuffixSplit(s: string, a: nat, b: nat)
    requires a <= b <= |s|
    ensures s[a..] == s[..b][a..] + s[b..]
  {
  }

  /** A dot followed by the trailing word characters is an extension run. */
  lemma LastExtIsRun(s: string, w: nat)
    requires 1 <= w < |s| && s[|s| - w - 1] == '.'
    requires forall i :: |s| - w <= i < |s| ==> IsWordChar(s[i])
    ensures IsExtRun(s[|s| - w - 1..])
  {
    var tail := s[|s| - w - 1..];
    forall i | 1 <= i < |tail| ensures IsWordChar(tail[i]) { assert tail[i] == s[|s| - w - 1 + i]; }
  }

  /** Two extension runs in a row make one. */
  lemma ExtRunConcat(u: string, v: string)
    requires IsExtRun(u) && IsExtRun(v)
    ensures IsExtRun(u + v)
  {
    var t := u + v;
    forall i | 0 <= i < |t| ensures t[i] == '.' || IsWordChar(t[i]) {
      if i < |u| { assert t[i] == u[i]; } else { assert t[i] == v[i - |u|]; }
    }
    forall i | 0 <= i < |t| && t[i] == '.' ensures i + 1 < |t| && IsWordChar(t[i + 1]) {
      if i < |u| {
        assert t[i] == u[i];
        assert t[i + 1] == u[i + 1];
      } else {
        assert t[i] == v[i - |u|];
        assert t[i + 1] == v[i + 1 - |u|];
      }
    }
  }

  /** No longer suffix is an extension run: the scanner finds the longest one,
      which is the one the leftmost match of the regular expression captures. */
  lemma {:induction false} ExtRunMaximal(s: string, k: nat)
    requires 0 < k <= |s|
    requires IsExtRun(s[|s| - k..])
    ensures k <= ExtRunLength(s)
  {
    var w := TrailingWordLength(s);
    TrailingWordInRun(s, k, w);
    ExtRunLengthStep(s, w);
    if k > w + 1 {
      var s' := s[..|s| - w - 1];
      var k' := k - w - 1;
      ExtRunBeforeLast(s, k, w);
      ExtRunMaximal(s', k');
    }
  }

  /** The scanner peels one `.word` off the end. */
  lemma ExtRunLengthStep(s: string, w: nat)
    requires w == TrailingWordLength(s) && 1 <= w < |s| && s[|s| - w - 1] == '.'
    ensures ExtRunLength(s) == w + 1 + ExtRunLength(s[..|s| - w - 1])
  {
  }

  /** Without its last `.word`, a longer extension run is still one. */
  lemma ExtRunBeforeLast(s: string, k: nat, w: nat)
    requires 0 < k <= |s| && IsExtRun(s[|s| - k..])
    requires 1 <= w && w + 1 < k && s[|s| - w - 1] == '.'
    ensures var s' := s[..|s| - w - 1]; IsExtRun(s'[|s'| - (k - w - 1)..])
  {
    var t := s[|s| - k..];
    var s' := s[..|s| - w - 1];
    var k' := k - w - 1;
    assert s'[|s'| - k'..] == t[..k'];
    assert t[k'] == '.';
    ExtRunPrefix(t, k');
  }

  /** The trailing word characters of a string that ends in an extension
      run are not empty and stop at a dot inside the run. */
  lemma TrailingWordInRun(s: string, k: nat, w: nat)
    requires 0 < k <= |s| && IsExtRun(s[|s| - k..])
    requires w <= |s| && forall i :: |s| - w <= i < |s| ==> IsWordChar(s[i])
    requires w < |s| ==> !IsWordChar(s[|s| - w - 1])
    ensures 1 <= w < k && s[|s| - w - 1] == '.'
  {
    var t := s[|s| - k..];
    assert t[k - 1] == s[|s| - 1];
    assert s[|s| - k] == t[0] == '.';
    assert s[|s| - w - 1] == t[k - w - 1];
  }

  /** An extension run cut just before one of its dots is an extension run. */
  lemma ExtRunPrefix(t: string, k: nat)
    requires IsExtRun(t) && 0 < k < |t| && t[k] == '.'
    ensures IsExtRun(t[..k])
  {
    var t' := t[..k];
    forall i | 0 <= i < |t'| && t'[i] == '.' ensures i + 1 < |t'| && IsWordChar(t'[i + 1]) {
      assert t[i] == '.';
      assert IsWordChar(t[i + 1]);
      assert i + 1 != k;
    }
  }

  /** `s.replace(/\?.*$/, '')`: cut at the first `?` after which no line
      terminator follows. */
  function StripQuery(s: string): (r: string)
    ensures |r| <= |s| && r == s[..|r|]
    ensures |r| < |s| ==> s[|r|] == '?' && NoLineTerminator(s[|r| + 1..])
    ensures forall p :: 0 <= p < |r| && s[p] == '?' ==> !NoLineTerminator(s[p + 1..])
  {
    if |s| == 0 then ""
    else if s[0] == '?' && NoLineTerminator(s[1..]) then ""
    else
      var r := StripQuery(s[1..]);
      assert forall p :: 1 <= p < |s| ==> s[p + 1..] == s[1..][p..];
      [s[0]] + r
  }

  /** A string in which every `?` is followed by a line terminator has no query. */
  lemma StripQueryNoQuery(t: string)
    requires forall p :: 0 <= p < |t| && t[p] == '?' ==> !NoLineTerminator(t[p + 1..])
    ensures StripQuery(t) == t
  {
  }

  /** Cutting the query twice cuts nothing more. */
  lemma StripQueryIdempotent(s: string)
    ensures StripQuery(StripQuery(s)) == StripQuery(s)
  {
    var r := StripQuery(s);
    forall k | |r| < k < |s| ensures !IsLineTerminator(s[k]) {
      assert s[k] == s[|r| + 1..][k - |r| - 1];
    }
    forall p | 0 <= p < |r| && r[p] == '?' ensures !NoLineTerminator(r[p + 1..]) {
      assert s[p] == '?';
      var j :| 0 <= j < |s[p + 1..]| && IsLineTerminator(s[p + 1..][j]);
      assert IsLineTerminator(s[p + 1 + j]);
      assert p + 1 + j < |r|;
      assert r[p + 1..][j] == s[p + 1 + j];
    }
    StripQueryNoQuery(r);
  }

  lemma {:induction false} TrailingWordAtLeast(s: string, m: nat)
    requires m <= |s|
    requires forall i :: |s| - m <= i < |s| ==> IsWordChar(s[i])
    ensures TrailingWordLength(s) >= m
  {
    if m > 0 {
      var s' := s[..|s| - 1];
      assert forall i :: |s'| - (m - 1) <= i < |s'| ==> s'[i] == s[i];
      TrailingWordAtLeast(s', m - 1);
    }
  }

  /** A dot followed by word characters only, up to the end, sits right before
      the trailing word characters. */
  lemma FinalExtPosition(s: string, p: nat)
    requires p < |s| - 1 && s[p] == '.' && AllWordChars(s[p + 1..])
    ensures TrailingWordLength(s) == |s| - p - 1
  {
    forall i | |s| - (|s| - p - 1) <= i < |s| ensures IsWordChar(s[i]) {
      assert s[i] == s[p + 1..][i - p - 1];
    }
    TrailingWordAtLeast(s, |s| - p - 1);
    assert !IsWordChar(s[p]);
  }

  /** Where `/\.\w+$/` matches: the only dot followed by nothing but (at least
      one) word characters up to the end. */
  function FinalExtStart(s: string): (r: Option<nat>)
    ensures r.Some? ==> r.value < |s| - 1 && s[r.value] == '.' && AllWordChars(s[r.value + 1..])
  {
    var w := TrailingWordLength(s);
    if 1 <= w < |s| && s[|s| - w - 1] == '.' then
      Some(|s| - w - 1)
    else
      None
  }

  /** Every dot followed by nothing but (at least one) word characters is the
      one `FinalExtStart` finds. */
  lemma FinalExtStartUnique(s: string, p: nat)
    requires p < |s| - 1 && s[p] == '.' && AllWordChars(s[p + 1..])
    ensures FinalExtStart(s) == Some(p)
  {
    FinalExtPosition(s, p);
  }

  /** `s.replace(/\.\w+$/, m => '.' + hash + m)`: the fragment goes right
      before the final extension; without one, `s` is unchanged. */
  function InsertBeforeFinalExt(s: string, hash: string): (r: string)
    ensures FinalExtStart(s).None? ==> r == s
    ensures FinalExtStart(s).Some? ==>
      var k := FinalExtStart(s).value; r == s[..k] + "." + hash + s[k..]
  {
    match FinalExtStart(s)
    case None => s
    case Some(k) => s[..k] + "." + hash + s[k..]
  }

  /** The final extension is also the end of the trailing extension run. */
  lemma FinalExtInsideRun(s: string)
    requires FinalExtStart(s).Some?
    ensures ExtRunLength(s) >= |s| - FinalExtStart(s).value
  {
  }
}

=== FILE: routehelpers.dfy ===
/** The route helpers of `routes/route-helpers.js`: the object a route
    callback fills with view data and that renders the response, as an end
    of the response (basic), a rendered template (HTML) or a JSON envelope
    (JSON). */
module RouteHelpers {
  import opened Wrappers
  import opened JsValue

  /** The three helper classes. */
  datatype Kind = Basic | Html | Json

  /** `helper.type()`. */
  function TypeName(k: Kind): (r: string)
    ensures k == Basic <==> r == "basic"
    ensures k == Html <==> r == "html"
    ensures k == Json <==> r == "json"
  {
    match k
    case Basic => "basic"
    case Html => "html"
    case Json => "json"
  }

  /** A helper's state: its template (`undefined` allowed), its view data
      (`None` once a JSON helper has rendered info, which sets it to `null`),
      the JSON envelope and whether it has rendered. */
  datatype Helper = Helper(kind: Kind, template: Option<string>, viewData: Option<Dict>, wrap: Dict, rendered: bool)

  /** `{ status: 1 }`, the JSON envelope a JSON helper starts with. */
  const InitialWrap: Dict := [("status", Num(1))]

  /** The constructors. */
  function NewHelper(kind: Kind, template: Option<string>): (h: Helper)
    ensures !h.rendered && h.kind == kind && h.template == template
    ensures h.viewData == Some([])
    ensures kind == Json ==> Get(h.wrap, "status") == Some(Num(1))
  {
    Helper(kind, template, Some([]), if kind == Json then InitialWrap else [], false)
  }

  /** What `viewData(...)` did: read a value, or replaced the view data. */
  datatype Access = Read(value: Value) | Updated(viewData: Dict)

  /** The property name a non-string key is converted to. */
  function PropertyName(key: Value): string {
    if key.Str? then key.s else ToJsString(key)
  }

  /** Whether `typeof key === 'object'`: objects, arrays and `null`. */
  predicate IsObjectType(v: Value) {
    v.Obj? || v.Arr? || v.Null?
  }

  /** `viewData(key, value)` called with `args`. Every branch touches the
      view data, so a helper whose view data is `null` throws. */
  function ViewData(vd: Option<Dict>, args: seq<Value>): (r: Result<Access, string>)
    ensures r.Err? <==> vd.None?
    ensures r.Ok? && |args| == 1 && args[0].Str? ==> r.value == Read(Get(vd.value, args[0].s).GetOr(Undefined))
    ensures r.Ok? && |args| > 0 && args[0].Null? ==> r.value == Updated(vd.value)
    ensures r.Ok? ==> (r.value.Read? <==> |args| == 1 && args[0].Str?)
  {
    var key := if |args| > 0 then args[0] else Undefined;
    var value := if |args| > 1 then args[1] else Undefined;
    match vd
    case None => Err("TypeError: view data is null")
    case Some(d) =>
      if |args| == 1 && key.Str? then Ok(Read(Get(d, key.s).GetOr(Undefined)))
      else if IsObjectType(key) then Ok(Updated(Assign(d, OwnEntries(key))))
      else Ok(Updated(Put(d, PropertyName(key), value)))
  }

  /** A value set under a key reads back; other keys read as before. */
  lemma ViewDataSetGet(d: Dict, k: string, v: Value, k': string)
    ensures var w := ViewData(Some(d), [Str(k), v]);
      w.Ok? && w.value.Updated?
      && ViewData(Some(w.value.viewData), [Str(k')]) ==
         Ok(Read(if k' == k then v else Get(d, k').GetOr(Undefined)))
  {
    var d' := Put(d, k, v);
    assert ViewData(Some(d), [Str(k), v]) == Ok(Updated(d')) by {
      assert !IsObjectType(Str(k)) && PropertyName(Str(k)) == k;
    }
    assert ViewData(Some(d'), [Str(k')]) == Ok(Read(Get(d', k').GetOr(Undefined)));
    PutGet(d, k, v, k');
  }

  /** Setting from an object copies its properties over the view data. */
  lemma ViewDataMergeGet(d: Dict, o: Value, k: string)
    requires o.Obj? && WellFormed(o)
    ensures var w := ViewData(Some(d), [o]);
      w.Ok? && w.value.Updated?
      && ViewData(Some(w.value.viewData), [Str(k)]) ==
         Ok(Read(if HasKey(o.own, k) then Get(o.own, k).value else Get(d, k).GetOr(Undefined)))
  {
    var merged := Assign(d, OwnEntries(o));
    assert ViewData(Some(d), [o]) == Ok(Updated(merged));
    assert ViewData(Some(merged), [Str(k)]) == Ok(Read(Get(merged, k).GetOr(Undefined)));
    OwnEntriesDistinct(o);
    AssignGet(d, OwnEntries(o), k);
    EnumerateGet(o.own, k);
  }

  /** What the helper sends. */
  datatype Response = Ended | View(template: Option<string>, data: Dict) | JsonBody(body: Dict)

  /** The build's asset manifest: for a template, its asset lists by type
      (`css`, `js`, ...), in key order. `None` when there is no manifest. */
  type Manifest = Option<map<string, seq<(string, seq<string>)>>>

  /** The key `Object` property lookup uses for a template that may be
      `undefined`. */
  function TemplateKey(t: Option<string>): string {
    if t.Some? then t.value else "undefined"
  }

  /** `t.viewData(assetType + 'Files', list.slice())` for every list. */
  function PutAssetLists(d: Dict, lists: seq<(string, seq<string>)>): (r: Dict)
    decreases |lists|
  {
    if |lists| == 0 then d
    else PutAssetLists(Put(d, lists[0].0 + "Files", Arr(Strs(lists[0].1))), lists[1..])
  }

  /** The view data an HTML helper renders with. */
  function HtmlViewData(manifest: Manifest, template: Option<string>, d: Dict): Dict {
    match manifest
    case None => d
    case Some(m) =>
      var key := TemplateKey(template);
      if key in m then PutAssetLists(d, m[key]) else d
  }

  /** `render(res)`. */
  function Render(h: Helper, manifest: Manifest): (r: Result<(Helper, Response), string>)
    ensures r.Err? <==> h.kind == Html && h.viewData.None?
    ensures r.Ok? ==> r.value.0.rendered && r.value.0.kind == h.kind && r.value.0.template == h.template
    ensures r.Ok? && h.kind == Basic ==> r.value.1 == Ended
    ensures r.Ok? && h.kind == Html ==> r.value.1.View? && r.value.1.template == h.template
    ensures r.Ok? && h.kind == Json ==> r.value.1.JsonBody? && r.value.1.body == r.value.0.wrap
  {
    match h.kind
    case Basic => Ok((h.(rendered := true), Ended))
    case Html =>
      (match h.viewData
       case None => Err("TypeError: view data is null")
       case Some(d) =>
         var data := HtmlViewData(manifest, h.template, d);
         Ok((h.(viewData := Some(data), rendered := true), View(h.template, data))))
    case Json =>
      var data := if h.viewData.Some? then PlainObject(h.viewData.value) else Null;
      var wrap := Put(h.wrap, "data", data);
      Ok((h.(wrap := wrap, rendered := true), JsonBody(wrap)))
  }

  /** Whether a key names one of the lists. */
  predicate NamesList(lists: seq<(string, seq<string>)>, k: string) {
    exists i :: 0 <= i < |lists| && k == lists[i].0 + "Files"
  }

  /** Keys no list is named after keep their values. */
  lemma {:induction false} PutAssetListsKeeps(d: Dict, lists: seq<(string, seq<string>)>, k: string)
    requires !NamesList(lists, k)
    ensures Get(PutAssetLists(d, lists), k) == Get(d, k)
    decreases |lists|
  {
    if |lists| > 0 {
      assert !NamesList(lists[1..], k) by {
        forall i | 0 <= i < |lists[1..]| ensures k != lists[1..][i].0 + "Files" {
          assert lists[1..][i] == lists[i + 1];
        }
      }
      assert k != lists[0].0 + "Files";
      PutAssetListsKeeps(Put(d, lists[0].0 + "Files", Arr(Strs(lists[0].1))), lists[1..], k);
      PutGet(d, lists[0].0 + "Files", Arr(Strs(lists[0].1)), k);
    }
  }

  /** Each list of distinct asset types reads back as an array of its URLs. */
  lemma {:induction false} PutAssetListsGet(d: Dict, lists: seq<(string, seq<string>)>, i: nat)
    requires i < |lists|
    requires forall a, b :: 0 <= a < b < |lists| ==> lists[a].0 != lists[b].0
    ensures Get(PutAssetLists(d, lists), lists[i].0 + "Files") == Some(Arr(Strs(lists[i].1)))
    decreases |lists|
  {
    var k := lists[0].0 + "Files";
    var d' := Put(d, k, Arr(Strs(lists[0].1)));
    if i == 0 {
      FirstNotNamedLater(lists);
      PutAssetListsKeeps(d', lists[1..], k);
      PutGet(d, k, Arr(Strs(lists[0].1)), k);
    } else {
      DistinctNamesTail(lists);
      assert lists[1..][i - 1] == lists[i];
      PutAssetListsGet(d', lists[1..], i - 1);
    }
  }

  /** With distinct types, no later list is stored under the first's key. */
  lemma FirstNotNamedLater(lists: seq<(string, seq<string>)>)
    requires |lists| > 0
    requires forall a, b :: 0 <= a < b < |lists| ==> lists[a].0 != lists[b].0
    ensures !NamesList(lists[1..], lists[0].0 + "Files")
  {
    var k := lists[0].0 + "Files";
    forall j | 0 <= j < |lists[1..]| ensures k != lists[1..][j].0 + "Files" {
      assert lists[1..][j] == lists[j + 1];
      assert lists[j + 1].0 != lists[0].0;
      AppendedSuffixInjective(lists[j + 1].0, lists[0].0, "Files");
    }
  }

  /** Distinct types stay distinct without the first list. */
  lemma DistinctNamesTail(lists: seq<(string, seq<string>)>)
    requires |lists| > 0
    requires forall a, b :: 0 <= a < b < |lists| ==> lists[a].0 != lists[b].0
    ensures forall a, b :: 0 <= a < b < |lists[1..]| ==> lists[1..][a].0 != lists[1..][b].0
  {
    forall a, b | 0 <= a < b < |lists[1..]| ensures lists[1..][a].0 != lists[1..][b].0 {
      assert lists[1..][a] == lists[a + 1] && lists[1..][b] == lists[b + 1];
    }
  }

  lemma AppendedSuffixInjective(a: string, b: string, s: string)
    requires a != b
    ensures a + s != b + s
  {
    if |a| == |b| {
      var j :| 0 <= j < |a| && a[j] != b[j];
      assert (a + s)[j] == a[j] && (b + s)[j] == b[j];
    } else {
      assert |a + s| != |b + s|;
    }
  }

  /** An HTML helper renders its template with every asset list of the
      template's manifest entry under `<type>Files`, and the rest of its view
      data as it was. */
  lemma HtmlRenderAssets(h: Helper, m: map<string, seq<(string, seq<string>)>>, k: string)
    requires h.kind == Html && h.viewData.Some? && TemplateKey(h.template) in m
    requires var lists := m[TemplateKey(h.template)];
      forall a, b :: 0 <= a < b < |lists| ==> lists[a].0 != lists[b].0
    ensures var lists := m[TemplateKey(h.template)];
      var data := Render(h, Some(m)).value.1.data;
      (forall i :: 0 <= i < |lists| ==> Get(data, lists[i].0 + "Files") == Some(Arr(Strs(lists[i].1))))
      && (!NamesList(lists, k) ==> Get(data, k) == Get(h.viewData.value, k))
  {
    var lists := m[TemplateKey(h.template)];
    forall i | 0 <= i < |lists| ensures Get(PutAssetLists(h.viewData.value, lists), lists[i].0 + "Files") == Some(Arr(Strs(lists[i].1))) {
      PutAssetListsGet(h.viewData.value, lists, i);
    }
    if !NamesList(lists, k) {
      PutAssetListsKeeps(h.viewData.value, lists, k);
    }
  }

  /** A fresh JSON helper's envelope: `status: 1` and the view data as `data`. */
  lemma JsonEnvelope(template: Option<string>, d: Dict)
    ensures var h := NewHelper(Json, template).(viewData := Some(d));
      var body := Render(h, None).value.1.body;
      Get(body, "status") == Some(Num(1)) && Get(body, "data") == Some(PlainObject(d))
  {
    PutGet(InitialWrap, "data", PlainObject(d), "status");
    PutGet(InitialWrap, "data", PlainObject(d), "data");
  }

  /** The template an HTML helper shows information with. */
  const InfoTemplate := "pages/_info/_info.page.xtpl"

  /** The information an HTML helper shows: `backURL` from the `Referer`
      header and `status: 1`, overridden by the given info. */
  function InfoDefaults(referer: Option<string>): Dict {
    [("backURL", if referer.Some? then Str(referer.value) else Undefined), ("status", Num(1))]
  }

  /** `renderInfo(res, info)`. */
  function RenderInfo(h: Helper, referer: Option<string>, info: Value, manifest: Manifest): (r: Result<(Helper, Response), string>)
    ensures r.Err? <==> h.kind == Html && h.viewData.None?
    ensures r.Ok? ==> r.value.0.rendered && r.value.0.kind == h.kind
    ensures r.Ok? && h.kind == Html ==> r.value.1.View? && r.value.1.template == Some(InfoTemplate)
    ensures r.Ok? && h.kind == Json ==> r.value.1.JsonBody? && r.value.0.viewData.None?
  {
    match h.kind
    case Basic => Render(h, manifest)
    case Html =>
      (match h.viewData
       case None => Err("TypeError: view data is null")
       case Some(d) =>
         var merged := Assign(InfoDefaults(referer), OwnEntries(info));
         Render(h.(viewData := Some(Put(d, "info", PlainObject(merged))), template := Some(InfoTemplate)), manifest))
    case Json =>
      Render(h.(wrap := Assign(h.wrap, OwnEntries(info)), viewData := None), manifest)
  }

  /** The information an HTML helper shows: a field of the info, or else the
      default `backURL` and `status`. */
  lemma HtmlInfoFields(h: Helper, referer: Option<string>, info: Value, k: string)
    requires h.kind == Html && h.viewData.Some? && WellFormed(info)
    ensures var data := RenderInfo(h, referer, info, None).value.1.data;
      Get(data, "info") == Some(PlainObject(Assign(InfoDefaults(referer), OwnEntries(info))))
      && Get(Assign(InfoDefaults(referer), OwnEntries(info)), k) ==
         if HasKey(OwnEntries(info), k) then Get(OwnEntries(info), k)
         else if k == "status" then Some(Num(1))
         else if k == "backURL" then Some(if referer.Some? then Str(referer.value) else Undefined)
         else None
  {
    var merged := Assign(InfoDefaults(referer), OwnEntries(info));
    PutGet(h.viewData.value, "info", PlainObject(merged), "info");
    OwnEntriesDistinct(info);
    AssignGet(InfoDefaults(referer), OwnEntries(info), k);
  }

  /** A JSON helper's information replaces the data with `null`: the body
      holds the info's fields over the envelope and `data: null`. */
  lemma JsonInfoFields(h: Helper, info: Value, k: string)
    requires h.kind == Json && WellFormed(info)
    ensures var body := RenderInfo(h, None, info, None).value.1.body;
      Get(body, "data") == Some(Null)
      && (k != "data" ==> Get(body, k) == if HasKey(OwnEntries(info), k) then Get(OwnEntries(info), k) else Get(h.wrap, k))
  {
    var wrap := Assign(h.wrap, OwnEntries(info));
    PutGet(wrap, "data", Null, "data");
    PutGet(wrap, "data", Null, k);
    OwnEntriesDistinct(info);
    AssignGet(h.wrap, OwnEntries(info), k);
  }
}

=== FILE: routeinit.dfy ===
/** How `routes/init.js` turns the route files into Express routes: each
    file is mounted under its main path, each sub-route becomes a chain of
    stages (create the helper, the guarded callbacks, render), a 404 handler
    follows the routers, and an error handler renders the failure through
    the helper. */
module RouteInit {
  import opened Wrappers
  import opened Strings
  import opened JsValue
  import RouteHelpers

  // ---------------------------------------------------------------------
  // Mounting

  /** The mount path of a route file: `__` stands for the site root. */
  function MainPath(name: string): (r: string)
    ensures StartsWith(r, "/")
    ensures name == "__" ==> r == "/"
    ensures name != "__" ==> r[1..] == name
  {
    if name == "__" then "/" else "/" + name
  }

  /** Two route files share a mount path only when both mount at the root. */
  lemma MainPathInjective(a: string, b: string)
    requires MainPath(a) == MainPath(b)
    ensures a == b || (a in {"", "__"} && b in {"", "__"})
  {
    if a != "__" && b != "__" {
      assert MainPath(a)[1..] == a;
    } else if a == "__" && b != "__" {
      assert MainPath(b)[1..] == b;
    } else if a != "__" {
      assert MainPath(a)[1..] == a;
    }
  }

  /** A callback, known by the name the route file gives it. */
  type Callback = string

  /** The `callbacks` of a sub-route: missing, one function or an array. */
  datatype Callbacks = NoCallbacks | One(cb: Callback) | Many(cbs: seq<Callback>)

  /** A sub-route as a route file writes it: a function, an array of
      functions, or a configuration object. */
  datatype SubRoute =
    | Fn(cb: Callback)
    | Fns(cbs: seq<Callback>)
    | Config(callbacks: Callbacks, resType: Option<string>, template: Option<string>,
             verb: Option<string>, pathPattern: Option<string>)

  /** The sub-route as a configuration object. */
  function AsConfig(s: SubRoute): (c: SubRoute)
    ensures c.Config?
    ensures s.Config? ==> c == s
  {
    match s
    case Fn(f) => Config(One(f), None, None, None, None)
    case Fns(fs) => Config(Many(fs), None, None, None, None)
    case Config(_, _, _, _, _) => s
  }

  /** The callbacks as an array: a missing one is kept as `undefined`. */
  function CallbackList(c: Callbacks): (r: seq<Option<Callback>>)
    ensures c.NoCallbacks? ==> r == [None]
    ensures c.One? ==> r == [Some(c.cb)]
    ensures c.Many? ==> |r| == |c.cbs| && forall i :: 0 <= i < |r| ==> r[i] == Some(c.cbs[i])
  {
    match c
    case NoCallbacks => [None]
    case One(f) => [Some(f)]
    case Many(fs) => seq(|fs|, i requires 0 <= i < |fs| => Some(fs[i]))
  }

  /** The stages a request passes, in order. */
  datatype Stage =
    | InitHelper(kind: RouteHelpers.Kind, template: Option<string>)
    | Guarded(cb: Option<Callback>)
    | RenderStage

  /** A route as registered on its router. */
  datatype Route = Route(verb: string, pattern: string, path: string, stages: seq<Stage>)

  /** A string option that JavaScript would find truthy. */
  predicate Given(o: Option<string>) {
    o.Some? && o.value != ""
  }

  /** The length of the run of `/` starting at `k`. */
  function SlashRun(s: string, k: nat): (n: nat)
    requires k <= |s|
    ensures k + n <= |s|
    ensures forall i :: k <= i < k + n ==> s[i] == '/'
    ensures k + n < |s| ==> s[k + n] != '/'
    decreases |s| - k
  {
    if k < |s| && s[k] == '/' then 1 + SlashRun(s, k + 1) else 0
  }

  /** `s.replace(/\/{2,}/, '/')`: the first run of two or more slashes
      becomes one. */
  function CollapseFirstSlashRun(s: string): (r: string)
    ensures IndexOf(s, "//").None? ==> r == s
    ensures IndexOf(s, "//").Some? ==>
      var k := IndexOf(s, "//").value;
      r == s[..k] + "/" + s[k + SlashRun(s, k)..] && SlashRun(s, k) >= 2
  {
    match IndexOf(s, "//")
    case None => s
    case Some(k) =>
      assert s[k..k + 2] == "//";
      assert s[k] == '/' && s[k + 1] == '/';
      assert SlashRun(s, k + 1) >= 1;
      s[..k] + "/" + s[k + SlashRun(s, k)..]
  }

  const PageSuffix := ".page.xtpl"

  /** The template path before the slash run is collapsed: `pages/` and the
      given template, or `<main>/<page>/<page>` with the page named after the
      sub-path (`/` spelled `__`). */
  function TemplateSource(mainPath: string, subPath: string, given: Option<string>): (r: string)
    ensures StartsWith(r, "pages/")
    ensures Given(given) ==> r == "pages/" + given.value
  {
    var pageName := ReplaceAllChar(subPath, '/', "__");
    "pages/" + (if Given(given) then given.value else mainPath + "/" + pageName + "/" + pageName)
  }

  /** The template of an HTML sub-route. */
  function RouteTemplate(mainPath: string, subPath: string, given: Option<string>): (r: string)
    ensures EndsWith(r, PageSuffix)
  {
    var r := CollapseFirstSlashRun(TemplateSource(mainPath, subPath, given)) + PageSuffix;
    assert r[|r| - |PageSuffix|..] == PageSuffix;
    r
  }

  /** A sub-route answers with HTML when it names no response type or `html`. */
  predicate IsHtml(c: SubRoute)
    requires c.Config?
  {
    !Given(c.resType) || c.resType == Some("html")
  }

  /** The stages of a route: the helper is created, the callbacks run in
      order, and the render stage closes the chain. */
  function Stages(kind: RouteHelpers.Kind, template: Option<string>, cbs: seq<Option<Callback>>): (st: seq<Stage>)
    ensures |st| == |cbs| + 2
    ensures st[0] == InitHelper(kind, template) && st[|st| - 1] == RenderStage
    ensures forall i :: 0 <= i < |cbs| ==> st[i + 1] == Guarded(cbs[i])
  {
    [InitHelper(kind, template)] + seq(|cbs|, i requires 0 <= i < |cbs| => Guarded(cbs[i])) + [RenderStage]
  }

  /** The route path: the sub-path with a leading `/`. */
  function RoutePath(subPath: string): (r: string)
    ensures StartsWith(r, "/")
    ensures StartsWith(subPath, "/") ==> r == subPath
    ensures !StartsWith(subPath, "/") ==> r == "/" + subPath
  {
    if |subPath| > 0 && subPath[0] == '/' then subPath else "/" + subPath
  }

  /** The route a sub-route of the file `name` becomes. */
  function MountRoute(name: string, subPath: string, s: SubRoute): (r: Route)
    ensures r.path == RoutePath(subPath)
    ensures |r.stages| >= 2 && r.stages[0].InitHelper?
    ensures r.stages == Stages(r.stages[0].kind, r.stages[0].template, CallbackList(AsConfig(s).callbacks))
    ensures r.stages[0].kind == RouteHelpers.Json <==> AsConfig(s).resType == Some("json")
    ensures r.stages[0].template.Some? <==> IsHtml(AsConfig(s))
    ensures r.stages[0].template.Some? ==> EndsWith(r.stages[0].template.value, PageSuffix)
    ensures r.verb == (if Given(AsConfig(s).verb) then AsConfig(s).verb.value else "get")
    ensures r.pattern == (if Given(AsConfig(s).pathPattern) then AsConfig(s).pathPattern.value else r.path)
  {
    var c := AsConfig(s);
    var template := if IsHtml(c) then Some(RouteTemplate(MainPath(name), subPath, c.template)) else None;
    var kind := if c.resType == Some("json") then RouteHelpers.Json else RouteHelpers.Html;
    var path := RoutePath(subPath);
    Route(
      if Given(c.verb) then c.verb.value else "get",
      if Given(c.pathPattern) then c.pathPattern.value else path,
      path,
      Stages(kind, template, CallbackList(c.callbacks)))
  }

  /** `pages/` holds no `//`. */
  lemma PagesHasNoDoubleSlash()
    ensures IndexOf("pages" + "//"[..1], "//").None?
  {
    var s := "pages/";
    assert "pages" + "//"[..1] == s;
    forall k: nat ensures !OccursAt(s, "//", k) {
      if k + 2 <= |s| {
        assert s[k..k + 2][0] == s[k];
        assert s[k] != '/';
      }
    }
  }

  /** `pages//` followed by a text that does not start with a slash
      collapses to `pages/` and the text. */
  lemma CollapseAfterPages(rest: string)
    requires |rest| > 0 && rest[0] != '/'
    ensures CollapseFirstSlashRun("pages//" + rest) == "pages/" + rest
  {
    var s := "pages//" + rest;
    assert s == "pages" + "//" + rest;
    PagesHasNoDoubleSlash();
    IndexOfFirst("pages", "//", rest);
    assert SlashRun(s, 7) == 0;
    assert SlashRun(s, 5) == 2;
    assert s[..5] + "/" + s[7..] == "pages/" + rest;
  }

  /** `pages///` followed by a text that does not start with a slash
      collapses to `pages/` and the text. */
  lemma CollapseAfterPagesRoot(rest: string)
    requires |rest| > 0 && rest[0] != '/'
    ensures CollapseFirstSlashRun("pages///" + rest) == "pages/" + rest
  {
    var s := "pages///" + rest;
    assert IndexOf(s, "//") == Some(5) by {
      assert s == "pages" + "//" + ("/" + rest) by {
        ConcatAssoc("pages" + "//", "/", rest);
        assert "pages" + "//" + "/" == "pages///";
      }
      PagesHasNoDoubleSlash();
      IndexOfFirst("pages", "//", "/" + rest);
    }
    assert SlashRun(s, 5) == 3 by {
      assert s[5] == '/' && s[6] == '/' && s[7] == '/' && s[8] == rest[0];
      assert SlashRun(s, 8) == 0;
    }
    assert s[..5] + "/" + s[8..] == "pages/" + rest by {
      assert s[..5] == "pages" && s[8..] == rest;
      ConcatAssoc("pages", "/", rest);
    }
  }

  /** Without a given template the page name is the sub-path itself when it
      holds no slash. */
  lemma DefaultSource(mainPath: string, sub: string)
    requires '/' !in sub
    ensures RouteTemplate(mainPath, sub, None) ==
      CollapseFirstSlashRun("pages/" + (mainPath + "/" + sub + "/" + sub)) + PageSuffix
  {
    assert ReplaceAllChar(sub, '/', "__") == sub;
  }

  lemma PagesConcat(m: string, name: string, sub: string)
    requires m == "/" + name
    ensures "pages/" + (m + "/" + sub + "/" + sub) == "pages//" + (name + "/" + sub + "/" + sub)
    ensures "pages/" + (name + "/" + sub + "/" + sub) + PageSuffix == "pages/" + name + "/" + sub + "/" + sub + PageSuffix
  {
  }

  /** The default template of the page `sub` of the route file `name` is
      `pages/<name>/<sub>/<sub>.page.xtpl`. */
  lemma DefaultTemplate(name: string, sub: string)
    requires name != "__" && |name| > 0 && name[0] != '/'
    requires '/' !in sub
    ensures RouteTemplate(MainPath(name), sub, None) == "pages/" + name + "/" + sub + "/" + sub + PageSuffix
  {
    var m := MainPath(name);
    PagesConcat(m, name, sub);
    DefaultSource(m, sub);
    CollapseAfterPages(name + "/" + sub + "/" + sub);
  }

  /** The pages of the root route file (`__`) lose the empty segment:
      `pages/<sub>/<sub>.page.xtpl`. */
  lemma RootTemplate(sub: string)
    requires |sub| > 0 && '/' !in sub
    ensures RouteTemplate(MainPath("__"), sub, None) == "pages/" + sub + "/" + sub + PageSuffix
  {
    var rest := sub + "/" + sub;
    assert "pages/" + ("/" + "/" + sub + "/" + sub) == "pages///" + rest by {
      ConcatAssoc4("/", "/", sub, "/", sub);
      ConcatAssoc(sub, "/", sub);
      ConcatAssoc("//", sub, "/" + sub);
      ConcatAssoc("pages/", "//", rest);
      assert "pages/" + "//" == "pages///";
      assert "/" + "/" == "//";
    }
    assert RouteTemplate(MainPath("__"), sub, None) == CollapseFirstSlashRun("pages///" + rest) + PageSuffix by {
      DefaultSource("/", sub);
    }
    assert CollapseFirstSlashRun("pages///" + rest) == "pages/" + rest by {
      CollapseAfterPagesRoot(rest);
    }
    assert "pages/" + rest + PageSuffix == "pages/" + sub + "/" + sub + PageSuffix by {
      ConcatAssoc("pages/", sub + "/", sub);
      ConcatAssoc("pages/", sub, "/");
    }
  }

  /** A given template is used as it is, below `pages/`. */
  lemma GivenTemplate(mainPath: string, subPath: string, t: string)
    requires |t| > 0 && t[0] != '/'
    requires IndexOf(t, "//").None?
    ensures RouteTemplate(mainPath, subPath, Some(t)) == "pages/" + t + PageSuffix
  {
    var s := "pages/" + t;
    assert s == "pages" + "/" + t;
    forall k: nat ensures !OccursAt(s, "//", k) {
      if k + 2 <= |s| {
        if k >= 6 {
          assert s[k..k + 2] == t[k - 6..k - 4];
          assert !OccursAt(t, "//", k - 6);
        } else if k < 5 {
          assert s[k..k + 2][0] == s[k] != '/';
        } else {
          assert s[k..k + 2][1] == t[0];
        }
      }
    }
  }

  // ---------------------------------------------------------------------
  // Handling a request

  /** What calling a callback did: returned `true`, a thenable or anything
      else, or threw. */
  datatype Returned = ReturnedTrue | Thenable | ReturnedOther | Threw

  /** What happens after a stage. `Throw`: calling the callback throws,
      and Express passes the error on as `next(err)`. */
  datatype Step = EndResponse | CallNext | Stop | AwaitPromise | Throw

  /** `handlePromise(callback)` for the stage's callback, `undefined` when
      the route gave none: a response already sent is ended before the
      callback is looked at; a missing callback throws on `callback.apply`,
      and so does a callback that throws itself; otherwise a callback that
      returns `true` stops the chain, a promise continues when it settles and
      anything else continues at once. `run` is what calling a callback does. */
  function Guard(cb: Option<Callback>, headersSent: bool, run: Callback -> Returned): (s: Step)
    ensures headersSent <==> s == EndResponse
    ensures !headersSent ==> (s == Throw <==> cb.None? || run(cb.value) == Threw)
    ensures !headersSent && cb.Some? ==> (s == CallNext <==> run(cb.value) == ReturnedOther)
    ensures !headersSent && cb.Some? ==> (s == Stop <==> run(cb.value) == ReturnedTrue)
  {
    if headersSent then EndResponse
    else match cb
      case None => Throw
      case Some(f) =>
        match run(f)
        case Thenable => AwaitPromise
        case ReturnedTrue => Stop
        case ReturnedOther => CallNext
        case Threw => Throw
  }

  /** The `TypeError` that `callback.apply` throws when the callback is
      `undefined`: an error object that carries no `status`. */
  function MissingCallbackError(stack: string): (e: Failure)
    ensures e.ErrorObject? && e.status == 0
  {
    ErrorObject(0, "Cannot read property 'apply' of undefined", stack)
  }

  /** A configuration object without `callbacks` mounts a route whose only
      callback stage throws on every request that reaches it unanswered, so
      the render stage is never reached and the request becomes a 500: the
      thrown error has no status, so Express's default handler (which
      answers as the handler is written, see `ErrorHandlerSkippedAsWritten`)
      and the corrected handler both answer with 500. */
  lemma MissingCallbackThrows(name: string, subPath: string, c: SubRoute, run: Callback -> Returned, stack: string,
                              helper: RouteHelpers.Helper, referer: Option<string>, nodeEnv: Option<string>,
                              manifest: RouteHelpers.Manifest)
    requires c.Config? && c.callbacks.NoCallbacks?
    requires helper.viewData.Some?
    ensures var r := MountRoute(name, subPath, c);
      |r.stages| == 3 && r.stages[1] == Guarded(None) && r.stages[2] == RenderStage
      && Guard(r.stages[1].cb, false, run) == Throw
    ensures FailureStatus(MissingCallbackError(stack)) == 500
    ensures var page := HandleError(MissingCallbackError(stack), "", Some(helper), referer, nodeEnv, manifest);
      page.Ok? && page.value.status == 500 && page.value.logged
  {
    var r := MountRoute(name, subPath, c);
    assert CallbackList(AsConfig(c).callbacks) == [None];
    assert r.stages[1] == Guarded(None);
  }

  /** The helper the first stage attaches: a fresh helper of the route's
      kind whose view data receives the environment name and the current
      year (a parameter). */
  function InitStage(kind: RouteHelpers.Kind, template: Option<string>, env: Value, year: int): (h: RouteHelpers.Helper)
    ensures h.kind == kind && h.template == template && !h.rendered
    ensures h.viewData.Some?
    ensures Get(h.viewData.value, "ENV") == Some(env) && Get(h.viewData.value, "currentYear") == Some(Num(year))
  {
    var h := RouteHelpers.NewHelper(kind, template);
    var src := [("ENV", env), ("currentYear", Num(year))];
    NonDigitKeyNotIndex("ENV");
    NonDigitKeyNotIndex("currentYear");
    NoIndexKeysEnumerate(src);
    var access := RouteHelpers.ViewData(h.viewData, [PlainObject(src)]).value;
    AssignGet([], src, "ENV");
    AssignGet([], src, "currentYear");
    h.(viewData := Some(access.viewData))
  }

  /** What the render stage did. */
  datatype RenderStep = PassOn | Ended | Responded(helper: RouteHelpers.Helper, response: RouteHelpers.Response)

  /** The render stage: without a helper the request passes on (to the 404
      handler), a helper that has rendered ends the response, any other
      helper renders. */
  function RenderStageStep(helper: Option<RouteHelpers.Helper>, manifest: RouteHelpers.Manifest): (r: Result<RenderStep, string>)
    ensures helper.None? ==> r == Ok(PassOn)
    ensures helper.Some? && helper.value.rendered ==> r == Ok(Ended)
    ensures r.Ok? && r.value.Responded? ==> helper.Some? && !helper.value.rendered && r.value.helper.rendered
  {
    match helper
    case None => Ok(PassOn)
    case Some(h) =>
      if h.rendered then Ok(Ended)
      else match RouteHelpers.Render(h, manifest)
        case Err(e) => Err(e)
        case Ok((h', resp)) => Ok(Responded(h', resp))
  }

  /** A route whose callbacks leave the helper alone renders its template
      with the environment in the view data. */
  lemma UntouchedHelperRenders(template: string, env: Value, year: int)
    ensures var step := RenderStageStep(Some(InitStage(RouteHelpers.Html, Some(template), env, year)), None);
      step.Ok? && step.value.Responded? && step.value.response.View?
      && step.value.response.template == Some(template)
      && Get(step.value.response.data, "ENV") == Some(env)
  {
  }

  // ---------------------------------------------------------------------
  // Errors

  /** What reaches the error handler: a string, or an error object whose
      `status` is 0 when missing. */
  datatype Failure = Message(text: string) | ErrorObject(status: int, message: string, stack: string)

  /** The response to a failure. */
  datatype ErrorPage = ErrorPage(status: int, logged: bool, helper: RouteHelpers.Helper, response: RouteHelpers.Response)

  /** `err.status || 500`. */
  function FailureStatus(err: Failure): (s: int)
    ensures s != 0
    ensures err.ErrorObject? && err.status != 0 ==> s == err.status
    ensures err.Message? ==> s == 500
  {
    if err.ErrorObject? && err.status != 0 then err.status else 500
  }

  /** The information the error page shows. */
  function FailureInfo(err: Failure, freshStack: string, nodeEnv: Option<string>): Dict {
    var message := if err.Message? then err.text else err.message;
    var stack := if err.Message? then freshStack else err.stack;
    [("status", Num(2)), ("httpStatus", Num(FailureStatus(err))), ("message", Str(message)),
     ("stack", Str(if nodeEnv != Some("production") then stack else ""))]
  }

  /** The title the error page gets. */
  const ErrorTitle := "温馨提示"

  /** The error handler: the status defaults to 500, everything but a 404 is
      logged, and the helper renders the failure as information. Without a
      helper, or with view data already `null`, the handler throws. */
  function HandleError(err: Failure, freshStack: string, helper: Option<RouteHelpers.Helper>, referer: Option<string>,
                       nodeEnv: Option<string>, manifest: RouteHelpers.Manifest): (r: Result<ErrorPage, string>)
    ensures r.Err? <==> helper.None? || helper.value.viewData.None?
    ensures r.Ok? ==> r.value.status == FailureStatus(err) && (r.value.logged <==> r.value.status != 404)
    ensures r.Ok? ==> r.value.helper.rendered && r.value.helper.kind == helper.value.kind
    ensures r.Ok? && helper.value.kind == RouteHelpers.Html ==>
      r.value.response.View? && r.value.response.template == Some(RouteHelpers.InfoTemplate)
  {
    match helper
    case None => Err("TypeError: res.routeHelper is undefined")
    case Some(h) =>
      match RouteHelpers.ViewData(h.viewData, [Str("title"), Str(ErrorTitle)])
      case Err(e) => Err(e)
      case Ok(access) =>
        var titled := h.(viewData := Some(access.viewData));
        var rendered := RouteHelpers.RenderInfo(titled, referer, PlainObject(FailureInfo(err, freshStack, nodeEnv)), manifest);
        var status := FailureStatus(err);
        Ok(ErrorPage(status, status != 404, rendered.value.0, rendered.value.1))
  }

  /** The 404 handler's error. */
  const NotFoundMessage := "您访问的页面不存在"

  /** A missing page is answered with status 404, unlogged, by the
      information page of a fresh HTML helper, which shows `status: 2` and
      `httpStatus: 404`. */
  lemma NotFoundPage(stack: string, referer: Option<string>, nodeEnv: Option<string>)
    ensures var r := HandleError(ErrorObject(404, NotFoundMessage, stack), "", Some(RouteHelpers.NewHelper(RouteHelpers.Html, None)), referer, nodeEnv, None);
      r.Ok? && r.value.status == 404 && !r.value.logged
      && r.value.response.View? && r.value.response.template == Some(RouteHelpers.InfoTemplate)
  {
  }

  /** The stack is shown outside production and hidden in it. */
  lemma StackShownOutsideProduction(err: Failure, freshStack: string, nodeEnv: Option<string>)
    ensures Get(FailureInfo(err, freshStack, nodeEnv), "stack") ==
      Some(Str(if nodeEnv == Some("production") then "" else if err.Message? then freshStack else err.stack))
    ensures Get(FailureInfo(err, freshStack, nodeEnv), "httpStatus") == Some(Num(FailureStatus(err)))
  {
    var d := FailureInfo(err, freshStack, nodeEnv);
    assert "status" != "stack" && "httpStatus" != "stack" && "message" != "stack";
    assert Get(d[2..], "stack") == Get(d[3..], "stack");
    assert Get(d[1..], "stack") == Get(d[2..], "stack");
    assert "status" != "httpStatus";
  }

  // ---------------------------------------------------------------------
  // Which middleware Express calls

  /** Whether Express calls a function of this many parameters: with an
      error pending, only four-parameter functions; otherwise only those
      with at most three. */
  predicate Handles(arity: nat, error: bool) {
    if error then arity == 4 else arity <= 3
  }

  /** The next layer Express calls from `from` on. */
  function NextLayer(arities: seq<nat>, from: nat, error: bool): (r: Option<nat>)
    ensures r.Some? ==> from <= r.value < |arities| && Handles(arities[r.value], error)
    ensures forall j :: from <= j < |arities| && (r.None? || j < r.value) ==> !Handles(arities[j], error)
    decreases |arities| - from
  {
    if from >= |arities| then None
    else if Handles(arities[from], error) then Some(from)
    else NextLayer(arities, from + 1, error)
  }

  /** The application's layers: the routers, the 404 handler (three
      parameters) and the error handler. */
  function AppLayers(routers: seq<nat>, errorArity: nat): seq<nat> {
    routers + [3, errorArity]
  }

  /** The error handler as written takes `(err, req, res)`. */
  const WrittenErrorArity: nat := 3

  /** An error handler Express recognises takes `(err, req, res, next)`. */
  const ErrorArity: nat := 4

  /** As written, the error raised by the 404 handler skips the error
      handler and reaches no layer at all, so Express's own final handler
      answers instead of the information page. */
  lemma ErrorHandlerSkippedAsWritten(routers: seq<nat>)
    ensures NextLayer(AppLayers(routers, WrittenErrorArity), |routers| + 1, true).None?
  {
    var layers := AppLayers(routers, WrittenErrorArity);
    assert layers[|routers| + 1] == 3;
  }

  /** With four parameters the error handler receives the 404 handler's
      error, and no request without an error ever reaches it. */
  lemma ErrorHandlerReached(routers: seq<nat>)
    ensures NextLayer(AppLayers(routers, ErrorArity), |routers| + 1, true) == Some(|routers| + 1)
    ensures !Handles(AppLayers(routers, ErrorArity)[|routers| + 1], false)
  {
    var layers := AppLayers(routers, ErrorArity);
    assert layers[|routers| + 1] == 4;
  }
}

=== FILE: runtimeutil.dfy ===
/** The helpers of the template runtime (`xtemplate/runtime/util.js`) that
    the system's templates rely on: `keys`, `each`, `mix`, `merge` and
    `substitute`. */
module RuntimeUtil {
  import opened Wrappers
  import opened Strings
  import opened JsValue
  import Util

  /** `util.keys(o)`: the own enumerable property names, in enumeration order. */
  function ObjectKeys(v: Value): (ks: seq<string>)
    ensures |ks| == |OwnEntries(v)|
    ensures forall k :: k in ks <==> HasKey(OwnEntries(v), k)
  {
    Keys(OwnEntries(v))
  }

  /** `util.keys` of a well-formed value names no property twice. */
  lemma ObjectKeysDistinct(v: Value)
    requires WellFormed(v)
    ensures forall i, j :: 0 <= i < j < |ObjectKeys(v)| ==> ObjectKeys(v)[i] != ObjectKeys(v)[j]
  {
    OwnEntriesDistinct(v);
  }

  /** The callbacks of the runtime's `each(object, fn)`: nothing for a
      falsy object, otherwise the same visiting order as `lib/util.js`. */
  function EachVisits(v: Value, stops: Util.Visit -> bool): seq<Util.Visit> {
    if Truthy(v) then Util.TakeUntilStop(Util.EachEntries(v), stops) else []
  }

  /** The two `each` helpers make the same calls on every value: the falsy
      values the runtime skips but `lib/util.js` does not have nothing to
      visit anyway. */
  lemma EachAgreesWithLib(v: Value, stops: Util.Visit -> bool)
    ensures EachVisits(v, stops) == Util.EachVisits(v, stops)
  {
    if !Truthy(v) && !IsNullish(v) {
      assert Util.EachEntries(v) == [];
    }
  }

  /** `util.mix(t, s)`: the own properties of a truthy `s` are copied onto
      `t`, in the order `for-in` enumerates them. `t` is in creation order,
      so its keys stay at the front. */
  function Mix(t: Dict, s: Value): (r: Dict)
    ensures !Truthy(s) ==> r == t
    ensures |r| >= |t| && Keys(r)[..|t|] == Keys(t)
  {
    AssignKeepsOldKeysFirst(t, OwnEntries(s));
    if Truthy(s) then Assign(t, OwnEntries(s)) else t
  }

  /** After `mix`, a key of `s` reads as in `s` and every other key as before. */
  lemma MixGet(t: Dict, s: Value, k: string)
    requires WellFormed(s)
    ensures Get(Mix(t, s), k) ==
      if Truthy(s) && HasKey(OwnEntries(s), k) then Get(OwnEntries(s), k) else Get(t, k)
  {
    if Truthy(s) {
      OwnEntriesDistinct(s);
      AssignGet(t, OwnEntries(s), k);
    }
  }

  /** `util.merge(a, b, ...)`: a fresh object mixed with every argument in turn. */
  function Merge(args: seq<Value>): Dict {
    if |args| == 0 then [] else Mix(Merge(args[..|args| - 1]), args[|args| - 1])
  }

  /** The value the last truthy argument that has `k` gives it. */
  function LastDefinition(args: seq<Value>, k: string): Option<Value> {
    if |args| == 0 then None
    else
      var a := args[|args| - 1];
      if Truthy(a) && HasKey(OwnEntries(a), k) then Get(OwnEntries(a), k)
      else LastDefinition(args[..|args| - 1], k)
  }

  /** Later arguments override earlier ones and falsy arguments are skipped:
      each key of the merge holds the value of the last argument defining it. */
  lemma {:induction false} MergeGet(args: seq<Value>, k: string)
    requires forall i :: 0 <= i < |args| ==> WellFormed(args[i])
    ensures Get(Merge(args), k) == LastDefinition(args, k)
  {
    if |args| > 0 {
      var init := args[..|args| - 1];
      MergeGet(init, k);
      MixGet(Merge(init), args[|args| - 1], k);
    }
  }

  /** The number of characters at the front of `t` that are not braces. */
  function NonBraceRun(t: string): (n: nat)
    ensures n <= |t|
    ensures forall i :: 0 <= i < n ==> t[i] != '{' && t[i] != '}'
    ensures n < |t| ==> t[n] == '{' || t[n] == '}'
  {
    if |t| > 0 && t[0] != '{' && t[0] != '}' then 1 + NonBraceRun(t[1..]) else 0
  }

  /** `{([^{}]+)}` at the front of `t`: the length of the name, if it matches. */
  function Placeholder(t: string): (r: Option<nat>)
    ensures r.Some? ==> 1 <= r.value && r.value + 2 <= |t| && t[0] == '{' && t[r.value + 1] == '}'
    ensures r.Some? ==> forall i :: 1 <= i <= r.value ==> t[i] != '{' && t[i] != '}'
  {
    if |t| > 0 && t[0] == '{' then
      var n := NonBraceRun(t[1..]);
      if n >= 1 && n + 1 < |t| && t[n + 1] == '}' then
        assert forall i :: 1 <= i <= n ==> t[i] == t[1..][i - 1];
        Some(n)
      else None
    else None
  }

  /** What a placeholder turns into: the property as a string, or nothing
      when it is `undefined`. */
  function Lookup(o: Value, name: string): string {
    var x := GetProperty(o, name);
    if x.Undefined? then "" else ToJsString(x)
  }

  /** `str.replace(/\\?\{([^{}]+)\}/g, ...)`, scanning left to right: an
      escaped placeholder loses its backslash, a plain one is looked up. */
  function SubstituteText(s: string, o: Value): string
    decreases |s|
  {
    if |s| == 0 then ""
    else if s[0] == '\\' && Placeholder(s[1..]).Some? then
      var n := Placeholder(s[1..]).value;
      s[1..n + 3] + SubstituteText(s[n + 3..], o)
    else match Placeholder(s)
      case Some(n) => Lookup(o, s[1..n + 1]) + SubstituteText(s[n + 2..], o)
      case None => [s[0]] + SubstituteText(s[1..], o)
  }

  /** `util.substitute(str, o)`: anything but a string, or a falsy map, is
      returned as it is. */
  function Substitute(str: Value, o: Value): (r: Value)
    ensures !str.Str? || !Truthy(o) ==> r == str
    ensures r.Str? <==> str.Str?
  {
    if !str.Str? || !Truthy(o) then str else Str(SubstituteText(str.s, o))
  }

  /** A template as the runtime reads it: literal text and named holes. */
  datatype Piece = Lit(text: string) | Hole(name: string)

  predicate BraceFree(t: string) {
    forall i :: 0 <= i < |t| ==> t[i] != '{' && t[i] != '}'
  }

  /** Pieces a template can spell unambiguously: literals without braces
      that do not end in a backslash (which would escape the next hole), and
      non-empty names without braces. */
  predicate Spellable(ps: seq<Piece>) {
    forall i :: 0 <= i < |ps| ==>
      match ps[i]
      case Lit(t) => BraceFree(t) && (|t| == 0 || t[|t| - 1] != '\\')
      case Hole(n) => |n| > 0 && BraceFree(n)
  }

  /** The template text of the pieces. */
  function Spell(ps: seq<Piece>): string {
    if |ps| == 0 then ""
    else (match ps[0] case Lit(t) => t case Hole(n) => "{" + n + "}") + Spell(ps[1..])
  }

  /** The text the pieces stand for under `o`. */
  function Fill(ps: seq<Piece>, o: Value): string {
    if |ps| == 0 then ""
    else (match ps[0] case Lit(t) => t case Hole(n) => Lookup(o, n)) + Fill(ps[1..], o)
  }

  lemma {:induction false} NonBraceRunOfPrefix(n: string, t: string)
    requires BraceFree(n)
    requires |t| > 0 && t[0] == '}'
    ensures NonBraceRun(n + t) == |n|
  {
    if |n| > 0 {
      assert (n + t)[1..] == n[1..] + t;
      NonBraceRunOfPrefix(n[1..], t);
    } else {
      assert n + t == t;
    }
  }

  /** A placeholder is replaced by the looked-up text. */
  lemma SubstituteHole(n: string, rest: string, o: Value)
    requires |n| > 0 && BraceFree(n)
    ensures SubstituteText("{" + n + "}" + rest, o) == Lookup(o, n) + SubstituteText(rest, o)
  {
    var s := "{" + n + "}" + rest;
    assert s[1..] == n + ("}" + rest);
    NonBraceRunOfPrefix(n, "}" + rest);
    assert Placeholder(s) == Some(|n|);
    assert s[1..|n| + 1] == n;
    assert s[|n| + 2..] == rest;
  }

  /** An escaped placeholder is kept literally, without its backslash. */
  lemma SubstituteEscapedHole(n: string, rest: string, o: Value)
    requires |n| > 0 && BraceFree(n)
    ensures SubstituteText("\\{" + n + "}" + rest, o) == "{" + n + "}" + SubstituteText(rest, o)
  {
    var s := "\\{" + n + "}" + rest;
    var t := "{" + n + "}" + rest;
    assert s[1..] == t;
    assert t[1..] == n + ("}" + rest);
    NonBraceRunOfPrefix(n, "}" + rest);
    assert Placeholder(t) == Some(|n|);
    assert s[1..|n| + 3] == "{" + n + "}";
    assert s[|n| + 3..] == rest;
  }

  /** A character that starts no placeholder is copied. */
  lemma SubstituteCopies(s: string, o: Value)
    requires |s| > 0 && s[0] != '{'
    requires s[0] == '\\' ==> |s| > 1 && s[1] != '{'
    ensures SubstituteText(s, o) == [s[0]] + SubstituteText(s[1..], o)
  {
    if s[0] == '\\' {
      assert s[1..][0] == s[1];
    }
  }

  /** The first character of a brace-free literal is copied. */
  lemma SubstituteLiteralStep(t: string, rest: string, o: Value)
    requires |t| > 0 && BraceFree(t) && t[|t| - 1] != '\\'
    ensures SubstituteText(t + rest, o) == [t[0]] + SubstituteText(t[1..] + rest, o)
  {
    var s := t + rest;
    if s[0] == '\\' { assert |t| > 1 && s[1] == t[1]; }
    SubstituteCopies(s, o);
    assert s[1..] == t[1..] + rest;
  }

  /** Literal text without braces passes through unchanged. */
  lemma {:induction false} SubstituteLiteral(t: string, rest: string, o: Value)
    requires BraceFree(t) && (|t| == 0 || t[|t| - 1] != '\\')
    ensures SubstituteText(t + rest, o) == t + SubstituteText(rest, o)
    decreases |t|
  {
    if |t| > 0 {
      SubstituteLiteralStep(t, rest, o);
      SubstituteLiteral(t[1..], rest, o);
      ConsAppend(t, SubstituteText(rest, o));
    } else {
      assert t + rest == rest;
    }
  }

  /** Round trip of the runtime's substitution: spelling pieces as a template
      and substituting gives the text the pieces stand for. */
  lemma {:induction false} SubstituteSpelled(ps: seq<Piece>, o: Value)
    requires Spellable(ps)
    ensures SubstituteText(Spell(ps), o) == Fill(ps, o)
  {
    if |ps| > 0 {
      assert Spellable(ps[1..]) by {
        forall i | 0 <= i < |ps[1..]| ensures ps[1..][i] == ps[i + 1] { }
      }
      SubstituteSpelled(ps[1..], o);
      match ps[0]
      case Lit(t) =>
        SubstituteLiteral(t, Spell(ps[1..]), o);
      case Hole(n) =>
        SubstituteHole(n, Spell(ps[1..]), o);
        assert "{" + n + "}" + Spell(ps[1..]) == Spell(ps);
    }
  }
}

=== FILE: strings.dfy ===
/** Character classes and string helpers shared by the whole model.
    JavaScript regular expressions used by the system are modelled by the
    scanners in the modules that use them; this module only holds the pieces
    several of those scanners share. */
module Strings {
  import opened Wrappers

  /** `\w` of a JavaScript regular expression without the `u` flag. */
  predicate IsWordChar(c: char) {
    ('a' <= c <= 'z') || ('A' <= c <= 'Z') || ('0' <= c <= '9') || c == '_'
  }

  /** The characters `.` in a JavaScript regular expression does not match. */
  predicate IsLineTerminator(c: char) {
    c == '\n' || c == '\r' || c == '\U{2028}' || c == '\U{2029}'
  }

  /** `\s` of a JavaScript regular expression, which is also the set that
      `String.prototype.trim` removes (WhiteSpace and LineTerminator). */
  predicate IsWhitespace(c: char) {
    || c == '\t' || c == '\n' || c == '\U{000B}' || c == '\U{000C}' || c == '\r' || c == ' '
    || c == '\U{00A0}' || c == '\U{1680}' || ('\U{2000}' <= c <= '\U{200A}')
    || c == '\U{2028}' || c == '\U{2029}' || c == '\U{202F}' || c == '\U{205F}'
    || c == '\U{3000}' || c == '\U{FEFF}'
  }

  predicate IsAsciiLetter(c: char) {
    ('a' <= c <= 'z') || ('A' <= c <= 'Z')
  }

  function ToLowerAscii(c: char): char {
    if 'A' <= c <= 'Z' then (c as int + 32) as char else c
  }

  predicate StartsWith(s: string, p: string) {
    |p| <= |s| && s[..|p|] == p
  }

  predicate EndsWith(s: string, p: string) {
    |p| <= |s| && s[|s| - |p|..] == p
  }

  /** A string starts with what was put in front of it, and the rest follows. */
  lemma StartsWithPrepended(p: string, t: string)
    ensures StartsWith(p + t, p) && (p + t)[|p|..] == t
  {
  }

  /** A string ends with what was appended to it, and starts with what it was appended to. */
  lemma EndsWithAppended(a: string, t: string)
    ensures EndsWith(a + t, t)
    ensures (a + t)[..|a|] == a
  {
    assert (a + t)[|a + t| - |t|..] == t;
  }

  /** Appending the same text to a string and to its suffix keeps the suffix. */
  lemma EndsWithExtended(s: string, t: string, x: string)
    requires EndsWith(s, t)
    ensures EndsWith(s + x, t + x)
  {
    assert (s + x)[|s + x| - |t + x|..] == s[|s| - |t|..] + x;
  }

  /** A string ends with the last character of any non-empty suffix. */
  lemma EndsWithLastChar(s: string, t: string)
    requires EndsWith(s, t) && |t| > 0
    ensures |s| > 0 && s[|s| - 1] == t[|t| - 1]
  {
    assert s[|s| - |t|..][|t| - 1] == s[|s| - 1];
  }

  /** Case-insensitive (ASCII) suffix test, as a regular expression with the `i` flag does it. */
  predicate EndsWithIgnoringCase(s: string, p: string) {
    |p| <= |s| && forall i :: 0 <= i < |p| ==> ToLowerAscii(s[|s| - |p| + i]) == ToLowerAscii(p[i])
  }

  predicate NoLineTerminator(s: string) {
    forall i :: 0 <= i < |s| ==> !IsLineTerminator(s[i])
  }

  predicate AllWordChars(s: string) {
    forall i :: 0 <= i < |s| ==> IsWordChar(s[i])
  }

  /** `s.split(sep)` for a one-character separator: never empty, and no
      part holds the separator. */
  function Split(s: string, sep: char): (parts: seq<string>)
    ensures |parts| > 0
    ensures forall i :: 0 <= i < |parts| ==> sep !in parts[i]
  {
    if |s| == 0 then [""]
    else
      var rest := Split(s[1..], sep);
      if s[0] == sep then [""] + rest
      else [[s[0]] + rest[0]] + rest[1..]
  }

  /** `parts.join(sep)`. */
  function Join(parts: seq<string>, sep: string): string {
    if |parts| == 0 then ""
    else if |parts| == 1 then parts[0]
    else parts[0] + sep + Join(parts[1..], sep)
  }

  lemma ConcatAssoc(x: string, y: string, z: string)
    ensures x + (y + z) == x + y + z
  {
  }

  /** Regrouping four appended pieces after a prefix. */
  lemma ConcatAssoc4(b: string, x: string, y: string, z: string, w: string)
    ensures b + x + y + z + w == b + (x + y + z + w)
  {
    ConcatAssoc(b, x + y + z, w);
    ConcatAssoc(b, x + y, z);
    ConcatAssoc(b, x, y);
  }

  /** A non-empty string is its first character followed by the rest. */
  lemma ConsAppend(t: string, x: string)
    requires |t| > 0
    ensures [t[0]] + (t[1..] + x) == t + x
  {
  }

  /** Joining after prepending to the first part prepends to the result. */
  lemma JoinConsHead(x: string, a: string, rest: seq<string>, sep: string)
    ensures Join([x + a] + rest, sep) == x + Join([a] + rest, sep)
  {
    if |rest| > 0 {
      assert ([x + a] + rest)[1..] == rest;
      assert ([a] + rest)[1..] == rest;
    }
  }

  lemma JoinCons(a: string, rest: seq<string>, sep: string)
    requires |rest| > 0
    ensures Join([a] + rest, sep) == a + sep + Join(rest, sep)
  {
    assert ([a] + rest)[1..] == rest;
  }

  /** Splitting then joining with the same separator gives back the string. */
  lemma {:induction false} JoinSplit(s: string, sep: char)
    ensures Join(Split(s, sep), [sep]) == s
  {
    if |s| > 0 {
      var rest := Split(s[1..], sep);
      JoinSplit(s[1..], sep);
      if s[0] == sep {
        JoinCons("", rest, [sep]);
        assert s == [sep] + s[1..];
      } else {
        JoinConsHead([s[0]], rest[0], rest[1..], [sep]);
        assert [rest[0]] + rest[1..] == rest;
        assert s == [s[0]] + s[1..];
      }
    }
  }

  /** Joining parts free of the separator and splitting again gives back the parts. */
  lemma {:induction false} SplitJoin(parts: seq<string>, sep: char)
    requires |parts| > 0
    requires forall i :: 0 <= i < |parts| ==> sep !in parts[i]
    ensures Split(Join(parts, [sep]), sep) == parts
    decreases |parts|, |parts[0]|
  {
    if |parts[0]| == 0 {
      if |parts| > 1 {
        JoinCons("", parts[1..], [sep]);
        var j := Join(parts, [sep]);
        assert j == [sep] + Join(parts[1..], [sep]);
        assert j[1..] == Join(parts[1..], [sep]);
        SplitJoin(parts[1..], sep);
        assert [""] + parts[1..] == parts;
      }
    } else {
      var p0 := parts[0];
      var tail := [p0[1..]] + parts[1..];
      assert sep !in p0[1..] by {
        forall k | 0 <= k < |p0[1..]| ensures p0[1..][k] != sep {
          assert p0[1..][k] == p0[k + 1];
        }
      }
      forall i | 0 <= i < |tail| ensures sep !in tail[i] {
        if i > 0 { assert tail[i] == parts[i]; }
      }
      SplitJoin(tail, sep);
      assert p0 == [p0[0]] + p0[1..];
      JoinConsHead([p0[0]], p0[1..], parts[1..], [sep]);
      assert [p0] + parts[1..] == parts;
      var j := Join(parts, [sep]);
      assert j == [p0[0]] + Join(tail, [sep]);
      assert j[1..] == Join(tail, [sep]);
      assert Split(j, sep) == [[p0[0]] + tail[0]] + tail[1..];
      assert tail[1..] == parts[1..];
    }
  }

  /** A string without the separator splits into itself. */
  lemma {:induction false} SplitNoSeparator(s: string, sep: char)
    requires sep !in s
    ensures Split(s, sep) == [s]
  {
    if |s| > 0 {
      assert sep !in s[1..] by {
        forall k | 0 <= k < |s[1..]| ensures s[1..][k] != sep { assert s[1..][k] == s[k + 1]; }
      }
      SplitNoSeparator(s[1..], sep);
      assert [s[0]] + s[1..] == s;
    }
  }

  /** Appending text without the separator extends the last part only. */
  lemma {:induction false} SplitAppend(a: string, b: string, sep: char)
    requires sep !in b
    ensures var pa := Split(a, sep);
      Split(a + b, sep) == pa[..|pa| - 1] + [pa[|pa| - 1] + b]
  {
    if |a| == 0 {
      assert a + b == b;
      SplitNoSeparator(b, sep);
    } else {
      var pa' := Split(a[1..], sep);
      var rest := Split(a[1..] + b, sep);
      assert rest == pa'[..|pa'| - 1] + [pa'[|pa'| - 1] + b] by {
        SplitAppend(a[1..], b, sep);
      }
      assert Split(a + b, sep) == (if a[0] == sep then [""] + rest else [[a[0]] + rest[0]] + rest[1..]) by {
        assert (a + b)[1..] == a[1..] + b;
        assert (a + b)[0] == a[0];
      }
      if a[0] == sep {
        ExtendLastPrepend(pa', b, rest);
      } else {
        ExtendLastCons([a[0]], pa', b, rest);
      }
    }
  }

  /** Extending the last part commutes with prepending an empty part. */
  lemma ExtendLastPrepend(ps: seq<string>, b: string, rest: seq<string>)
    requires |ps| > 0 && rest == ps[..|ps| - 1] + [ps[|ps| - 1] + b]
    ensures var pa := [""] + ps; [""] + rest == pa[..|pa| - 1] + [pa[|pa| - 1] + b]
  {
    var pa := [""] + ps;
    assert pa[..|pa| - 1] == [""] + ps[..|ps| - 1];
  }

  /** Extending the last part commutes with extending the first at its front. */
  lemma ExtendLastCons(x: string, ps: seq<string>, b: string, rest: seq<string>)
    requires |ps| > 0 && rest == ps[..|ps| - 1] + [ps[|ps| - 1] + b]
    ensures var pa := [x + ps[0]] + ps[1..]; [x + rest[0]] + rest[1..] == pa[..|pa| - 1] + [pa[|pa| - 1] + b]
  {
    var n := |ps|;
    var pa := [x + ps[0]] + ps[1..];
    if n == 1 {
      assert rest == [ps[0] + b];
      ConcatAssoc(x, ps[0], b);
    } else {
      assert rest[0] == ps[0];
      assert rest[1..] == ps[1..n - 1] + [ps[n - 1] + b];
      assert pa[..n - 1] == [x + ps[0]] + ps[1..n - 1];
    }
  }

  /** The parts of a split hold only characters of the string. */
  lemma {:induction false} SplitAvoids(s: string, sep: char, c: char)
    requires c !in s
    ensures forall i :: 0 <= i < |Split(s, sep)| ==> c !in Split(s, sep)[i]
  {
    if |s| > 0 {
      assert c !in s[1..] by {
        forall k | 0 <= k < |s[1..]| ensures s[1..][k] != c { assert s[1..][k] == s[k + 1]; }
      }
      SplitAvoids(s[1..], sep, c);
      var rest := Split(s[1..], sep);
      if s[0] != sep {
        assert c !in [s[0]] + rest[0];
        assert forall i :: 1 <= i < |Split(s, sep)| ==> Split(s, sep)[i] == rest[i];
      } else {
        assert forall i :: 1 <= i < |Split(s, sep)| ==> Split(s, sep)[i] == rest[i - 1];
      }
    }
  }

  /** Joining introduces no character that neither the parts nor the separator hold. */
  lemma {:induction false} JoinAvoids(parts: seq<string>, sep: string, c: char)
    requires c !in sep
    requires forall i :: 0 <= i < |parts| ==> c !in parts[i]
    ensures c !in Join(parts, sep)
  {
    if |parts| > 1 {
      assert forall i :: 0 <= i < |parts[1..]| ==> parts[1..][i] == parts[i + 1];
      JoinAvoids(parts[1..], sep, c);
    }
  }

  /** `s.replace(/<c>/g, r)` for a single character `c`. */
  function ReplaceAllChar(s: string, c: char, r: string): (t: string)
    ensures c !in r ==> c !in t
    ensures c !in s ==> t == s
  {
    if |s| == 0 then ""
    else (if s[0] == c then r else [s[0]]) + ReplaceAllChar(s[1..], c, r)
  }

  /** Decimal rendering of a natural number, as `String(n)` gives it. */
  function NatToString(n: nat): (r: string)
    ensures |r| > 0
    ensures forall i :: 0 <= i < |r| ==> '0' <= r[i] <= '9'
    decreases n
  {
    var d := [(('0' as int) + n % 10) as char];
    if n < 10 then d else NatToString(n / 10) + d
  }

  /** Different numbers print differently. */
  lemma {:induction false} NatToStringInjective(a: nat, b: nat)
    requires NatToString(a) == NatToString(b)
    ensures a == b
    decreases a
  {
    var ra := NatToString(a);
    if a >= 10 && b >= 10 {
      assert ra[|ra| - 1] == NatToString(b)[|ra| - 1];
      assert NatToString(a / 10) == ra[..|ra| - 1] == NatToString(b / 10);
      NatToStringInjective(a / 10, b / 10);
    }
  }

  /** `String(i)` for an integer. */
  function IntToString(i: int): string {
    if i < 0 then "-" + NatToString(-i) else NatToString(i)
  }

  /** `s.trim()`: drops leading and trailing whitespace. */
  function TrimStart(s: string): (r: string)
    ensures |r| <= |s| && r == s[|s| - |r|..]
    ensures |r| > 0 ==> !IsWhitespace(r[0])
    ensures forall i :: 0 <= i < |s| - |r| ==> IsWhitespace(s[i])
  {
    if |s| > 0 && IsWhitespace(s[0]) then TrimStart(s[1..]) else s
  }

  function TrimEnd(s: string): (r: string)
    ensures |r| <= |s| && r == s[..|r|]
    ensures |r| > 0 ==> !IsWhitespace(r[|r| - 1])
    ensures forall i :: |r| <= i < |s| ==> IsWhitespace(s[i])
  {
    if |s| > 0 && IsWhitespace(s[|s| - 1]) then TrimEnd(s[..|s| - 1]) else s
  }

  function Trim(s: string): string {
    TrimEnd(TrimStart(s))
  }

  // ---------------------------------------------------------------------
  // `String.prototype.replace` with a string pattern

  /** `p` occurs in `s` at index `k`. */
  predicate OccursAt(s: string, p: string, k: nat) {
    k + |p| <= |s| && s[k..k + |p|] == p
  }

  /** `s.indexOf(p, i)`. */
  function IndexFrom(s: string, p: string, i: nat): (r: Option<nat>)
    ensures r.Some? ==> i <= r.value && OccursAt(s, p, r.value)
    ensures forall k: nat :: i <= k && (r.None? || k < r.value) ==> !OccursAt(s, p, k)
    decreases |s| - i
  {
    if i + |p| > |s| then None
    else if s[i..i + |p|] == p then Some(i)
    else IndexFrom(s, p, i + 1)
  }

  /** `s.indexOf(p)`: the first occurrence. */
  function IndexOf(s: string, p: string): (r: Option<nat>)
    ensures r.Some? ==> OccursAt(s, p, r.value)
    ensures r.Some? ==> forall k: nat :: k < r.value ==> !OccursAt(s, p, k)
    ensures r.None? ==> forall k: nat :: !OccursAt(s, p, k)
  {
    IndexFrom(s, p, 0)
  }

  /** `p` first occurs right after `a` when it does not occur in `a`
      followed by all but the last character of `p`. */
  lemma IndexOfFirst(a: string, p: string, b: string)
    requires |p| > 0 && IndexOf(a + p[..|p| - 1], p).None?
    ensures IndexOf(a + p + b, p) == Some(|a|)
  {
    var s := a + p + b;
    var t := a + p[..|p| - 1];
    assert OccursAt(s, p, |a|);
    forall k: nat | k < |a| ensures !OccursAt(s, p, k) {
      assert !OccursAt(t, p, k);
      assert s[k..k + |p|] == t[k..k + |p|];
    }
  }

  /** GetSubstitution for a pattern without groups: `$$`, `$&`, `` $` `` and
      `$'` are expanded, every other `$` is literal. */
  function Expand(rep: string, matched: string, before: string, after: string): (r: string)
    ensures '$' !in rep ==> r == rep
    decreases |rep|
  {
    if |rep| == 0 then ""
    else if rep[0] == '$' && |rep| > 1 && (rep[1] == '$' || rep[1] == '&' || rep[1] == '`' || rep[1] == '\'') then
      (if rep[1] == '$' then "$" else if rep[1] == '&' then matched else if rep[1] == '`' then before else after)
      + Expand(rep[2..], matched, before, after)
    else
      assert '$' !in rep ==> '$' !in rep[1..] by {
        assert forall i :: 0 <= i < |rep| - 1 ==> rep[1..][i] == rep[i + 1];
      }
      [rep[0]] + Expand(rep[1..], matched, before, after)
  }

  /** Replacement text with every `$` doubled is inserted literally. */
  lemma {:induction false} ExpandEscaped(t: string, matched: string, before: string, after: string)
    ensures Expand(ReplaceAllChar(t, '$', "$$"), matched, before, after) == t
  {
    if |t| > 0 {
      var rest := ReplaceAllChar(t[1..], '$', "$$");
      ExpandEscaped(t[1..], matched, before, after);
      if t[0] == '$' {
        assert ReplaceAllChar(t, '$', "$$") == "$$" + rest;
        assert ("$$" + rest)[2..] == rest;
      } else {
        assert ReplaceAllChar(t, '$', "$$") == [t[0]] + rest;
        assert ([t[0]] + rest)[1..] == rest;
      }
    }
  }

  /** `s.replace(pat, rep)` with a string pattern: the first occurrence only. */
  function ReplaceFirst(s: string, pat: string, rep: string): (r: string)
    ensures IndexOf(s, pat).None? ==> r == s
  {
    match IndexOf(s, pat)
    case None => s
    case Some(k) => s[..k] + Expand(rep, pat, s[..k], s[k + |pat|..]) + s[k + |pat|..]
  }

  /** The first occurrence of the pattern gives way to the expanded replacement. */
  lemma ReplaceFirstAt(a: string, p: string, b: string, rep: string)
    requires |p| > 0 && IndexOf(a + p[..|p| - 1], p).None?
    ensures ReplaceFirst(a + p + b, p, rep) == a + Expand(rep, p, a, b) + b
    ensures '$' !in rep ==> ReplaceFirst(a + p + b, p, rep) == a + rep + b
  {
    IndexOfFirst(a, p, b);
    var s := a + p + b;
    assert s[..|a|] == a;
    assert s[|a| + |p|..] == b;
  }
}

=== FILE: util.dfy ===
/** The helpers of `lib/util.js`: `isURL` and `each`. The visiting order of
    `each` is shared with the template runtime's own `each`. */
module Util {
  import opened Strings
  import opened JsValue

  /** The number of letters at the front of `s`; lower-case ASCII only when
      `lowerOnly`, ASCII of either case otherwise (the `i` flag). */
  function LeadingLetters(s: string, lowerOnly: bool): (n: nat)
    ensures n <= |s|
    ensures forall i :: 0 <= i < n ==> SchemeChar(s[i], lowerOnly)
    ensures n < |s| ==> !SchemeChar(s[n], lowerOnly)
  {
    if |s| > 0 && SchemeChar(s[0], lowerOnly) then 1 + LeadingLetters(s[1..], lowerOnly) else 0
  }

  predicate SchemeChar(c: char, lowerOnly: bool) {
    if lowerOnly then 'a' <= c <= 'z' else IsAsciiLetter(c)
  }

  /** `/^([a-z]+:)?\/\//` (with the `i` flag unless `lowerOnly`). A scheme is
      made of letters only, so the greedy letter run must end right at the colon. */
  predicate IsURLWith(s: string, lowerOnly: bool) {
    || StartsWith(s, "//")
    || (var n := LeadingLetters(s, lowerOnly); n > 0 && StartsWith(s[n..], "://"))
  }

  /** `util.isURL(str)`. */
  predicate IsURL(s: string) {
    IsURLWith(s, false)
  }

  /** `s` begins with `k` scheme letters followed by `://`. */
  predicate SchemeAt(s: string, k: nat, lowerOnly: bool) {
    && 1 <= k <= |s|
    && (forall i :: 0 <= i < k ==> SchemeChar(s[i], lowerOnly))
    && StartsWith(s[k..], "://")
  }

  /** The scanner agrees with the regular expression: a string is a URL
      exactly when it starts with `//`, or with some letters, `:` and `//`. */
  lemma IsURLIff(s: string, lowerOnly: bool)
    ensures IsURLWith(s, lowerOnly) <==> StartsWith(s, "//") || exists k :: SchemeAt(s, k, lowerOnly)
  {
    var n := LeadingLetters(s, lowerOnly);
    if n > 0 && StartsWith(s[n..], "://") {
      assert SchemeAt(s, n, lowerOnly);
    }
    forall k: nat | SchemeAt(s, k, lowerOnly) ensures n == k {
      assert s[k] == s[k..][0] == ':';
      assert !SchemeChar(s[k], lowerOnly);
    }
  }

  /** A path starting with `.` is not a URL. */
  lemma DotIsNotURL(t: string)
    requires |t| > 0 && t[0] == '.'
    ensures !IsURL(t)
  {
    assert !StartsWith(t, "//");
    assert LeadingLetters(t, false) == 0;
  }

  /** A URL by the case-sensitive test is a URL by the case-insensitive one. */
  lemma LowerURLIsURL(s: string)
    requires IsURLWith(s, true)
    ensures IsURL(s)
  {
    IsURLIff(s, true);
    IsURLIff(s, false);
    if !StartsWith(s, "//") {
      var k :| SchemeAt(s, k, true);
      assert SchemeAt(s, k, false);
    }
  }

  /** One call of an `each` callback: the value and its key (an index for
      array-likes, a property name for objects). */
  datatype Visit = Visit(value: Value, key: Value)

  /** `i < len` for a number `i`: `len` is converted to a number, and a
      comparison with `NaN` is false. */
  predicate Below(i: nat, len: Value) {
    match ToNumber(len)
    case Some(n) => i < n
    case None => false
  }

  /** How many times `++i < len` holds when `i` starts at -1. */
  function IndexCount(len: Value): (n: nat)
    ensures forall i: nat :: Below(i, len) <==> i < n
  {
    match ToNumber(len)
    case Some(n) => if n > 0 then n else 0
    case None => 0
  }

  /** Everything `each` visits when no callback stops it: indices
      `0 .. length - 1` when the value has a `length`, own properties in
      enumeration order otherwise. An object's `length` need not be a
      number: the comparison `++i < len` converts it. Primitives without a `length` have no own
      properties. */
  function EachEntries(v: Value): (es: seq<Visit>)
    ensures v.Arr? ==> |es| == |v.items| && forall i :: 0 <= i < |es| ==> es[i] == Visit(v.items[i], Num(i))
    ensures v.Str? ==> |es| == |v.s| && forall i :: 0 <= i < |es| ==> es[i] == Visit(Str([v.s[i]]), Num(i))
    ensures v.Obj? && GetProperty(v, "length").Undefined? ==>
      var own := OwnEntries(v);
      |es| == |own| && forall i :: 0 <= i < |es| ==> es[i] == Visit(own[i].1, Str(own[i].0))
    ensures v.Obj? && !GetProperty(v, "length").Undefined? ==>
      && (forall i: nat :: i < |es| <==> Below(i, GetProperty(v, "length")))
      && forall i :: 0 <= i < |es| ==> es[i] == Visit(GetProperty(v, NatToString(i)), Num(i))
    ensures !(v.Arr? || v.Str? || v.Obj?) ==> es == []
  {
    match v
    case Arr(items) => seq(|items|, i requires 0 <= i < |items| => Visit(items[i], Num(i)))
    case Str(s) => seq(|s|, i requires 0 <= i < |s| => Visit(Str([s[i]]), Num(i)))
    case Obj(_, _) =>
      var len := GetProperty(v, "length");
      if len.Undefined? then PropertyVisits(OwnEntries(v)) else IndexVisits(v, IndexCount(len))
    case _ => []
  }

  /** The `for-in` visits of the given own properties. */
  function PropertyVisits(own: Dict): (es: seq<Visit>)
    ensures |es| == |own| && forall i :: 0 <= i < |es| ==> es[i] == Visit(own[i].1, Str(own[i].0))
  {
    seq(|own|, i requires 0 <= i < |own| => Visit(own[i].1, Str(own[i].0)))
  }

  /** The visits of indices `0 .. n - 1` of `v`. */
  function IndexVisits(v: Value, n: nat): (es: seq<Visit>)
    ensures |es| == n && forall i :: 0 <= i < n ==> es[i] == Visit(GetProperty(v, NatToString(i)), Num(i))
  {
    seq(n, i requires 0 <= i => Visit(GetProperty(v, NatToString(i)), Num(i)))
  }

  /** An object whose `length` is a decimal string visits that many indices;
      one whose `length` is `true` visits one, and one whose `length` is
      `null`, a negated number or another object visits none. */
  lemma EachNonNumericLength(v: Value, n: nat)
    requires v.Obj?
    ensures GetProperty(v, "length") == Str(NatToString(n)) ==> |EachEntries(v)| == n
    ensures GetProperty(v, "length") == Bool(true) ==> |EachEntries(v)| == 1
    ensures var len := GetProperty(v, "length");
      len.Null? || len.Obj? || len == Num(-(n as int)) ==> EachEntries(v) == []
  {
    var len := GetProperty(v, "length");
    if !len.Undefined? {
      EachEntriesCount(v);
      if len == Str(NatToString(n)) {
        DecimalLengthCount(n);
      }
      if len.Obj? {
        ObjectIsNaN(len);
      }
    }
  }

  /** A `length` of decimal digits after a minus sign visits nothing. */
  lemma EachNegatedStringLength(v: Value, k: string)
    requires v.Obj? && |k| > 0 && AllDigits(k)
    requires GetProperty(v, "length") == Str("-" + k)
    ensures EachEntries(v) == []
  {
    EachEntriesCount(v);
    DecimalToNumber(k);
  }

  /** With a `length`, `each` visits as many indices as the loop test admits. */
  lemma EachEntriesCount(v: Value)
    requires v.Obj? && !GetProperty(v, "length").Undefined?
    ensures |EachEntries(v)| == IndexCount(GetProperty(v, "length"))
  {
    var len := GetProperty(v, "length");
    var es := EachEntries(v);
    var c := IndexCount(len);
    assert Below(c, len) <==> c < c;
    assert c > 0 ==> Below(c - 1, len);
    assert |es| > 0 ==> Below(|es| - 1, len);
    assert Below(|es|, len) <==> |es| < |es|;
  }

  /** A decimal length admits that many indices. */
  lemma DecimalLengthCount(n: nat)
    ensures IndexCount(Str(NatToString(n))) == n
  {
    NumericStringOfDecimal(n);
  }



  /** The visits up to and including the first one whose callback returns
      `false` (`stops`), or all of them. */
  function TakeUntilStop(vs: seq<Visit>, stops: Visit -> bool): (r: seq<Visit>)
    ensures |r| <= |vs| && r == vs[..|r|]
    ensures forall i :: 0 <= i < |r| - 1 ==> !stops(r[i])
    ensures |r| < |vs| ==> |r| > 0 && stops(r[|r| - 1])
  {
    if |vs| == 0 then []
    else if stops(vs[0]) then [vs[0]]
    else [vs[0]] + TakeUntilStop(vs[1..], stops)
  }

  /** The visits of `util.each(obj, callback)`: nothing for `null` and
      `undefined`. */
  function EachVisits(v: Value, stops: Visit -> bool): seq<Visit> {
    if IsNullish(v) then [] else TakeUntilStop(EachEntries(v), stops)
  }

  /** Visits that do not stop pass straight through. */
  lemma {:induction false} TakeUntilStopSkips(es: seq<Visit>, i: nat, stops: Visit -> bool)
    requires i <= |es|
    requires forall j :: 0 <= j < i ==> !stops(es[j])
    ensures TakeUntilStop(es, stops) == es[..i] + TakeUntilStop(es[i..], stops)
  {
    if i > 0 {
      var t := es[1..];
      assert TakeUntilStop(es, stops) == [es[0]] + TakeUntilStop(t, stops) by {
        assert !stops(es[0]);
      }
      forall j | 0 <= j < i - 1 ensures !stops(t[j]) {
        assert t[j] == es[j + 1];
      }
      TakeUntilStopSkips(t, i - 1, stops);
      TailSlices(es, i);
      var rest := TakeUntilStop(es[i..], stops);
      assert TakeUntilStop(t, stops) == es[1..i] + rest;
      VisitsAssoc([es[0]], es[1..i], rest);
    } else {
      assert es[..0] == [] && es[0..] == es;
    }
  }

  lemma VisitsAssoc(a: seq<Visit>, b: seq<Visit>, c: seq<Visit>)
    ensures a + (b + c) == (a + b) + c
  {
  }

  /** How the slices of a sequence's tail relate to its own. */
  lemma TailSlices(es: seq<Visit>, i: nat)
    requires 0 < i <= |es|
    ensures es[1..][..i - 1] == es[1..i] && es[1..][i - 1..] == es[i..]
    ensures [es[0]] + es[1..i] == es[..i]
  {
  }

  /** The walk ends with the first visit that stops it. */
  lemma TakeUntilStopAt(es: seq<Visit>, i: nat, stops: Visit -> bool)
    requires i < |es| && stops(es[i])
    requires forall j :: 0 <= j < i ==> !stops(es[j])
    ensures TakeUntilStop(es, stops) == es[..i + 1]
  {
    TakeUntilStopSkips(es, i, stops);
    var t := es[i..];
    assert t[0] == es[i];
    assert TakeUntilStop(t, stops) == [es[i]];
    assert es[..i + 1] == es[..i] + [es[i]];
  }

  /** A walk that nothing stops visits everything. */
  lemma TakeUntilStopAll(es: seq<Visit>, stops: Visit -> bool)
    requires forall j :: 0 <= j < |es| ==> !stops(es[j])
    ensures TakeUntilStop(es, stops) == es
  {
    TakeUntilStopSkips(es, |es|, stops);
    assert es[|es|..] == [];
    assert es[..|es|] == es;
  }

  /** The loop of `util.each` over the entries it found: one callback per
      entry, in order, until a callback returns `false`. */
  method VisitEntries(es: seq<Visit>, stops: Visit -> bool) returns (visited: seq<Visit>)
    ensures visited == TakeUntilStop(es, stops)
  {
    visited := [];
    var i := 0;
    while i < |es|
      invariant 0 <= i <= |es|
      invariant visited == es[..i]
      invariant forall j :: 0 <= j < i ==> !stops(es[j])
    {
      visited := visited + [es[i]];
      assert es[..i + 1] == es[..i] + [es[i]];
      if stops(es[i]) {
        TakeUntilStopAt(es, i, stops);
        return;
      }
      i := i + 1;
    }
    TakeUntilStopAll(es, stops);
  }

  /** `util.each(obj, callback)`: the callbacks it makes, and the value it
      returns, which is its input. */
  method Each(v: Value, stops: Visit -> bool) returns (visited: seq<Visit>, ret: Value)
    ensures visited == EachVisits(v, stops)
    ensures ret == v
  {
    visited := [];
    ret := v;
    if !IsNullish(v) {
      visited := VisitEntries(EachEntries(v), stops);
    }
  }
}

=== FILE: wrappers.dfy ===
/** Optional values and results with an error, used wherever the system
    has an `undefined`, a missing entry or an exception. */
module Wrappers {

  datatype Option<+T> = None | Some(value: T) {
    /** The value, or `default` when there is none. */
    function GetOr(default: T): T {
      match this
      case Some(v) => v
      case None => default
    }
  }

  datatype Result<+T, +E> = Ok(value: T) | Err(error: E)
}

=== FILE: xtpladapter.dfy ===
/** The XTemplate adapter of `lib/xtpl.js`: template names become normalised
    file paths with the `.xtpl` extension, templates are compiled once and
    cached, and after rendering the four asset hooks of the page are
    replaced by the markup for the asset lists the directives collected. */
module XtplAdapter {
  import opened Wrappers
  import opened Strings
  import opened NodePath
  import opened XtplCommands
  import Patterns
  import Json
  import Util
  import Config
  import JsValue

  // ---------------------------------------------------------------------
  // Template paths

  /** No two slashes in a row. */
  predicate NoDoubleSlash(s: string) {
    forall i :: 0 <= i < |s| - 1 ==> !(s[i] == '/' && s[i + 1] == '/')
  }

  /** The characters of `s` other than `/`. */
  function DropSlashes(s: string): string {
    if |s| == 0 then "" else (if s[0] == '/' then "" else [s[0]]) + DropSlashes(s[1..])
  }

  /** `s.replace(/\/{2,}/g, '/')`: every run of slashes becomes one slash. */
  function CollapseSlashes(s: string): (r: string)
    ensures |r| <= |s| && (|r| == 0 <==> |s| == 0)
    ensures |s| > 0 ==> r[0] == s[0]
    ensures NoDoubleSlash(r)
    ensures DropSlashes(r) == DropSlashes(s)
    ensures forall i :: 0 <= i < |r| ==> r[i] in s
  {
    if |s| <= 1 then s
    else
      var t := CollapseSlashes(s[1..]);
      assert forall i :: 0 <= i < |t| ==> t[i] in s by {
        forall i | 0 <= i < |t| ensures t[i] in s {
          assert t[i] in s[1..];
        }
      }
      if s[0] == '/' && s[1] == '/' then t
      else
        assert ([s[0]] + t)[1..] == t;
        [s[0]] + t
  }

  /** A string without doubled slashes is left as it is. */
  lemma {:induction false} CollapseSlashesIdentity(s: string)
    requires NoDoubleSlash(s)
    ensures CollapseSlashes(s) == s
  {
    if |s| > 1 {
      CollapseSlashesIdentity(s[1..]);
      assert [s[0]] + s[1..] == s;
    }
  }

  /** `normalizePath(srcPath)`: backslashes become slashes, slash runs
      collapse and a query is cut off. */
  function NormalizePath(s: string): (r: string)
    ensures '\\' !in r && NoDoubleSlash(r)
    ensures Patterns.StripQuery(r) == r
    ensures |s| > 0 && s[0] == '/' ==> |r| > 0 && r[0] == '/'
  {
    var a := ReplaceAllChar(s, '\\', "/");
    ReplaceAllCharHead(s, '\\', "/");
    var b := CollapseSlashes(a);
    var r := Patterns.StripQuery(b);
    Patterns.StripQueryIdempotent(b);
    assert forall i :: 0 <= i < |r| ==> r[i] == b[i];
    r
  }

  /** The first character survives replacing another character. */
  lemma ReplaceAllCharHead(s: string, c: char, t: string)
    ensures |s| > 0 && s[0] != c ==> |ReplaceAllChar(s, c, t)| > 0 && ReplaceAllChar(s, c, t)[0] == s[0]
  {
  }

  /** Normalising a normalised path changes nothing. */
  lemma NormalizePathIdempotent(s: string)
    ensures NormalizePath(NormalizePath(s)) == NormalizePath(s)
  {
    var r := NormalizePath(s);
    assert ReplaceAllChar(r, '\\', "/") == r;
    CollapseSlashesIdentity(r);
  }

  const DefaultExtname := ".xtpl"

  /** `fixExtname(srcPath)`: `.xtpl` is added when the path has no extension
      or the extension `.page`. */
  function FixExtname(p: string): (r: string)
    ensures r == p + DefaultExtname <==> Extname(p) == "" || Extname(p) == ".page"
    ensures r == p || r == p + DefaultExtname
  {
    if Extname(p) == "" || Extname(p) == ".page" then p + DefaultExtname else p
  }

  /** After `fixExtname` a path whose last segment is not empty has an
      extension other than `.page`, so a second `fixExtname` keeps it. */
  lemma FixExtnameIdempotent(p: string)
    requires LastSegment(p) != ""
    ensures var e := Extname(FixExtname(p)); e != "" && e != ".page"
    ensures FixExtname(FixExtname(p)) == FixExtname(p)
  {
    if Extname(p) == "" || Extname(p) == ".page" {
      var q := p + DefaultExtname;
      assert Extname(q) == DefaultExtname by {
        assert '.' !in "xtpl" && "." + "xtpl" == DefaultExtname;
        ConcatAssoc(p, ".", "xtpl");
        ExtnameOfAppended(p, "xtpl");
      }
      assert FixExtname(p) == q;
    }
  }

  /** A path without an extension gains the default one. */
  lemma FixExtnameAdds(p: string)
    requires Extname(p) == ""
    ensures FixExtname(p) == p + DefaultExtname
  {
  }

  /** The empty path has no extension. */
  lemma ExtnameOfEmptyPath()
    ensures Extname("") == ""
  {
    assert StripTrailingSlashes("") == "";
    assert Split("", '/') == [""];
    assert Basename("") == "";
  }

  /** The path `.xtpl` has no extension: its only dot leads its name. */
  lemma ExtnameOfDotXtpl()
    ensures Extname(DefaultExtname) == ""
  {
    var s := DefaultExtname;
    assert StripTrailingSlashes(s) == s by {
      assert s[|s| - 1] == 'l';
    }
    assert Split(s, '/') == [s] by {
      SplitNoSeparator(s, '/');
    }
    assert Basename(s) == s;
    var r := LastIndexOf(s, '.');
    assert r == Some(0) by {
      assert s[0] == '.';
      assert forall i :: 1 <= i < |s| ==> s[i] != '.';
    }
  }

  /** The path `.xtpl` has no extension (its only dot leads its name), so
      the empty path is the one that gains the extension twice. */
  lemma FixExtnameOfEmpty()
    ensures FixExtname("") == ".xtpl" && FixExtname(FixExtname("")) == ".xtpl.xtpl"
  {
    assert FixExtname("") == "" + DefaultExtname by {
      ExtnameOfEmptyPath();
      FixExtnameAdds("");
    }
    assert "" + DefaultExtname == DefaultExtname;
    assert FixExtname(DefaultExtname) == DefaultExtname + DefaultExtname by {
      ExtnameOfDotXtpl();
      FixExtnameAdds(DefaultExtname);
    }
  }

  /** Whether a name taken by `extend`, `parse` or `include` is relative to
      the including template (`originalName[0] === '.'`). */
  predicate DotName(originalName: string) {
    |originalName| > 0 && originalName[0] == '.'
  }

  /** `loader.load`: the normalised name, joined onto the root unless it was
      written with a leading `.` (then XTemplate already resolved it), with
      the default extension. */
  function LoaderPath(rootPath: string, name: string, originalName: string): (r: string)
    ensures DotName(originalName) ==> StartsWith(r, NormalizePath(name))
    ensures !DotName(originalName) && IsAbsolute(rootPath) ==> IsAbsolute(r)
    ensures var full := if DotName(originalName) then NormalizePath(name) else JoinPaths(rootPath, NormalizePath(name));
      (r == full || r == full + DefaultExtname)
      && (r == full + DefaultExtname <==> Extname(full) == "" || Extname(full) == ".page")
  {
    var n := NormalizePath(name);
    var full := if DotName(originalName) then n else JoinPaths(rootPath, n);
    FixExtname(full)
  }

  /** A name without `.` in front and without `..` loads the file that lies
      under the root at the name's normalised segments. */
  lemma LoaderPathUnderRoot(cwd: string, rootPath: string, name: string, originalName: string)
    requires IsAbsolute(rootPath) && !DotName(originalName)
    requires ".." !in Split(NormalizePath(name), '/')
    ensures var j := JoinPaths(rootPath, NormalizePath(name));
      StartsWith(LoaderPath(rootPath, name, originalName), j)
      && (LoaderPath(rootPath, name, originalName) == j + DefaultExtname <==> Extname(j) == "" || Extname(j) == ".page")
      && Relative(cwd, rootPath, j) == Join(Kept(Split(NormalizePath(name), '/')), "/")
  {
    RelativeOfJoin(cwd, rootPath, NormalizePath(name));
  }

  /** The path `XTplView` gives Express for a view name. */
  function ViewPath(cwd: string, rootPath: string, name: string): (r: string)
    ensures IsAbsolute(r) && '\\' !in r && NoDoubleSlash(r)
  {
    var n := NormalizePath(Resolve2(cwd, rootPath, name));
    assert IsAbsolute(n) && '\\' !in n && NoDoubleSlash(n);
    var r := FixExtname(n);
    assert IsAbsolute(r) && '\\' !in r && NoDoubleSlash(r) by {
      if r != n {
        DefaultExtnameClean();
        NormalAppend(n, DefaultExtname);
        assert r[0] == n[0];
      }
    }
    r
  }

  /** The default extension holds one dot and no slash or backslash. */
  lemma DefaultExtnameClean()
    ensures '\\' !in DefaultExtname && NoDoubleSlash(DefaultExtname) && DefaultExtname[0] != '/'
  {
    var e := DefaultExtname;
    forall i | 0 <= i < |e| ensures e[i] != '/' && e[i] != '\\' {
      assert e[i] in {'.', 'x', 't', 'p', 'l'};
    }
  }

  /** A view name made of plain segments (none empty, `.` or `..`, no
      backslash and no `?`) under a root without backslash or `?` names the
      file at that name below the root, with `.xtpl` added exactly when
      `fixExtname` adds it to the name itself: when its extension is empty or
      `.page`. */
  lemma ViewPathUnderRoot(cwd: string, rootPath: string, name: string)
    requires IsAbsolute(rootPath) && '\\' !in rootPath && '?' !in rootPath
    requires AllRegular(Split(name, '/')) && '\\' !in name && '?' !in name
    ensures Relative(cwd, rootPath, ViewPath(cwd, rootPath, name)) == FixExtname(name)
  {
    ViewPathResolved(cwd, rootPath, name);
    ViewPathFixed(cwd, rootPath, name);
  }

  /** Under the root, `fixExtname` of the joined segments is `fixExtname` of
      the name. */
  lemma ViewPathFixed(cwd: string, rootPath: string, name: string)
    requires IsAbsolute(rootPath) && AllRegular(Split(name, '/'))
    requires AllRegular(NormalSegments(rootPath, false) + Split(name, '/'))
    ensures var t := NormalSegments(rootPath, false) + Split(name, '/');
      Relative(cwd, rootPath, FixExtname("/" + Join(t, "/"))) == FixExtname(name)
  {
    var r := NormalSegments(rootPath, false);
    var t := r + Split(name, '/');
    var p := "/" + Join(t, "/");
    assert AllRegular(r) by {
      forall i | 0 <= i < |r| ensures Regular(r[i]) {
        assert r[i] == t[i];
      }
    }
    ViewExtname(r, Split(name, '/'), name);
    if Extname(name) == "" || Extname(name) == ".page" {
      assert FixExtname(p) == p + DefaultExtname;
      ViewPathExtended(cwd, rootPath, name);
    } else {
      assert FixExtname(p) == p;
      ViewPathKept(cwd, rootPath, name);
    }
  }

  /** The view path of a plain name is the joined root and name segments with
      `fixExtname` applied. */
  lemma ViewPathResolved(cwd: string, rootPath: string, name: string)
    requires IsAbsolute(rootPath) && '\\' !in rootPath && '?' !in rootPath
    requires AllRegular(Split(name, '/')) && '\\' !in name && '?' !in name
    ensures var t := NormalSegments(rootPath, false) + Split(name, '/');
      && AllRegular(t)
      && ViewPath(cwd, rootPath, name) == FixExtname("/" + Join(t, "/"))
  {
    var t := NormalSegments(rootPath, false) + Split(name, '/');
    ResolveRegular(cwd, rootPath, name);
    ViewSegmentsClean(rootPath, name);
    CleanPathNormal(t);
  }

  /** Without `.xtpl` added, the view path is the name below the root. */
  lemma ViewPathKept(cwd: string, rootPath: string, name: string)
    requires IsAbsolute(rootPath) && AllRegular(Split(name, '/'))
    ensures var t := NormalSegments(rootPath, false) + Split(name, '/');
      Relative(cwd, rootPath, "/" + Join(t, "/")) == name
  {
    RelativeOfRegular(cwd, rootPath, Split(name, '/'));
    NameOfSegments(name);
  }

  /** A name is the join of its `/`-segments. */
  lemma NameOfSegments(name: string)
    ensures Join(Split(name, '/'), "/") == name
  {
    JoinSplit(name, '/');
    assert ['/'] == "/";
  }

  /** The root's segments followed by the name's are regular and hold no
      backslash and no `?`. */
  lemma ViewSegmentsClean(rootPath: string, name: string)
    requires IsAbsolute(rootPath) && '\\' !in rootPath && '?' !in rootPath
    requires AllRegular(Split(name, '/')) && '\\' !in name && '?' !in name
    ensures var t := NormalSegments(rootPath, false) + Split(name, '/');
      AllRegular(t) && forall i :: 0 <= i < |t| ==> '\\' !in t[i] && '?' !in t[i]
  {
    var parts := Split(rootPath, '/');
    var r := NormalSegments(rootPath, false);
    var segs := Split(name, '/');
    FoldAbsoluteRegular([], parts);
    FoldMembers([], parts);
    SplitAvoids(rootPath, '/', '\\');
    SplitAvoids(rootPath, '/', '?');
    SplitAvoids(name, '/', '\\');
    SplitAvoids(name, '/', '?');
    forall i | 0 <= i < |r| ensures '\\' !in r[i] && '?' !in r[i] {
      assert r[i] in r;
      var j :| 0 <= j < |parts| && parts[j] == r[i];
    }
  }

  /** The resolved path has the name's extension. */
  lemma ViewExtname(r: seq<string>, segs: seq<string>, name: string)
    requires segs == Split(name, '/') && AllRegular(r + segs) && AllRegular(segs)
    ensures Extname("/" + Join(r + segs, "/")) == Extname(name)
  {
    BasenameOfRegularJoin(r + segs);
    BasenameOfRegularJoin(segs);
    NameOfSegments(name);
    assert (r + segs)[|r + segs| - 1] == segs[|segs| - 1];
  }

  /** With `.xtpl` added, the view path is the extended name below the root. */
  lemma ViewPathExtended(cwd: string, rootPath: string, name: string)
    requires IsAbsolute(rootPath) && AllRegular(Split(name, '/'))
    requires AllRegular(NormalSegments(rootPath, false))
    ensures var t := NormalSegments(rootPath, false) + Split(name, '/');
      Relative(cwd, rootPath, "/" + Join(t, "/") + DefaultExtname) == name + DefaultExtname
  {
    var r := NormalSegments(rootPath, false);
    var segs := Split(name, '/');
    var t := r + segs;
    var e := DefaultExtname;
    var segs' := segs[..|segs| - 1] + [segs[|segs| - 1] + e];
    assert t[..|t| - 1] + [t[|t| - 1] + e] == r + segs';
    assert Join(r + segs', "/") == Join(t, "/") + e by {
      JoinExtendLast(t, e, "/");
    }
    assert "/" + Join(t, "/") + e == "/" + Join(r + segs', "/") by {
      ConcatAssoc("/", Join(t, "/"), e);
    }
    assert AllRegular(segs') by {
      ExtendedRegular(segs[|segs| - 1]);
    }
    RelativeOfRegular(cwd, rootPath, segs');
    assert Join(segs', "/") == name + e by {
      JoinExtendLast(segs, e, "/");
      NameOfSegments(name);
    }
  }

  /** A regular segment with `.xtpl` appended is regular. */
  lemma ExtendedRegular(x: string)
    requires Regular(x)
    ensures Regular(x + DefaultExtname)
  {
    var e := DefaultExtname;
    forall i | 0 <= i < |e| ensures e[i] != '/' {
      assert e[i] in {'.', 'x', 't', 'p', 'l'};
    }
    assert '/' !in e;
  }

  /** A path spelled by `/` and regular segments without backslash or `?`
      is already normal. */
  lemma CleanPathNormal(t: seq<string>)
    requires AllRegular(t) && forall i :: 0 <= i < |t| ==> '\\' !in t[i] && '?' !in t[i]
    ensures NormalizePath("/" + Join(t, "/")) == "/" + Join(t, "/")
  {
    var p := "/" + Join(t, "/");
    JoinAvoids(t, "/", '\\');
    JoinAvoids(t, "/", '?');
    RegularJoinNoDoubleSlash(t);
    NormalIdentity(p);
  }

  /** A path without backslash, `?` or doubled slash is its own normal form. */
  lemma NormalIdentity(p: string)
    requires '\\' !in p && '?' !in p && NoDoubleSlash(p)
    ensures NormalizePath(p) == p
  {
    assert ReplaceAllChar(p, '\\', "/") == p;
    CollapseSlashesIdentity(p);
    StripQueryNoQuery(p);
  }

  /** Without a `?` there is no query to strip. */
  lemma StripQueryNoQuery(p: string)
    requires '?' !in p
    ensures Patterns.StripQuery(p) == p
  {
  }

  /** `/` followed by regular segments joined by `/` has no doubled slash. */
  lemma {:induction false} RegularJoinNoDoubleSlash(t: seq<string>)
    requires AllRegular(t)
    ensures NoDoubleSlash("/" + Join(t, "/"))
    decreases |t|
  {
    if |t| > 0 {
      var a := "/" + t[0];
      assert NoDoubleSlash(a) by {
        forall i | 0 <= i < |t[0]| ensures t[0][i] != '/' {
          assert t[0][i] in t[0];
        }
      }
      if |t| > 1 {
        RegularJoinNoDoubleSlash(t[1..]);
        assert a[|a| - 1] == t[0][|t[0]| - 1] && t[0][|t[0]| - 1] in t[0];
        NoDoubleSlashConcat(a, "/" + Join(t[1..], "/"));
        assert "/" + Join(t, "/") == a + ("/" + Join(t[1..], "/"));
      }
    }
  }

  /** Two pieces without doubled slashes that do not meet in `//` make one. */
  lemma NoDoubleSlashConcat(a: string, b: string)
    requires NoDoubleSlash(a) && NoDoubleSlash(b)
    requires !(|a| > 0 && |b| > 0 && a[|a| - 1] == '/' && b[0] == '/')
    ensures NoDoubleSlash(a + b)
  {
    var s := a + b;
    forall i | 0 <= i < |s| - 1 ensures !(s[i] == '/' && s[i + 1] == '/') {
      if i + 1 < |a| {
        assert s[i] == a[i] && s[i + 1] == a[i + 1];
      } else if i + 1 == |a| {
        assert s[i] == a[i] && s[i + 1] == b[0];
      } else {
        assert s[i] == b[i - |a|] && s[i + 1] == b[i + 1 - |a|];
      }
    }
  }

  /** Appending a suffix that does not start with `/` keeps a path free of
      backslashes and doubled slashes. */
  lemma NormalAppend(n: string, e: string)
    requires '\\' !in n && NoDoubleSlash(n)
    requires '\\' !in e && NoDoubleSlash(e) && (|e| > 0 ==> e[0] != '/')
    ensures '\\' !in n + e && NoDoubleSlash(n + e)
  {
    var s := n + e;
    forall i | 0 <= i < |s| - 1 ensures !(s[i] == '/' && s[i + 1] == '/') {
      if i + 1 < |n| {
        assert s[i] == n[i] && s[i + 1] == n[i + 1];
      } else if i + 1 == |n| {
        assert s[i + 1] == e[0];
      } else {
        assert s[i] == e[i - |n|] && s[i + 1] == e[i + 1 - |n|];
      }
    }
  }

  // ---------------------------------------------------------------------
  // Shortened asset URLs

  /** What `shortenURL` reads from the adapter's configuration. */
  datatype Site = Site(cwd: string, rootPath: string, rootDirname: string, manifest: bool)

  /** `shortenURL(url, addDirname)`: a URL as it is; a file path relative to
      the root, under `/<rootDirname>/` when asked. */
  function ShortenURL(site: Site, url: string, addDirname: bool): (r: string)
    ensures Util.IsURL(url) ==> r == url
    ensures !Util.IsURL(url) && addDirname ==> StartsWith(r, "/" + site.rootDirname + "/")
  {
    if Util.IsURL(url) then url
    else
      var rel := Relative(site.cwd, site.rootPath, url);
      if addDirname then "/" + site.rootDirname + "/" + rel else rel
  }

  /** An absolute path never reads as a URL. */
  lemma AbsoluteNotURL(p: string)
    requires IsAbsolute(p) && !StartsWith(p, "//")
    ensures !Util.IsURL(p)
  {
    assert Util.LeadingLetters(p, false) == 0;
  }

  /** Shortening undoes joining onto the root: a path without `..` joined
      onto the root comes back as its normalised segments. */
  lemma ShortenOfJoin(site: Site, x: string, addDirname: bool)
    requires IsAbsolute(site.rootPath)
    requires ".." !in Split(x, '/')
    ensures ShortenURL(site, JoinPaths(site.rootPath, x), addDirname)
      == (if addDirname then "/" + site.rootDirname + "/" else "") + Join(Kept(Split(x, '/')), "/")
  {
    var joined := Joined(site.rootPath, x);
    assert JoinPaths(site.rootPath, x) == Normalize(joined);
    NormalizeSingleLeadingSlash(joined);
    AbsoluteNotURL(JoinPaths(site.rootPath, x));
    RelativeOfJoin(site.cwd, site.rootPath, x);
  }

  // ---------------------------------------------------------------------
  // The asset hooks

  const CssHook := "<!-- CSS Hook -->"
  const JsHook := "<!-- JS Hook -->"
  const ModjsHook := "<!-- Modjs Hook -->"
  const InlineModjsHook := "<!-- InlineModjs Hook -->"

  /** One entry of `inlineModjsList`: the modules a script needs and the
      source text of the function that receives them. */
  datatype InlineModjs = InlineModjs(deps: seq<string>, fn: string)

  /** The page data the hooks read: the lists the directives filled (a list
      is there once a directive created it, and an array is truthy even when
      empty) and `inlineModjsList`. */
  datatype ViewData = ViewData(lists: AssetLists, inlineModjs: Option<seq<InlineModjs>>)

  /** The shortened URLs of a list, in order. An inline entry left by a
      block-form directive is an object, and `path.relative` throws on it. */
  function ShortenEntries(site: Site, entries: seq<AssetEntry>, addDirname: bool): (r: Result<seq<string>, string>)
    ensures r.Ok? <==> AllPaths(entries)
    ensures r.Ok? ==> |r.value| == |entries|
    ensures r.Ok? ==> forall i :: 0 <= i < |entries| ==> r.value[i] == ShortenURL(site, entries[i].path, addDirname)
  {
    if |entries| == 0 then Ok([])
    else
      assert forall i :: 1 <= i < |entries| ==> entries[1..][i - 1] == entries[i];
      match entries[0]
      case Inline(_, _) => Err("TypeError: Path must be a string")
      case Path(p) =>
        match ShortenEntries(site, entries[1..], addDirname)
        case Err(e) => Err(e)
        case Ok(rest) => Ok([ShortenURL(site, p, addDirname)] + rest)
  }

  /** `deps.map(shortenURL)`: `map` passes the index as the second argument,
      which is never `true`, so no directory name is added. */
  function ShortenDeps(site: Site, deps: seq<string>): (us: seq<string>)
    ensures |us| == |deps| && forall i :: 0 <= i < |deps| ==> us[i] == ShortenURL(site, deps[i], false)
  {
    seq(|deps|, i requires 0 <= i < |deps| => ShortenURL(site, deps[i], false))
  }

  /** Each string of `xs` put through `f`. */
  function MapStrings(xs: seq<string>, f: string -> string): (ys: seq<string>)
    ensures |ys| == |xs| && forall i :: 0 <= i < |xs| ==> ys[i] == f(xs[i])
  {
    seq(|xs|, i requires 0 <= i < |xs| => f(xs[i]))
  }

  /** A stylesheet written from the bundled `cssFiles` table. */
  function CssWrite(href: string): string {
    "document.write(\"<style>\" + cssFiles[" + Json.Quote(href) + "] + \"</style>\");"
  }

  function CssLink(href: string): string {
    "<link rel=\"stylesheet\" href=\"" + href + "\" />"
  }

  /** A script run from the bundled `jsFiles` table. */
  function JsCall(src: string): string {
    "jsFiles[" + Json.Quote(src) + "](window);"
  }

  function JsTag(src: string): string {
    "<script src=\"" + src + "\"></script>"
  }

  function ModjsMarkup(urls: seq<string>): string {
    "<script>require(" + Json.QuoteList(urls) + ");</script>"
  }

  function InlineModjsMarkup(urls: seq<string>, fn: string): string {
    "<script>require(" + Json.QuoteList(urls) + ", " + fn + ");</script>"
  }

  /** Whether every entry of a list is a path, none an inline block. */
  predicate AllPaths(entries: seq<AssetEntry>) {
    forall i :: 0 <= i < |entries| ==> entries[i].Path?
  }

  /** The markup `item` makes of each shortened entry, joined by `sep`. */
  function EachEntry(site: Site, entries: seq<AssetEntry>, addDirname: bool, item: string -> string, sep: string): string
    requires AllPaths(entries)
  {
    Join(seq(|entries|, i requires 0 <= i < |entries| && entries[i].Path? => item(ShortenURL(site, entries[i].path, addDirname))), sep)
  }

  /** Mapping the shortened list is shortening each entry and mapping it. */
  lemma MapShortened(site: Site, entries: seq<AssetEntry>, addDirname: bool, item: string -> string, sep: string)
    requires AllPaths(entries)
    ensures ShortenEntries(site, entries, addDirname).Ok?
    ensures Join(MapStrings(ShortenEntries(site, entries, addDirname).value, item), sep) == EachEntry(site, entries, addDirname, item, sep)
  {
    var us := ShortenEntries(site, entries, addDirname).value;
    assert MapStrings(us, item) == seq(|entries|, i requires 0 <= i < |entries| && entries[i].Path? => item(ShortenURL(site, entries[i].path, addDirname)));
  }

  /** What replaces the CSS hook: with an asset configuration a script that
      writes each bundled stylesheet, one per line, looked up under its path
      relative to the root; without, one `<link>` per stylesheet under the
      root's directory name. */
  function CssMarkup(site: Site, entries: seq<AssetEntry>): (r: Result<string, string>)
    ensures r.Ok? <==> AllPaths(entries)
    ensures r.Ok? && site.manifest ==> r.value == "<script>" + EachEntry(site, entries, false, CssWrite, "\n") + "</script>"
    ensures r.Ok? && !site.manifest ==> r.value == EachEntry(site, entries, true, CssLink, "")
  {
    match ShortenEntries(site, entries, !site.manifest)
    case Err(e) => Err(e)
    case Ok(us) =>
      MapShortened(site, entries, !site.manifest, if site.manifest then CssWrite else CssLink, if site.manifest then "\n" else "");
      if site.manifest then Ok("<script>" + Join(MapStrings(us, CssWrite), "\n") + "</script>")
      else Ok(Join(MapStrings(us, CssLink), ""))
  }

  /** What replaces the JS hook: with an asset configuration a script that
      runs each bundled script on `window`, one per line; without, one
      `<script src>` per script under the root's directory name. */
  function JsMarkup(site: Site, entries: seq<AssetEntry>): (r: Result<string, string>)
    ensures r.Ok? <==> AllPaths(entries)
    ensures r.Ok? && site.manifest ==> r.value == "<script>" + EachEntry(site, entries, false, JsCall, "\n") + "</script>"
    ensures r.Ok? && !site.manifest ==> r.value == EachEntry(site, entries, true, JsTag, "")
  {
    match ShortenEntries(site, entries, !site.manifest)
    case Err(e) => Err(e)
    case Ok(us) =>
      MapShortened(site, entries, !site.manifest, if site.manifest then JsCall else JsTag, if site.manifest then "\n" else "");
      if site.manifest then Ok("<script>" + Join(MapStrings(us, JsCall), "\n") + "</script>")
      else Ok(Join(MapStrings(us, JsTag), ""))
  }

  /** What replaces the Modjs hook: one `require` of every module. */
  function ModjsListMarkup(site: Site, entries: seq<AssetEntry>): (r: Result<string, string>)
    ensures r.Ok? <==> AllPaths(entries)
  {
    match ShortenEntries(site, entries, false)
    case Err(e) => Err(e)
    case Ok(us) => Ok(ModjsMarkup(us))
  }

  /** What replaces the InlineModjs hook: one `require` per inline script. */
  function InlineListMarkup(site: Site, items: seq<InlineModjs>): string {
    Join(seq(|items|, i requires 0 <= i < |items| => InlineModjsMarkup(ShortenDeps(site, items[i].deps), items[i].fn)), "")
  }

  /** One hook: replaced by its markup when the list is there. */
  function ApplyHook(html: string, present: bool, hook: string, markup: Result<string, string>): (r: Result<string, string>)
    ensures !present ==> r == Ok(html)
    ensures present && markup.Err? ==> r == Err(markup.error)
    ensures present && markup.Ok? && IndexOf(html, hook).None? ==> r == Ok(html)
    ensures present && markup.Ok? ==> r == Ok(ReplaceFirst(html, hook, markup.value))
  {
    if !present then Ok(html)
    else match markup
      case Err(e) => Err(e)
      case Ok(m) => Ok(ReplaceFirst(html, hook, m))
  }

  /** Whether the page collected nothing any hook shows. */
  predicate NothingToShow(data: ViewData) {
    "cssList" !in data.lists && "jsList" !in data.lists && "modjsList" !in data.lists && data.inlineModjs.None?
  }

  /** `render(tplPath, data, callback)` after XTemplate produced `result`:
      an error passes through; otherwise the CSS, JS, Modjs and InlineModjs
      hooks are replaced in turn (the `headjsList` is not shown). */
  function Render(site: Site, result: Result<string, string>, data: ViewData): (r: Result<string, string>)
    ensures result.Err? ==> r == result
    ensures result.Ok? && NothingToShow(data) ==> r == result
    ensures result.Ok? && "cssList" in data.lists && !AllPaths(data.lists["cssList"]) ==> r.Err?
    ensures result.Ok? && "jsList" in data.lists && !AllPaths(data.lists["jsList"]) ==> r.Err?
    ensures result.Ok? && "modjsList" in data.lists && !AllPaths(data.lists["modjsList"]) ==> r.Err?
  {
    match result
    case Err(_) => result
    case Ok(html) =>
      var lists := data.lists;
      match ApplyHook(html, "cssList" in lists, CssHook, CssMarkup(site, ListOf(lists, "cssList")))
      case Err(e) => Err(e)
      case Ok(h1) =>
        match ApplyHook(h1, "jsList" in lists, JsHook, JsMarkup(site, ListOf(lists, "jsList")))
        case Err(e) => Err(e)
        case Ok(h2) =>
          match ApplyHook(h2, "modjsList" in lists, ModjsHook, ModjsListMarkup(site, ListOf(lists, "modjsList")))
          case Err(e) => Err(e)
          case Ok(h3) =>
            match data.inlineModjs
            case None => Ok(h3)
            case Some(items) => Ok(ReplaceFirst(h3, InlineModjsHook, InlineListMarkup(site, items)))
  }

  /** The Modjs markup hands `require` exactly the shortened URLs: its array
      parses back to them. */
  lemma ModjsMarkupRoundTrip(urls: seq<string>)
    ensures var m := ModjsMarkup(urls);
      StartsWith(m, "<script>require(") && Json.ParseList(m[16..]) == Some((urls, ");</script>"))
  {
    var pre := "<script>require(";
    var q := Json.QuoteList(urls) + ");</script>";
    assert ModjsMarkup(urls) == pre + q by {
      ConcatAssoc(pre, Json.QuoteList(urls), ");</script>");
    }
    StartsWithPrepended(pre, q);
    Json.ParseQuoteList(urls, ");</script>");
  }

  /** A page whose only list is `modjsList` gets the Modjs hook, at its
      first occurrence, replaced by one `require` of the modules. */
  lemma RenderModjsOnly(site: Site, a: string, b: string, entries: seq<AssetEntry>)
    requires IndexOf(a + ModjsHook[..|ModjsHook| - 1], ModjsHook).None?
    requires AllPaths(entries)
    ensures var us := ShortenEntries(site, entries, false).value;
      '$' !in ModjsMarkup(us) ==>
        Render(site, Ok(a + ModjsHook + b), ViewData(map["modjsList" := entries], None)) == Ok(a + ModjsMarkup(us) + b)
  {
    var us := ShortenEntries(site, entries, false).value;
    ReplaceFirstAt(a, ModjsHook, b, ModjsMarkup(us));
  }

  /** Without an asset configuration, stylesheets joined onto the root are
      linked under the root's directory name at their normalised segments. */
  lemma DevCssLinks(site: Site, xs: seq<string>)
    requires IsAbsolute(site.rootPath) && !site.manifest
    requires forall i :: 0 <= i < |xs| ==> ".." !in Split(xs[i], '/')
    ensures var entries := seq(|xs|, i requires 0 <= i < |xs| => Path(JoinPaths(site.rootPath, xs[i])));
      CssMarkup(site, entries) == Ok(Join(seq(|xs|, i requires 0 <= i < |xs| =>
        CssLink("/" + site.rootDirname + "/" + Join(Kept(Split(xs[i], '/')), "/"))), ""))
  {
    var entries := seq(|xs|, i requires 0 <= i < |xs| => Path(JoinPaths(site.rootPath, xs[i])));
    var us := ShortenEntries(site, entries, true).value;
    forall i | 0 <= i < |xs|
      ensures us[i] == "/" + site.rootDirname + "/" + Join(Kept(Split(xs[i], '/')), "/")
    {
      ShortenOfJoin(site, xs[i], true);
    }
    assert MapStrings(us, CssLink) == seq(|xs|, i requires 0 <= i < |xs| =>
        CssLink("/" + site.rootDirname + "/" + Join(Kept(Split(xs[i], '/')), "/")));
  }

  /** Without an asset configuration, scripts joined onto the root are
      loaded from under the root's directory name at their normalised
      segments. */
  lemma DevJsTags(site: Site, xs: seq<string>)
    requires IsAbsolute(site.rootPath) && !site.manifest
    requires forall i :: 0 <= i < |xs| ==> ".." !in Split(xs[i], '/')
    ensures var entries := seq(|xs|, i requires 0 <= i < |xs| => Path(JoinPaths(site.rootPath, xs[i])));
      JsMarkup(site, entries) == Ok(Join(seq(|xs|, i requires 0 <= i < |xs| =>
        JsTag("/" + site.rootDirname + "/" + Join(Kept(Split(xs[i], '/')), "/"))), ""))
  {
    var entries := seq(|xs|, i requires 0 <= i < |xs| => Path(JoinPaths(site.rootPath, xs[i])));
    var us := ShortenEntries(site, entries, true).value;
    forall i | 0 <= i < |xs|
      ensures us[i] == "/" + site.rootDirname + "/" + Join(Kept(Split(xs[i], '/')), "/")
    {
      ShortenOfJoin(site, xs[i], true);
    }
    assert MapStrings(us, JsTag) == seq(|xs|, i requires 0 <= i < |xs| =>
        JsTag("/" + site.rootDirname + "/" + Join(Kept(Split(xs[i], '/')), "/")));
  }

  /** With an asset configuration, stylesheets joined onto the root are
      written from `cssFiles` under their normalised segments, one line each. */
  lemma ManifestCssWrites(site: Site, xs: seq<string>)
    requires IsAbsolute(site.rootPath) && site.manifest
    requires forall i :: 0 <= i < |xs| ==> ".." !in Split(xs[i], '/')
    ensures var entries := seq(|xs|, i requires 0 <= i < |xs| => Path(JoinPaths(site.rootPath, xs[i])));
      CssMarkup(site, entries) == Ok("<script>" + Join(seq(|xs|, i requires 0 <= i < |xs| =>
        CssWrite(Join(Kept(Split(xs[i], '/')), "/"))), "\n") + "</script>")
  {
    var entries := seq(|xs|, i requires 0 <= i < |xs| => Path(JoinPaths(site.rootPath, xs[i])));
    var us := ShortenEntries(site, entries, false).value;
    forall i | 0 <= i < |xs|
      ensures us[i] == Join(Kept(Split(xs[i], '/')), "/")
    {
      ShortenOfJoin(site, xs[i], false);
    }
    assert MapStrings(us, CssWrite) == seq(|xs|, i requires 0 <= i < |xs| =>
        CssWrite(Join(Kept(Split(xs[i], '/')), "/")));
  }

  /** With an asset configuration, scripts joined onto the root are run from
      `jsFiles` under their normalised segments, one line each. */
  lemma ManifestJsCalls(site: Site, xs: seq<string>)
    requires IsAbsolute(site.rootPath) && site.manifest
    requires forall i :: 0 <= i < |xs| ==> ".." !in Split(xs[i], '/')
    ensures var entries := seq(|xs|, i requires 0 <= i < |xs| => Path(JoinPaths(site.rootPath, xs[i])));
      JsMarkup(site, entries) == Ok("<script>" + Join(seq(|xs|, i requires 0 <= i < |xs| =>
        JsCall(Join(Kept(Split(xs[i], '/')), "/"))), "\n") + "</script>")
  {
    var entries := seq(|xs|, i requires 0 <= i < |xs| => Path(JoinPaths(site.rootPath, xs[i])));
    var us := ShortenEntries(site, entries, false).value;
    forall i | 0 <= i < |xs|
      ensures us[i] == Join(Kept(Split(xs[i], '/')), "/")
    {
      ShortenOfJoin(site, xs[i], false);
    }
    assert MapStrings(us, JsCall) == seq(|xs|, i requires 0 <= i < |xs| =>
        JsCall(Join(Kept(Split(xs[i], '/')), "/")));
  }

  /** The key a written stylesheet is looked up under is the quoted path:
      it parses back from the line, whatever the path contains. */
  lemma CssWriteReadsBack(href: string)
    ensures var pre := "document.write(\"<style>\" + cssFiles[";
      var w := CssWrite(href);
      StartsWith(w, pre) && Json.ParseString(w[|pre|..]) == Some((href, "] + \"</style>\");"))
  {
    var pre := "document.write(\"<style>\" + cssFiles[";
    var post := "] + \"</style>\");";
    assert CssWrite(href) == pre + (Json.Quote(href) + post) by {
      ConcatAssoc(pre, Json.Quote(href), post);
    }
    StartsWithPrepended(pre, Json.Quote(href) + post);
    Json.ParseQuote(href, post);
  }

  /** The key a bundled script is run under is the quoted path: it parses
      back from the line, whatever the path contains. */
  lemma JsCallReadsBack(src: string)
    ensures var pre := "jsFiles[";
      var w := JsCall(src);
      StartsWith(w, pre) && Json.ParseString(w[|pre|..]) == Some((src, "](window);"))
  {
    var pre := "jsFiles[";
    var post := "](window);";
    assert JsCall(src) == pre + (Json.Quote(src) + post) by {
      ConcatAssoc(pre, Json.Quote(src), post);
    }
    StartsWithPrepended(pre, Json.Quote(src) + post);
    Json.ParseQuote(src, post);
  }

  /** A page whose only list is `cssList` gets the CSS hook, at its first
      occurrence, replaced by the stylesheet markup. */
  lemma RenderCssOnly(site: Site, a: string, b: string, entries: seq<AssetEntry>)
    requires IndexOf(a + CssHook[..|CssHook| - 1], CssHook).None?
    requires AllPaths(entries)
    ensures var m := CssMarkup(site, entries).value;
      '$' !in m ==> Render(site, Ok(a + CssHook + b), ViewData(map["cssList" := entries], None)) == Ok(a + m + b)
  {
    ReplaceFirstAt(a, CssHook, b, CssMarkup(site, entries).value);
  }

  /** A page whose only list is `jsList` gets the JS hook, at its first
      occurrence, replaced by the script markup. */
  lemma RenderJsOnly(site: Site, a: string, b: string, entries: seq<AssetEntry>)
    requires IndexOf(a + JsHook[..|JsHook| - 1], JsHook).None?
    requires AllPaths(entries)
    ensures var m := JsMarkup(site, entries).value;
      '$' !in m ==> Render(site, Ok(a + JsHook + b), ViewData(map["jsList" := entries], None)) == Ok(a + m + b)
  {
    ReplaceFirstAt(a, JsHook, b, JsMarkup(site, entries).value);
  }

  // ---------------------------------------------------------------------
  // Instance and function caches

  /** A cache lookup and the cache afterwards. */
  datatype Cached<T> = Cached(value: T, cache: map<string, T>)

  /** `getInstance` / `getTplFn`: the cached value when there is one;
      otherwise the newly created one, stored only when caching is on. */
  function GetCached<T>(cache: map<string, T>, enabled: bool, key: string, created: T): (r: Cached<T>)
    ensures key in cache ==> r.value == cache[key]
    ensures key !in cache ==> r.value == created
    ensures r.cache.Keys == cache.Keys + (if enabled then {key} else {})
    ensures forall k :: k in cache ==> r.cache[k] == cache[k]
  {
    if key in cache then Cached(cache[key], cache)
    else Cached(created, if enabled then cache[key := created] else cache)
  }

  /** With caching on, the second lookup of a path returns what the first
      one did, whatever would have been compiled. */
  lemma CachedOnce<T>(cache: map<string, T>, key: string, first: T, second: T)
    ensures var c := GetCached(cache, true, key, first);
      GetCached(c.cache, true, key, second) == c
  {
  }

  /** With caching off, a path not yet cached is compiled afresh every time. */
  lemma UncachedEachTime<T>(cache: map<string, T>, key: string, first: T, second: T)
    requires key !in cache
    ensures var c := GetCached(cache, false, key, first);
      c.cache == cache && GetCached(c.cache, false, key, second).value == second
  {
  }

  // ---------------------------------------------------------------------
  // Configuration of the adapter

  /** The XTemplate options derived from the environment. */
  datatype TemplateOptions = TemplateOptions(cache: bool, catchError: bool)

  /** As written (lines 27-28): the environment name is compared with
      `development` and `production`, names the configuration never produces. */
  function OptionsAsWritten(s: Config.Settings): TemplateOptions {
    TemplateOptions(s.env != Some("development"), s.env != Some("production"))
  }

  /** Whenever an environment was recognised, the written comparisons are
      always true: templates are cached and errors caught in every environment. */
  lemma OptionsAsWrittenConstant(argvEnv: Option<string>, nodeEnv: Option<string>, prodFalse: bool, presetEnv: Option<string>)
    requires Config.Load(argvEnv, nodeEnv, prodFalse, presetEnv).isProd.Some?
    ensures OptionsAsWritten(Config.Load(argvEnv, nodeEnv, prodFalse, presetEnv)) == TemplateOptions(true, true)
  {
  }

  /** `--env development` still caches templates as written. */
  lemma DevelopmentCachedAsWritten()
    ensures Config.Load(Some("development"), None, false, None).env == Some("dev")
    ensures OptionsAsWritten(Config.Load(Some("development"), None, false, None)).cache
  {
    Config.ArgvWins(Some("development"), None, false, None);
  }

  /** The comparisons made with the normalised names `dev` and `prod`. */
  function Options(s: Config.Settings): TemplateOptions {
    TemplateOptions(s.env != Some("dev"), s.env != Some("prod"))
  }

  /** With the normalised names, the cache is off exactly in development and
      errors are left uncaught exactly in production, whichever alias `--env`
      used. */
  lemma OptionsFollowEnvironment(argvEnv: Option<string>, nodeEnv: Option<string>, prodFalse: bool, presetEnv: Option<string>)
    requires Config.Recognised(argvEnv)
    ensures var o := Options(Config.Load(argvEnv, nodeEnv, prodFalse, presetEnv));
      (!o.cache <==> argvEnv.value in {"dev", "development"})
      && (!o.catchError <==> argvEnv.value in {"prod", "production"})
  {
    Config.ArgvWins(argvEnv, nodeEnv, prodFalse, presetEnv);
  }

  /** The adapter's defaults before the caller's configuration is applied. */
  function Defaults(o: TemplateOptions): JsValue.Dict {
    [("cache", JsValue.Bool(o.cache)), ("catchError", JsValue.Bool(o.catchError)),
     ("encoding", JsValue.Str("utf8")), ("defaultExtname", JsValue.Str(DefaultExtname))]
  }

  /** As written (line 205): `util.extend` is called, but `lib/util.js`
      exports only `each` and `isURL`, so the call throws before the view
      class is registered. */
  function SetupAsWritten(o: TemplateOptions, config: JsValue.Dict): (r: Result<JsValue.Dict, string>)
    ensures r.Err?
  {
    Err("TypeError: util.extend is not a function")
  }

  /** The configuration `app.js` passes cannot be applied as written. */
  lemma SetupAsWrittenFails(o: TemplateOptions, rootPath: string)
    ensures SetupAsWritten(o, [("rootPath", JsValue.Str(rootPath))]).Err?
  {
  }

  /** The configuration copied over the defaults (as `Object.assign` does),
      then `rootDirname` taken from a non-empty `rootPath`; `path.basename`
      throws on a truthy `rootPath` that is not a string. */
  function Setup(o: TemplateOptions, config: JsValue.Dict): (r: Result<JsValue.Dict, string>)
    ensures r.Err? <==> match JsValue.Get(JsValue.Assign(Defaults(o), config), "rootPath")
      case Some(v) => JsValue.Truthy(v) && !v.Str?
      case None => false
  {
    var t := JsValue.Assign(Defaults(o), config);
    match JsValue.Get(t, "rootPath")
    case Some(v) =>
      if v.Str? then Ok(if |v.s| > 0 then JsValue.Put(t, "rootDirname", JsValue.Str(Basename(v.s))) else t)
      else if JsValue.Truthy(v) then Err("TypeError: Path must be a string")
      else Ok(t)
    case None => Ok(t)
  }

  /** Every setting reads as the caller gave it, or as the default when the
      caller did not; a non-empty string `rootPath` also gives `rootDirname`
      its base name. */
  lemma SetupGet(o: TemplateOptions, config: JsValue.Dict, k: string, rootPath: string)
    requires JsValue.DistinctKeys(config)
    requires JsValue.Get(config, "rootPath") == Some(JsValue.Str(rootPath)) && |rootPath| > 0
    ensures Setup(o, config).Ok?
    ensures var d := Setup(o, config).value;
      JsValue.Get(d, k) == if k == "rootDirname" then Some(JsValue.Str(Basename(rootPath)))
        else if JsValue.HasKey(config, k) then JsValue.Get(config, k)
        else JsValue.Get(Defaults(o), k)
  {
    var t := JsValue.Assign(Defaults(o), config);
    JsValue.AssignGet(Defaults(o), config, "rootPath");
    JsValue.AssignGet(Defaults(o), config, k);
    JsValue.PutGet(t, "rootDirname", JsValue.Str(Basename(rootPath)), k);
  }
}

=== FILE: xtplcommands.dfy ===
/** The server-side template directives of `lib/xtpl-commands.js`: path
    resolution for asset references, the per-render asset lists that `css`,
    `headjs`, `js` and `modjs` fill, the asset URL prefix and the
    `resolvePath` directive. */
module XtplCommands {
  import opened Wrappers
  import opened Strings
  import NodePath
  import Util

  // ---------------------------------------------------------------------
  // The `m@v` rewrite

  predicate IsSeparator(c: char) {
    c == '/' || c == '\\'
  }

  /** The last `@` among `r[1..hi + 1]`. */
  function LastAt(r: string, hi: int): (j: Option<nat>)
    requires hi < |r|
    ensures j.Some? ==> 1 <= j.value <= hi && r[j.value] == '@'
    ensures j.Some? ==> forall k :: j.value < k <= hi ==> r[k] != '@'
    ensures j.None? ==> forall k :: 1 <= k <= hi ==> r[k] != '@'
    decreases hi
  {
    if hi < 1 then None else if r[hi] == '@' then Some(hi) else LastAt(r, hi - 1)
  }

  /** `([^\\/]+)@([^\\/]+)` on one run of non-separators. Both groups are
      greedy, so a match spans the whole run and splits it at the last `@`
      that leaves both groups non-empty; the run becomes `module/version/module`. */
  function RewriteRun(r: string): string {
    match LastAt(r, |r| - 2)
    case None => r
    case Some(j) => r[..j] + "/" + r[j + 1..] + "/" + r[..j]
  }

  /** `to.replace(/([^\\\/]+)@([^\\\/]+)/g, ...)`, scanning left to right
      with the pending run of non-separators in `run`: no match crosses a
      separator, so every maximal run is rewritten on its own. */
  function Scan(run: string, s: string): string
    decreases |s|
  {
    if |s| == 0 then RewriteRun(run)
    else if IsSeparator(s[0]) then RewriteRun(run) + [s[0]] + Scan("", s[1..])
    else Scan(run + [s[0]], s[1..])
  }

  function RewriteAt(s: string): string {
    Scan("", s)
  }

  lemma {:induction false} LastAtIs(r: string, hi: int, j: nat)
    requires 1 <= j <= hi < |r| && r[j] == '@'
    requires forall k :: j < k <= hi ==> r[k] != '@'
    ensures LastAt(r, hi) == Some(j)
    decreases hi
  {
    if hi > j {
      LastAtIs(r, hi - 1, j);
    }
  }

  /** A run `m@v` becomes `m/v/m`. */
  lemma RewriteRunModuleVersion(m: string, v: string)
    requires |m| > 0 && |v| > 0 && '@' !in v
    ensures RewriteRun(m + "@" + v) == m + "/" + v + "/" + m
  {
    var r := m + "@" + v;
    forall k | |m| < k <= |r| - 2 ensures r[k] != '@' {
      assert r[k] == v[k - |m| - 1];
    }
    LastAtIs(r, |r| - 2, |m|);
    assert r[..|m|] == m && r[|m| + 1..] == v;
  }

  /** A run without `@` is kept. */
  lemma RewriteRunNoAt(r: string)
    requires '@' !in r
    ensures RewriteRun(r) == r
  {
  }

  /** Characters of a run accumulate until the run ends. */
  lemma {:induction false} ScanSegment(run: string, seg: string)
    requires forall i :: 0 <= i < |seg| ==> !IsSeparator(seg[i])
    ensures Scan(run, seg) == RewriteRun(run + seg)
    decreases |seg|
  {
    if |seg| == 0 {
      assert run + seg == run;
    } else {
      ScanSegment(run + [seg[0]], seg[1..]);
      assert run + [seg[0]] + seg[1..] == run + seg;
    }
  }

  /** A segment without separators is one run. */
  lemma RewriteAtSegment(seg: string)
    requires forall i :: 0 <= i < |seg| ==> !IsSeparator(seg[i])
    ensures RewriteAt(seg) == RewriteRun(seg)
  {
    ScanSegment("", seg);
    assert "" + seg == seg;
  }

  lemma {:induction false} ScanSeparated(run: string, a: string, c: char, b: string)
    requires IsSeparator(c)
    ensures Scan(run, a + [c] + b) == Scan(run, a) + [c] + Scan("", b)
    decreases |a|
  {
    var s := a + [c] + b;
    if |a| == 0 {
      assert s == [c] + b && s[1..] == b;
    } else {
      assert s[0] == a[0] && s[1..] == a[1..] + [c] + b;
      ScanSeparated(if IsSeparator(a[0]) then "" else run + [a[0]], a[1..], c, b);
      if IsSeparator(a[0]) {
        ConcatAssoc(RewriteRun(run) + [a[0]], Scan("", a[1..]) + [c], Scan("", b));
        ConcatAssoc(RewriteRun(run) + [a[0]], Scan("", a[1..]), [c]);
      }
    }
  }

  /** The rewrite works separator by separator. */
  lemma RewriteAtSeparated(a: string, c: char, b: string)
    requires IsSeparator(c)
    ensures RewriteAt(a + [c] + b) == RewriteAt(a) + [c] + RewriteAt(b)
  {
    ScanSeparated("", a, c, b);
  }

  lemma {:induction false} ScanNoAt(run: string, s: string)
    requires '@' !in run && '@' !in s
    ensures Scan(run, s) == run + s
    decreases |s|
  {
    if |s| == 0 {
      assert run + s == run;
    } else {
      assert '@' !in s[1..] by {
        forall k | 0 <= k < |s[1..]| ensures s[1..][k] != '@' { assert s[1..][k] == s[k + 1]; }
      }
      if IsSeparator(s[0]) {
        ScanNoAt("", s[1..]);
        assert run + [s[0]] + ("" + s[1..]) == run + s;
      } else {
        ScanNoAt(run + [s[0]], s[1..]);
        assert run + [s[0]] + s[1..] == run + s;
      }
    }
  }

  /** A string without `@` is not rewritten. */
  lemma RewriteAtNoAt(s: string)
    requires '@' !in s
    ensures RewriteAt(s) == s
  {
    ScanNoAt("", s);
    assert "" + s == s;
  }

  /** Every `/`-separated segment is rewritten on its own: `m@v` segments
      become `m/v/m` and the others stay as they are. */
  lemma {:induction false} RewriteAtSegments(segs: seq<string>)
    requires forall i, k :: 0 <= i < |segs| && 0 <= k < |segs[i]| ==> !IsSeparator(segs[i][k])
    ensures RewriteAt(Join(segs, "/")) == Join(seq(|segs|, i requires 0 <= i < |segs| => RewriteRun(segs[i])), "/")
    decreases |segs|
  {
    var out := seq(|segs|, i requires 0 <= i < |segs| => RewriteRun(segs[i]));
    if |segs| == 1 {
      RewriteAtSegment(segs[0]);
    } else if |segs| > 1 {
      var rest := segs[1..];
      assert forall i, k :: 0 <= i < |rest| && 0 <= k < |rest[i]| ==> rest[i][k] == segs[i + 1][k];
      RewriteAtSegments(rest);
      RewriteAtSegment(segs[0]);
      RewriteAtSeparated(segs[0], '/', Join(rest, "/"));
      assert segs[0] + "/" + Join(rest, "/") == segs[0] + ['/'] + Join(rest, "/");
      var outRest := seq(|rest|, i requires 0 <= i < |rest| => RewriteRun(rest[i]));
      assert out[1..] == outRest;
    }
  }

  // ---------------------------------------------------------------------
  // Resolution

  /** `if (!path.extname(to) && extname) to += '.' + extname`. */
  function WithDefaultExt(to: string, ext: string): (r: string)
    ensures NodePath.Extname(to) != "" || ext == "" ==> r == to
    ensures NodePath.Extname(to) == "" && ext != "" ==> r == to + "." + ext
  {
    if NodePath.Extname(to) == "" && ext != "" then to + "." + ext else to
  }

  /** A path gets a default extension at most once. */
  lemma WithDefaultExtIdempotent(to: string, ext: string)
    requires NodePath.LastSegment(to) != ""
    requires ext == "" || ('/' !in ext && ext[|ext| - 1] != '.')
    ensures WithDefaultExt(WithDefaultExt(to, ext), ext) == WithDefaultExt(to, ext)
  {
    if NodePath.Extname(to) == "" && ext != "" {
      NodePath.ExtnameOfAppended(to, ext);
    }
  }

  /** `resolvePath(rootPath, from, to, extname)`: `m@v` rewrite, default
      extension, then absolute paths and URLs as they are, `.`-paths against
      the directory of `from` and the rest against `rootPath`. */
  function ResolveAsset(rootPath: string, from: string, to: string, ext: string): (r: string)
    ensures var t := WithDefaultExt(RewriteAt(to), ext);
      NodePath.IsAbsolute(t) || Util.IsURL(t) ==> r == t
    ensures var t := WithDefaultExt(RewriteAt(to), ext);
      NodePath.IsAbsolute(rootPath) && !(|t| > 0 && t[0] == '.') ==> NodePath.IsAbsolute(r) || Util.IsURL(r)
  {
    var t := WithDefaultExt(RewriteAt(to), ext);
    if NodePath.IsAbsolute(t) || Util.IsURL(t) then t
    else if |t| > 0 && t[0] == '.' then NodePath.JoinPaths(NodePath.Dirname(from), t)
    else NodePath.JoinPaths(rootPath, t)
  }

  /** A path that, after the `m@v` rewrite and the default extension,
      starts with `.` is resolved against the directory of the referencing
      template. */
  lemma ResolveDotRelative(rootPath: string, from: string, to: string, ext: string)
    requires var t := WithDefaultExt(RewriteAt(to), ext); |t| > 0 && t[0] == '.'
    ensures ResolveAsset(rootPath, from, to, ext) ==
      NodePath.JoinPaths(NodePath.Dirname(from), WithDefaultExt(RewriteAt(to), ext))
  {
    Util.DotIsNotURL(WithDefaultExt(RewriteAt(to), ext));
  }

  /** Any other relative path is resolved against the root. */
  lemma ResolveRootRelative(rootPath: string, from: string, to: string, ext: string)
    requires var t := WithDefaultExt(RewriteAt(to), ext);
      !NodePath.IsAbsolute(t) && !Util.IsURL(t) && !(|t| > 0 && t[0] == '.')
    ensures ResolveAsset(rootPath, from, to, ext) == NodePath.JoinPaths(rootPath, WithDefaultExt(RewriteAt(to), ext))
  {
  }

  /** A root-relative reference that does not climb with `..` lands under
      the root, at the normalised segments of the rewritten path. */
  lemma ResolveUnderRoot(cwd: string, rootPath: string, from: string, to: string, ext: string)
    requires NodePath.IsAbsolute(rootPath)
    requires var t := WithDefaultExt(RewriteAt(to), ext);
      !NodePath.IsAbsolute(t) && !Util.IsURL(t) && !(|t| > 0 && t[0] == '.') && ".." !in Split(t, '/')
    ensures var t := WithDefaultExt(RewriteAt(to), ext);
      NodePath.Relative(cwd, rootPath, ResolveAsset(rootPath, from, to, ext)) == Join(NodePath.Kept(Split(t, '/')), "/")
  {
    ResolveRootRelative(rootPath, from, to, ext);
    NodePath.RelativeOfJoin(cwd, rootPath, WithDefaultExt(RewriteAt(to), ext));
  }

  /** A name usable as a module, version or extension in an asset
      reference: no separator and no `:`. */
  predicate PlainName(s: string) {
    |s| > 0 && '/' !in s && '\\' !in s && ':' !in s
  }

  /** The path a versioned module reference `m@v` becomes before it is
      resolved, with the directive's extension. */
  lemma ModuleReferenceRewritten(m: string, v: string, ext: string)
    requires PlainName(m) && PlainName(v) && PlainName(ext)
    requires '.' !in m && '@' !in v
    ensures WithDefaultExt(RewriteAt(m + "@" + v), ext) == m + "/" + v + "/" + m + "." + ext
  {
    var r := m + "@" + v;
    assert forall i :: 0 <= i < |r| ==> !IsSeparator(r[i]) by {
      forall i | 0 <= i < |r| ensures !IsSeparator(r[i]) {
        assert r[i] in r;
      }
    }
    RewriteAtSegment(r);
    RewriteRunModuleVersion(m, v);
    var p := m + "/" + v + "/" + m;
    assert NodePath.Extname(p) == "" by {
      NodePath.BasenameAfterSlash(m + "/" + v, m);
    }
  }

  /** A versioned module reference `m@v` in a `css` or `js` directive, for
      instance `jquery@1.12` with `js`, lands under the root at
      `m/v/m.<ext>`. */
  lemma ModuleReferenceUnderRoot(cwd: string, rootPath: string, from: string, m: string, v: string, ext: string)
    requires NodePath.IsAbsolute(rootPath)
    requires PlainName(m) && PlainName(v) && PlainName(ext)
    requires '.' !in m && '@' !in v && v != "." && v != ".."
    ensures NodePath.Relative(cwd, rootPath, ResolveAsset(rootPath, from, m + "@" + v, ext)) == m + "/" + v + "/" + m + "." + ext
  {
    ModuleReferenceRewritten(m, v, ext);
    ModulePathSegments(m, v, ext);
    ModulePathNotURL(m, v, ext);
    ResolveUnderRoot(cwd, rootPath, from, m + "@" + v, ext);
  }

  /** The segments of `m/v/m.<ext>` are kept by normalisation as they are. */
  lemma ModulePathSegments(m: string, v: string, ext: string)
    requires PlainName(m) && PlainName(v) && PlainName(ext)
    requires '.' !in m && v != "." && v != ".."
    ensures var t := m + "/" + v + "/" + m + "." + ext;
      ".." !in Split(t, '/') && Join(NodePath.Kept(Split(t, '/')), "/") == t
  {
    var w := m + "." + ext;
    var t := m + "/" + v + "/" + m + "." + ext;
    var segs := [m, v, w];
    assert Join(segs, "/") == t by {
      assert Join(segs[1..], "/") == v + "/" + w by {
        assert segs[1..][1..] == [w];
      }
      ConcatAssoc(m + "/", v, "/" + w);
      ConcatAssoc(v, "/", w);
      ConcatAssoc(m + "/" + v + "/", m, "." + ext);
      ConcatAssoc(m, ".", ext);
    }
    assert m[0] in m;
    assert w[0] == m[0];
    SplitJoin(segs, '/');
    assert NodePath.Kept(segs) == segs by {
      assert NodePath.Kept(segs[2..]) == [w] by {
        assert segs[2..][1..] == [];
      }
      assert NodePath.Kept(segs[1..]) == [v, w] by {
        assert segs[1..][1..] == segs[2..];
      }
      assert segs[1..] == [v, w];
    }
  }

  /** `m/v/m.<ext>` starts with neither `/` nor `.` and is no URL. */
  lemma ModulePathNotURL(m: string, v: string, ext: string)
    requires PlainName(m) && PlainName(v) && PlainName(ext) && '.' !in m
    ensures var t := m + "/" + v + "/" + m + "." + ext;
      !NodePath.IsAbsolute(t) && !Util.IsURL(t) && !(|t| > 0 && t[0] == '.')
  {
    var t := m + "/" + v + "/" + m + "." + ext;
    assert t[0] == m[0] && m[0] in m;
    assert ':' !in t;
  }

  // ---------------------------------------------------------------------
  // Per-render asset lists

  /** The template being rendered and the templates that include it: the
      directives find the page data at the top of the chain. */
  datatype Frame = Top(data: AssetLists) | Nested(parent: Frame)

  /** `findRootData(tplWrap)`: the data of the topmost frame. */
  function FindRootData(f: Frame): (d: AssetLists)
    ensures f.Top? ==> d == f.data
  {
    match f
    case Top(d) => d
    case Nested(p) => FindRootData(p)
  }

  /** The frames from `f` up to the top. */
  function Ancestry(f: Frame): (fs: seq<Frame>)
    ensures |fs| > 0 && fs[0] == f && fs[|fs| - 1].Top?
  {
    match f
    case Top(_) => [f]
    case Nested(p) => [f] + Ancestry(p)
  }

  /** Every frame on the way up reads the same page data, so nested
      directives all fill one list per render. */
  lemma {:induction false} FindRootDataShared(f: Frame)
    ensures forall i :: 0 <= i < |Ancestry(f)| ==> FindRootData(Ancestry(f)[i]) == FindRootData(f)
    ensures FindRootData(f) == Ancestry(f)[|Ancestry(f)| - 1].data
  {
    match f
    case Top(_) =>
    case Nested(p) =>
      FindRootDataShared(p);
      assert forall i :: 1 <= i < |Ancestry(f)| ==> Ancestry(f)[i] == Ancestry(p)[i - 1];
  }

  /** One element of an asset list: a path, or the `{params, content}` of a
      block-form directive. */
  datatype AssetEntry = Path(path: string) | Inline(params: seq<string>, content: string)

  /** The lists held in the page data under `cssList`, `headjsList`,
      `jsList` and `modjsList`; a name that is absent has no list yet. */
  type AssetLists = map<string, seq<AssetEntry>>

  /** The directives that fill lists, with the list they fill and the
      extension they default to. */
  datatype AssetKind = Css | HeadJs | Js | ModJs {
    function ListName(): string {
      match this
      case Css => "cssList"
      case HeadJs => "headjsList"
      case Js => "jsList"
      case ModJs => "modjsList"
    }
    function DefaultExt(): string {
      match this
      case Css => "css"
      case HeadJs => "raw.js"
      case Js => "raw.js"
      case ModJs => "js"
    }
  }

  predicate NoDuplicatePaths(list: seq<AssetEntry>) {
    forall i, j :: 0 <= i < j < |list| && list[i].Path? && list[j].Path? ==> list[i].path != list[j].path
  }

  /** `if (assetList.indexOf(p) === -1) assetList.push(p)` for every path in
      turn. A block entry is an object and never equals a path. */
  function AddPaths(list: seq<AssetEntry>, paths: seq<string>): (r: seq<AssetEntry>)
    ensures |list| <= |r| && r[..|list|] == list
    ensures forall p :: p in paths ==> Path(p) in r
    ensures forall i :: |list| <= i < |r| ==> r[i].Path? && r[i].path in paths && r[i] !in list
    ensures NoDuplicatePaths(list) ==> NoDuplicatePaths(r)
    decreases |paths|
  {
    if |paths| == 0 then list
    else
      var next := AddPath(list, paths[0]);
      var r := AddPaths(next, paths[1..]);
      AddPathsStep(list, paths, next, r);
      r
  }

  /** One `push` unless the path is already listed. */
  function AddPath(list: seq<AssetEntry>, p: string): (r: seq<AssetEntry>)
    ensures |list| <= |r| && r[..|list|] == list && Path(p) in r
    ensures forall i :: |list| <= i < |r| ==> r[i] == Path(p) && r[i] !in list
    ensures NoDuplicatePaths(list) ==> NoDuplicatePaths(r)
  {
    if Path(p) in list then list else list + [Path(p)]
  }

  /** What adding the first path and then the rest gives, in terms of the
      whole list of paths. */
  lemma AddPathsStep(list: seq<AssetEntry>, paths: seq<string>, next: seq<AssetEntry>, r: seq<AssetEntry>)
    requires |paths| > 0
    requires |list| <= |next| && next[..|list|] == list && Path(paths[0]) in next
    requires forall i :: |list| <= i < |next| ==> next[i] == Path(paths[0]) && next[i] !in list
    requires NoDuplicatePaths(list) ==> NoDuplicatePaths(next)
    requires |next| <= |r| && r[..|next|] == next
    requires forall p :: p in paths[1..] ==> Path(p) in r
    requires forall i :: |next| <= i < |r| ==> r[i].Path? && r[i].path in paths[1..] && r[i] !in next
    requires NoDuplicatePaths(next) ==> NoDuplicatePaths(r)
    ensures |list| <= |r| && r[..|list|] == list
    ensures forall p :: p in paths ==> Path(p) in r
    ensures forall i :: |list| <= i < |r| ==> r[i].Path? && r[i].path in paths && r[i] !in list
    ensures NoDuplicatePaths(list) ==> NoDuplicatePaths(r)
  {
    assert r[..|list|] == list by {
      assert r[..|list|] == r[..|next|][..|list|];
    }
    assert Path(paths[0]) in r by {
      var k :| 0 <= k < |next| && next[k] == Path(paths[0]);
      assert r[k] == r[..|next|][k];
    }
    forall p | p in paths ensures Path(p) in r {
      if p != paths[0] {
        var k :| 0 <= k < |paths| && paths[k] == p;
        assert paths[1..][k - 1] == p;
      }
    }
    forall i | |list| <= i < |r| ensures r[i].Path? && r[i].path in paths && r[i] !in list {
      if i < |next| {
        assert r[i] == r[..|next|][i];
      } else {
        assert r[i].Path? && r[i].path in paths[1..] && r[i] !in next;
        var k :| 0 <= k < |paths[1..]| && paths[1..][k] == r[i].path;
        assert paths[k + 1] == r[i].path;
        forall q | 0 <= q < |list| ensures list[q] != r[i] {
          assert list[q] == next[..|list|][q];
        }
      }
    }
  }

  /** Adding the same paths again changes nothing. */
  lemma {:induction false} AddPathsIdempotent(list: seq<AssetEntry>, paths: seq<string>)
    requires forall p :: p in paths ==> Path(p) in list
    ensures AddPaths(list, paths) == list
    decreases |paths|
  {
    if |paths| > 0 {
      assert paths[0] in paths;
      assert forall p :: p in paths[1..] ==> p in paths;
      AddPathsIdempotent(list, paths[1..]);
    }
  }

  /** What a list directive writes and leaves behind. */
  datatype Imported = Imported(lists: AssetLists, output: string)

  /** The list stored under `name`, or a fresh empty one (`rootData[type] || []`). */
  function ListOf(lists: AssetLists, name: string): seq<AssetEntry> {
    if name in lists then lists[name] else []
  }

  /** The directive's parameters, each resolved with the directive's default extension. */
  function ResolvedParams(kind: AssetKind, rootPath: string, from: string, params: seq<string>): (ps: seq<string>)
    ensures |ps| == |params|
    ensures forall i :: 0 <= i < |ps| ==> ps[i] == ResolveAsset(rootPath, from, params[i], kind.DefaultExt())
  {
    seq(|params|, i requires 0 <= i < |params| => ResolveAsset(rootPath, from, params[i], kind.DefaultExt()))
  }

  /** `css`/`headjs`/`js`/`modjs` as built by `createAssetImporter`: every
      parameter is resolved and added to the page's list, and in block form
      (`body` holds what the block rendered) one `{params, content}` entry
      with the resolved parameters and the trimmed body follows. Nothing
      visible is written either way. */
  function ImportAssets(kind: AssetKind, rootPath: string, from: string, lists: AssetLists,
                        params: seq<string>, body: Option<string>): (r: Imported)
    ensures r.output == ""
    ensures forall k :: k != kind.ListName() ==> (k in r.lists <==> k in lists) && (k in lists ==> r.lists[k] == lists[k])
    ensures kind.ListName() in r.lists
    ensures var paths := ResolvedParams(kind, rootPath, from, params);
      var added := AddPaths(ListOf(lists, kind.ListName()), paths);
      r.lists[kind.ListName()] == (if body.None? then added else added + [Inline(paths, Trim(body.value))])
  {
    var name := kind.ListName();
    var paths := ResolvedParams(kind, rootPath, from, params);
    var added := AddPaths(ListOf(lists, name), paths);
    var list := if body.None? then added else added + [Inline(paths, Trim(body.value))];
    Imported(lists[name := list], "")
  }

  /** A plain-form directive keeps its list free of repeated paths and in
      first-reference order: earlier entries stay where they were, and every
      resolved parameter is in the list afterwards. */
  lemma ImportKeepsOrderAndNoDuplicates(kind: AssetKind, rootPath: string, from: string, lists: AssetLists, params: seq<string>)
    requires NoDuplicatePaths(ListOf(lists, kind.ListName()))
    ensures var r := ImportAssets(kind, rootPath, from, lists, params, None).lists[kind.ListName()];
      var l := ListOf(lists, kind.ListName());
      NoDuplicatePaths(r) && |l| <= |r| && r[..|l|] == l
      && forall i :: 0 <= i < |params| ==> Path(ResolveAsset(rootPath, from, params[i], kind.DefaultExt())) in r
  {
    var paths := ResolvedParams(kind, rootPath, from, params);
    assert forall i :: 0 <= i < |params| ==> paths[i] in paths;
  }

  /** Adding the same paths to the same list twice leaves the lists as after the first time. */
  lemma AddToListTwice(lists: AssetLists, name: string, paths: seq<string>)
    ensures var once := lists[name := AddPaths(ListOf(lists, name), paths)];
      once[name := AddPaths(ListOf(once, name), paths)] == once
  {
    var once := lists[name := AddPaths(ListOf(lists, name), paths)];
    assert ListOf(once, name) == once[name];
    AddPathsIdempotent(once[name], paths);
    assert once[name := once[name]] == once;
  }

  /** The same plain-form directive twice adds nothing the second time. */
  lemma ImportTwice(kind: AssetKind, rootPath: string, from: string, lists: AssetLists, params: seq<string>)
    ensures var once := ImportAssets(kind, rootPath, from, lists, params, None).lists;
      ImportAssets(kind, rootPath, from, once, params, None).lists == once
  {
    var name := kind.ListName();
    var paths := ResolvedParams(kind, rootPath, from, params);
    var once := lists[name := AddPaths(ListOf(lists, name), paths)];
    assert ImportAssets(kind, rootPath, from, lists, params, None).lists == once;
    assert ImportAssets(kind, rootPath, from, once, params, None).lists == once[name := AddPaths(ListOf(once, name), paths)];
    AddToListTwice(lists, name, paths);
  }

  // ---------------------------------------------------------------------
  // The URL prefix and the `resolvePath` directive

  /** Ends `p` with a `/` unless it already does. */
  function WithTrailingSlash(p: string): (r: string)
    ensures EndsWith(r, "/")
    ensures r == p || r == p + "/"
    ensures r == p <==> EndsWith(p, "/")
  {
    if |p| > 0 && p[|p| - 1] == '/' then p else p + "/"
  }

  lemma WithTrailingSlashIdempotent(p: string)
    ensures WithTrailingSlash(WithTrailingSlash(p)) == WithTrailingSlash(p)
    ensures EndsWith(p, "/") ==> WithTrailingSlash(p) == p
  {
  }

  /** `assetURLPrefix`: the configured `url_prefix` when there is an asset
      configuration, `/<rootDirname>` otherwise, ending in `/`. */
  function AssetUrlPrefix(urlPrefix: Option<string>, rootDirname: string): (r: string)
    ensures EndsWith(r, "/")
    ensures var p := if urlPrefix.Some? then urlPrefix.value else "/" + rootDirname;
      (r == p || r == p + "/") && (r == p <==> EndsWith(p, "/"))
  {
    WithTrailingSlash(if urlPrefix.Some? then urlPrefix.value else "/" + rootDirname)
  }

  /** The `resolvePath` directive: the first parameter resolved, made
      relative to `rootPath` with `/` separators, after the prefix; with an
      md5 map, the map's entry for that path instead (`undefined` when it has
      none, as string concatenation spells it). Without a parameter, `to` is
      `undefined` and `to.replace` throws. */
  function ResolvePathCommand(cwd: string, rootPath: string, prefix: string, md5Map: Option<map<string, string>>,
                              templateName: string, params: seq<string>): (r: Result<string, string>)
    ensures r.Err? <==> |params| == 0
    ensures r.Ok? ==> StartsWith(r.value, prefix)
    ensures r.Ok? && md5Map.None? ==> '\\' !in r.value[|prefix|..]
  {
    if |params| == 0 then Err("TypeError: Cannot read property 'replace' of undefined")
    else
      var assetPath := ReplaceAllChar(NodePath.Relative(cwd, rootPath, ResolveAsset(rootPath, templateName, params[0], "")), '\\', "/");
      var tail := match md5Map
        case None => assetPath
        case Some(m) => if assetPath in m then m[assetPath] else "undefined";
      assert (prefix + tail)[|prefix|..] == tail;
      Ok(prefix + tail)
  }

  /** A root-relative reference without `..`, `@` or backslashes comes out
      as the prefix followed by its normalised segments. */
  lemma ResolvePathRootRelative(cwd: string, rootPath: string, prefix: string, templateName: string, to: string)
    requires NodePath.IsAbsolute(rootPath)
    requires '@' !in to && '\\' !in to && ".." !in Split(to, '/')
    requires |to| > 0 && to[0] != '.' && to[0] != '/' && !Util.IsURL(to)
    ensures ResolvePathCommand(cwd, rootPath, prefix, None, templateName, [to])
      == Ok(prefix + Join(NodePath.Kept(Split(to, '/')), "/"))
  {
    RewriteAtNoAt(to);
    ResolveRootRelative(rootPath, templateName, to, "");
    NodePath.RelativeOfJoin(cwd, rootPath, to);
    var kept := NodePath.Kept(Split(to, '/'));
    SplitAvoids(to, '/', '\\');
    NodePath.KeptMembers(Split(to, '/'));
    forall i | 0 <= i < |kept| ensures '\\' !in kept[i] {
      assert kept[i] in kept;
      assert kept[i] in Split(to, '/');
    }
    JoinAvoids(kept, "/", '\\');
  }

  /** With an md5 map, the directive answers the map's entry for the path. */
  lemma ResolvePathThroughMd5(cwd: string, rootPath: string, prefix: string, m: map<string, string>, templateName: string, to: string)
    requires NodePath.IsAbsolute(rootPath)
    requires '@' !in to && '\\' !in to && ".." !in Split(to, '/')
    requires |to| > 0 && to[0] != '.' && to[0] != '/' && !Util.IsURL(to)
    requires Join(NodePath.Kept(Split(to, '/')), "/") in m
    ensures ResolvePathCommand(cwd, rootPath, prefix, Some(m), templateName, [to])
      == Ok(prefix + m[Join(NodePath.Kept(Split(to, '/')), "/")])
  {
    ResolvePathRootRelative(cwd, rootPath, prefix, templateName, to);
  }
}
